=== FILE: README.md ===
# PipelinePro core, modelled in Dafny

PipelinePro is a sales-enablement web application. It has two halves, and this project models the logic of both.

- **The pipeline.** A deterministic generator produces each sales rep's deals and metrics. A deal-health dashboard sums up the open action items and ranks the reps. A pipeline view filters a rep's deals, groups them by client and walks a logo fallback chain.
- **The live coach.** A WebSocket client streams 16-bit PCM microphone audio to a speech model and schedules the model's audio replies back to back. It reconnects with exponential backoff. The coach screen accumulates the transcript, runs a countdown and hands the finished conversation to an analysis service.

There is one module per source file:

| module | source file |
|---|---|
| `Deals` | `data/deals.ts` |
| `RepMetrics` | `data/repMetrics.ts` |
| `Dashboard` | `components/DealHealthDashboard.tsx` |
| `Pipeline` | `components/DealPipeline.tsx` |
| `LiveClient` | `services/liveClient.ts`, its state machine |
| `Base64` | `services/liveClient.ts`, the `btoa`/`atob` codec used by its `encode`/`decode` |
| `Pcm` | `services/liveClient.ts`, PCM framing, `createBlob` and `decodeAudioData` |
| `Playback` | `services/liveClient.ts`, the gap-free playback scheduler |
| `DealCoach` | `components/DealCoach.tsx` |
| `Analysis` | `services/analysisService.ts` |

`Types` mirrors `types.ts`. `Wrappers` (Option/Result), `Seqs` (filter, sum, count), `Strings` (JavaScript trim, ASCII lower-casing, substring search, decimal digits) and `StableSort` (the stable descending `Array.prototype.sort`) are helpers.

Everything is a pure function over immutable datatypes. Event handlers are written as `(state, event) -> (state, effects)`.

Some inputs are parameters rather than modelled:

- **The rep directory** (`salesReps.ts`) is a parameter, a `seq<SalesRep>`. `salesReps.ts` is not part of this model.
- **The seeded pseudo-random fractions** `x - floor(x)` with `x = sin(rank + offset) * 10000` are the parameter `noise: int -> real`. The model only assumes that every value lies in `[0, 1)` (`Deals.IsNoise`).
- **The clock, the API key, microphone permission, the outcome of the session handshake and of the image-generation call** are given as parameters or events.

## Model

| member | source | states |
|---|---|---|
| Deals.FindRep | data/deals.ts:43-44 | `None` exactly when no rep has the id; otherwise the first rep whose id matches |
| Deals.DealScore | data/deals.ts:30-40 | ranks 1-5 score 91..100, ranks 6-100 score 50..90 |
| Deals.DealScoreMonotone | data/deals.ts:30-40 | a better (smaller) rank never scores lower |
| Deals.DealScoreValues | data/deals.ts:33-39 | the band edges: rank 1 → 100, 5 → 91, 6 → 90, 100 → 50 |
| Deals.FracIndex | data/deals.ts:68-70 | `floor(f * n)` for a fraction in [0,1) is a valid index below `n` |
| Deals.Health | data/deals.ts:73-75 | health lies between the clamped values of base−5 and base+4; it is unclamped for a base in 25..95, reaches 20 only for a base ≤ 25 and 100 only for a base ≥ 96, and a middle draw gives the clamped base itself |
| Deals.HealthMonotone | data/deals.ts:72-75 | a higher base score or a higher draw never gives a lower health |
| Deals.StatusOf | data/deals.ts:77-80 | Critical iff < 40, Risk iff 40..59, Watch iff 60..79, Healthy iff ≥ 80 |
| Deals.StatusMonotone | data/deals.ts:77-80 | higher health never gives a more severe status |
| Deals.Quota | data/deals.ts:57 | the quota used (`rep.quota \|\| 400000`) is never zero |
| Deals.DealId | data/deals.ts:89 | the id `parseInt(rank ++ i)` equals rank·10^digits(i) + i, and 10·rank + i for i < 10 |
| Deals.DealHealth | data/deals.ts:73-75 | the health of deal i is the rep's deal score moved by the seeded draw at offset i + 4, and it lies in [20, 100] |
| Deals.MakeDeal | data/deals.ts:66-99 | one generated deal: account from the account list (round-robin for Michael), name "account - suffix", never Closed Lost, health equal to the rep's score moved by draw i + 4 with a matching status, id the digits of rank then i, owned by the rep |
| Deals.Book | data/deals.ts:66-100 | a count-long book whose k-th deal has the k-th health draw and id, the rep as owner, a listed account (account k mod 33 for Michael), never Closed Lost, and a status matching its health |
| Deals.DealsForRep | data/deals.ts:42-103 | an unknown rep gets no deals; otherwise 35 deals for Michael and 8 for anyone else, each owned by the rep, not Closed Lost, from the account list, with the k-th deal's health the rep's score moved by draw k + 4 (in [20,100]), its id the digits of rank then k, and status consistent with health; Michael's k-th deal is account k mod 33 |
| Deals.OwnerSlice | data/deals.ts:105-107 | in the flat-mapped deal list, the deals owned by one rep (ids distinct) are exactly that rep's `getDealsForRep` list, in order |
| Deals.OwnerAbsent | data/deals.ts:105-107 | an id that is no rep's id owns no deal of the flat-mapped list |
| Deals.AllDealsOwnerSlice | data/deals.ts:105-107 | `getAllDeals()` filtered by owner gives back `getDealsForRep` for that owner |
| Deals.AllDeals | data/deals.ts:105-107 | every deal of the flat list is owned by a rep of the directory |
| Deals.AccountsHaveNoDash | data/deals.ts:4-10 | no account name contains the `" - "` separator |
| Deals.NameSplitsToAccount | data/deals.ts:90-91 | splitting "account - suffix" at the first `" - "` returns the account |
| Deals.DealNameSplits | data/deals.ts:90-91 | every generated deal's name splits back to its own account |
| RepMetrics.RepScore | data/repMetrics.ts:6-19 | ranks 1..100 score within [20,100] |
| RepMetrics.RepScoreBands | data/repMetrics.ts:11-18 | the five bands: 1-18 → 90..100, 19-35 → 79..89, 36-80 (except 50) → 60..79, 81-95 → 40..59, 96-100 → 20..39 |
| RepMetrics.RepScoreMonotone | data/repMetrics.ts:6-19 | away from the pinned rank 50, a better rank never scores lower |
| RepMetrics.PinnedRankBreaksOrder | data/repMetrics.ts:9 | rank 50 (pinned to 65) scores below rank 51 (72) |
| RepMetrics.TrendOf | data/repMetrics.ts:41 | Improving iff > 80, Stable iff 61..80, Declining iff ≤ 60 |
| RepMetrics.MissingFields | data/repMetrics.ts:43 | between 1 and 8; 1 iff score ≥ 92; 8 iff score ≤ 43; otherwise `ceil((100 − score)/8)` in bracket form |
| RepMetrics.PotentialGain | data/repMetrics.ts:44 | `round(0.4·(100 − score))` is within 0.4 of the exact value |
| RepMetrics.StaticRand | data/repMetrics.ts:36-39 | a seeded draw lies in [min, max] |
| RepMetrics.CoverageTenths | data/repMetrics.ts:31 | coverage in tenths is within half a tenth of pipeline/quota |
| RepMetrics.GetRepMetrics | data/repMetrics.ts:21-85 | fails with "Rep with ID … not found" iff the rep is unknown; otherwise the score, the opportunity count, the coverage sum and the quota; the trend, missing fields and potential gain of that score; the coverage multiple of that sum and quota; the count of deals with health below 60; and every seeded field within its stated range |
| RepMetrics.AtRiskMatchesStatus | data/repMetrics.ts:32 | the at-risk count equals the number of deals whose status is Risk or Critical |
| RepMetrics.LeadsMoveTogether | data/repMetrics.ts:64-65 | leads and qualified leads come from the same draw, so more leads never come with fewer qualified leads |
| Dashboard.TargetScore | components/DealHealthDashboard.tsx:48 | the target is base + adjustment capped at 100 |
| Dashboard.AnimationStep | components/DealHealthDashboard.tsx:62-70 | each tick moves the shown score one point toward the target |
| Dashboard.Animate | components/DealHealthDashboard.tsx:62-70 | the animation visits every integer between the start and the target once, one point per frame, and ends at the target |
| Dashboard.AnimationFromMount | components/DealHealthDashboard.tsx:47-48 | starting from the uncapped score above 100, the ring counts down to 100 and never leaves [100, start] |
| Dashboard.RingColor | components/DealHealthDashboard.tsx:72-77 | cyan iff ≥ 100, blue iff 80..99, orange iff 60..79, red iff < 60 |
| Dashboard.RingColorMonotone | components/DealHealthDashboard.tsx:72-77 | a higher score never gives a lower ring colour |
| Dashboard.Summarize | components/DealHealthDashboard.tsx:81-89 | visible = not completed; missing = visible missing-field items; potential = the visible potential items sorted by non-increasing points (a permutation); the two point sums; each completion flag iff its list is empty; the quick-path action is the first visible one |
| Dashboard.RiskCompleteSpec | components/DealHealthDashboard.tsx:88 | the risk section is complete iff every uncompleted action is not a missing-field action |
| Dashboard.GrowthCompleteSpec | components/DealHealthDashboard.tsx:89 | the growth section is complete iff every uncompleted action is not a potential action |
| Dashboard.CompletingAction | components/DealHealthDashboard.tsx:81-86 | completing one action lowers exactly its own section's total by its points and leaves the other total unchanged |
| Dashboard.QuickPathPoints | components/DealHealthDashboard.tsx:276 | the button shows the action's points, or 15 when there is none or its points are 0 (the `||` default on a falsy value) |
| Dashboard.QuickPathLabel | components/DealHealthDashboard.tsx:272 | the button shows the action's label, or "Scan for Insights" when there is none or its label is empty (the `||` default on a falsy value) |
| Dashboard.Standings | components/DealHealthDashboard.tsx:92-95 | the current user scores the target; every other rep scores their rank score |
| Dashboard.Leaderboard | components/DealHealthDashboard.tsx:91-98 | one entry per rep, ranks 1..n in order, scores non-increasing, a permutation of the standings |
| Dashboard.LeaderboardStable | components/DealHealthDashboard.tsx:96 | reps with equal scores keep the directory order |
| Dashboard.UserRankIndex | components/DealHealthDashboard.tsx:100 | `findIndex`: −1 iff the user is absent, otherwise the first matching index |
| Dashboard.UserOnBoard | components/DealHealthDashboard.tsx:91-100 | a user in the directory is on the board with the target score |
| Dashboard.WindowOf | components/DealHealthDashboard.tsx:104-125 | the full list, or the top three when the user is in them, or the top three plus the slice around the user (the user, their neighbours, a gap flag iff the slice starts after index 3) |
| Pipeline.FilterDeals | components/DealPipeline.tsx:189-198 | keeps only deals the user owns that match, and keeps every owned deal whose lower-cased name or account contains the trimmed, lower-cased query (every owned deal when that query is blank) |
| Pipeline.Matches | components/DealPipeline.tsx:193-196 | a blank trimmed query matches every deal; otherwise a deal matches exactly when its lower-cased name or account contains the query (both directions stated) |
| Pipeline.BlankQueryKeepsOwned | components/DealPipeline.tsx:191-196 | a blank query keeps every owned deal in order |
| Pipeline.BlankQueryShowsOwnBook | components/DealPipeline.tsx:187-198 | with a blank query the view lists exactly the user's generated deals |
| Pipeline.Squeeze | components/DealPipeline.tsx:204 | the fallback-domain squeeze removes every whitespace and `&` character |
| Pipeline.SqueezeIsFilter | components/DealPipeline.tsx:204 | `replace(/[\s&]+/g, '')` is the filter of the characters that are not whitespace or `&` |
| Pipeline.Domain | components/DealPipeline.tsx:204 | a mapped account uses its mapped domain; otherwise the lower-cased account with every whitespace character and `&` filtered out, plus ".com" |
| Pipeline.FindGroup | components/DealPipeline.tsx:229-230 | the first group with the name, or −1 iff there is none |
| Pipeline.AddDeal | components/DealPipeline.tsx:202-211 | a new account appends a group with its domain; a known account appends the deal to its group and leaves the others unchanged |
| Pipeline.Groups | components/DealPipeline.tsx:200-214 | group names are distinct and each group's domain is its account's domain |
| Pipeline.GroupsSpec | components/DealPipeline.tsx:200-214 | every deal's account has a group, and each group holds exactly the deals of its account in their original order, never none |
| Pipeline.AddDealGroups | components/DealPipeline.tsx:202-211 | one step of the grouping loop keeps every deal seen so far in the group of its account, in order |
| Pipeline.FirstOf | components/DealPipeline.tsx:202-211 | the index of an account's first deal: every earlier deal has another account, and it is the length when the account is absent |
| Pipeline.AddDealOrder | components/DealPipeline.tsx:202-211 | one step of the grouping loop keeps the groups in the order of their accounts' first deals |
| Pipeline.GroupsFirstAppearance | components/DealPipeline.tsx:200-214 | the groups come in the order in which their accounts first appear among the deals, the first group being the first deal's account |
| Pipeline.GroupSums | components/DealPipeline.tsx:200-214 | summing any per-deal quantity over the groups equals summing it over the deals |
| Pipeline.AddDealSum | components/DealPipeline.tsx:202-211 | adding a deal to the grouping adds its quantity to the total over all groups |
| Pipeline.GroupTotals | components/DealPipeline.tsx:370 | the groups' deal counts add to the number of deals, and their portfolio values to the total value |
| Pipeline.SelectionEffect | components/DealPipeline.tsx:216-227 | an active action selects the account part of its deal name; otherwise the first group is selected only when nothing is |
| Pipeline.SelectedGroup | components/DealPipeline.tsx:229-232 | the named group when it exists, else the first group, and none only when there are no groups |
| Pipeline.ActionSelectsAccount | components/DealPipeline.tsx:218-219 | fixing an action on a generated deal selects that deal's account |
| Pipeline.SelectedGroupHoldsDeal | components/DealPipeline.tsx:200-232 | selecting a deal's account shows a group with that name that contains the deal |
| Pipeline.SelectingAnAccount | components/DealPipeline.tsx:229-232 | in any grouping of the deals, selecting a deal's account finds the group of that name holding the deal |
| Pipeline.MarkComplete | components/DealPipeline.tsx:234-243 | a validation error iff the field is blank after trimming |
| Pipeline.HealthTone | components/DealPipeline.tsx:394-396 | teal iff > 70, amber iff 51..70, rose iff ≤ 50 |
| Pipeline.HealthToneMonotone | components/DealPipeline.tsx:394-396 | higher health never gives a worse tone |
| Pipeline.Initials | components/DealPipeline.tsx:82 | at most two characters |
| Pipeline.InitialsOfWords | components/DealPipeline.tsx:82 | for a name of two or more non-empty words, the first letters of the first two words |
| Pipeline.LogoStep | components/DealPipeline.tsx:84-132 | brandfetch → favicon → generating (only when no generation is in flight) → AI image or initials; a domain change restarts at brandfetch and keeps the in-flight guard |
| Pipeline.LogoOnlyAdvances | components/DealPipeline.tsx:89-132 | apart from a domain change, the fallback chain never moves backwards |
| Pipeline.OneGenerationInFlight | components/DealPipeline.tsx:95-97 | over any event sequence, the generations started never exceed the outcomes received by more than one |
| Pipeline.LateOutcomeOverridesNewClient | components/DealPipeline.tsx:84-87 | a generation started for the old domain still sets the status after a domain change |
| Pipeline.GuardSurvivesDomainChange | components/DealPipeline.tsx:81-97 | after a domain change during generation, the favicon failure does not start a new generation |
| LiveClient.BackoffDelay | services/liveClient.ts:146 | `min(2^retry · 1000, 5000)` |
| LiveClient.BackoffSchedule | services/liveClient.ts:145-146 | the delays are 2 s, 4 s, then 5 s from the third retry on, non-decreasing |
| LiveClient.CleanupAudio | services/liveClient.ts:151-165 | releases capture and both audio graphs and changes nothing else |
| LiveClient.OnDisconnect | services/liveClient.ts:239-246 | sets the intentional flag, closes a session if there is one, tears down audio, and keeps the retry count and the pending timers |
| LiveClient.FailConnect | services/liveClient.ts:136-141 | a failed connect reports the message and disconnects |
| LiveClient.OnConnect | services/liveClient.ts:67-142 | resets retries unless this is a retry; asks for a key when none is selected; the client is live iff the key, the microphone and the handshake all succeed; a missing key or a denied microphone reports its message and opens no session |
| LiveClient.OnOpen | services/liveClient.ts:90-94 | resets the retry count, notifies first, and starts capture iff audio and a session are ready |
| LiveClient.AutoReconnect | services/liveClient.ts:144-149 | increments the retry count and schedules one reconnect after that retry's backoff delay |
| LiveClient.OnClose | services/liveClient.ts:96-100 | ignored after an intentional disconnect, otherwise always reconnects |
| LiveClient.OnError | services/liveClient.ts:101-120 | ignored when intentional; an auth/billing error asks for a key, reports and disconnects; otherwise it retries while retries < 3 and then reports and disconnects |
| LiveClient.OnSendText | services/liveClient.ts:167-173 | sends the text iff a session exists |
| LiveClient.OnFrame | services/liveClient.ts:183-196 | while capturing, reports the volume first and sends the frame's PCM blob iff a session exists and the disconnect was not intentional |
| LiveClient.OnMessage | services/liveClient.ts:202-237 | ignored after an intentional disconnect; otherwise the notifications come first (model transcription, then user transcription, then turn completion), followed by every action of the playback scheduler, in order, as audio effects; the state changes only through the scheduler's handling of the audio and the interrupt |
| LiveClient.OnBackoffElapsed | services/liveClient.ts:147-148 | a fired timer is consumed and reconnects with `isRetry`, keeping the retry count |
| LiveClient.Step | services/liveClient.ts:67-246 | one event arms at most one backoff timer; a source's `ended` event only drops that source |
| LiveClient.StepPreservesInv | services/liveClient.ts:67-246 | with `connect` taken as one atomic event, every modelled event keeps the client invariant (an intentional client holds no session and captures nothing; the scheduler is well formed) |
| LiveClient.RunPreservesInv | services/liveClient.ts:67-246 | the invariant holds after any event sequence |
| LiveClient.GuardsWhileIntentional | services/liveClient.ts:97-203 | after an intentional disconnect, messages, errors, closes, frames and text are no-ops |
| LiveClient.DisconnectIdempotent | services/liveClient.ts:239-246 | a second disconnect changes nothing and emits nothing |
| LiveClient.SendTextAfterDisconnect | services/liveClient.ts:167-173 | text sent after a disconnect is dropped |
| LiveClient.OpenResetsRetries | services/liveClient.ts:92 | opening a connection resets the retry count |
| LiveClient.AuthErrorsNeverRetried | services/liveClient.ts:107-112 | with the error handler taken as one atomic event, an auth/billing error never schedules a reconnect and leaves the client disconnected |
| LiveClient.ForbiddenIsAuthError | services/liveClient.ts:107 | any message containing "403" is an auth error |
| LiveClient.ConnectClearsFlag | services/liveClient.ts:68-132 | a connect that succeeds clears the intentional flag, resets the retry count and holds a session |
| LiveClient.IsAuthError | services/liveClient.ts:104-107 | a key or billing problem is exactly a lower-cased message containing one of the three markers |
| LiveClient.ErrorPathIsCapped | services/liveClient.ts:114-119 | the error path reconnects only while the retry count is below 3 |
| LiveClient.CloseReconnectsUncapped | services/liveClient.ts:96-100 | the close path reconnects whatever the retry count |
| LiveClient.DisconnectDoesNotCancelBackoff | services/liveClient.ts:147-148 | a backoff timer armed before a disconnect still fires and reconnects |
| LiveClient.ReconnectKeepsWatermark | services/liveClient.ts:67-69 | connecting does not reset the playback watermark or the live sources |
| LiveClient.RetrySucceeds | services/liveClient.ts:144-149 | the backoff reconnect goes live, keeps its retry count and leaves no wait pending |
| LiveClient.TimeoutIsNotAuthError | services/liveClient.ts:104-107 | "timeout" is not classified as an auth error |
| LiveClient.PersistentFailureTrace | services/liveClient.ts:101-120 | three failed retries are followed by "Persistent connection error" and a disconnect |
| Base64.AlphabetBijection | services/liveClient.ts:255-268 | every 6-bit value has one alphabet character, which decodes back to it |
| Base64.Encode | services/liveClient.ts:255-260 | `btoa` output has length 4·ceil(n/3) and uses only the alphabet and `=` |
| Base64.StripWhitespace | services/liveClient.ts:263 | the forgiving decoder first removes all ASCII whitespace and keeps every other character |
| Base64.DropPadding | services/liveClient.ts:263 | only when the length is a multiple of four, exactly the one or two trailing `=` that end the input are dropped, and nothing else |
| Base64.Decode | services/liveClient.ts:262-268 | `atob` succeeds only on input made of the alphabet, `=` and ASCII whitespace, and fails when the whitespace-free length leaves remainder 1 modulo 4 |
| Base64.DecodeSucceedsIff | services/liveClient.ts:262-263 | `atob` succeeds iff the whitespace-free input has no remainder 1 modulo 4 and every character is in the alphabet or is part of the final padding of a multiple-of-four input |
| Base64.ShortPaddingRejected | services/liveClient.ts:263 | `atob("AA=")` fails: padding is only accepted on a multiple-of-four length |
| Base64.RoundTrip | services/liveClient.ts:255-268 | `atob(btoa(b)) == b` for every byte string |
| Base64.DecodeEncodeGroup | services/liveClient.ts:255-268 | decoding an encoding that starts with a whole three-byte group gives the group back, followed by whatever the rest decodes to |
| Base64.DecodeIgnoresWhitespace | services/liveClient.ts:262-263 | `atob` ignores ASCII whitespace |
| Base64.DecodeRejectsForeign | services/liveClient.ts:262-263 | `atob` fails on a character outside the alphabet, `=` and whitespace |
| Pcm.SampleRoundTrip | services/liveClient.ts:252-271 | little-endian bytes of an Int16 read back as the same sample |
| Pcm.SamplesToBytes | services/liveClient.ts:252 | two little-endian bytes per sample, in order |
| Pcm.BytesToSamples | services/liveClient.ts:271 | one sample per two bytes; an odd trailing byte is dropped |
| Pcm.FramingRoundTrip | services/liveClient.ts:252-271 | reading the bytes written for samples gives back the samples |
| Pcm.CreateBlob | services/liveClient.ts:248-253 | the mime type is "audio/pcm;rate=16000" and the payload has the Base64 length of 2n bytes |
| Pcm.BlobRoundTrip | services/liveClient.ts:248-271 | decoding a blob's payload yields the sample bytes, which frame back to the samples |
| Pcm.DecodeAudioData | services/liveClient.ts:270-281 | fails iff there is not one frame per channel; otherwise one channel per requested channel, each with floor(samples/channels) frames |
| Pcm.InterleaveChannels | services/liveClient.ts:276-277 | re-interleaving the channels gives back the whole frames of the input |
| Pcm.DeinterleaveInverse | services/liveClient.ts:270-281 | the decoded channels interleave back to the decoded samples |
| Pcm.DeinterleaveIndex | services/liveClient.ts:274-278 | frame i of channel c is sample i·channels + c |
| Pcm.MonoIsIdentity | services/liveClient.ts:270-281 | mono decoding succeeds iff there are at least two bytes and returns the samples unchanged |
| Pcm.DecodeSegment | services/liveClient.ts:219 | a successful segment decode has at least one sample |
| Pcm.SegmentRoundTrip | services/liveClient.ts:248-281 | a non-empty blob decodes as a segment to its own samples |
| Pcm.Duration | services/liveClient.ts:273 | a buffer's duration is non-negative and positive for a non-empty buffer |
| Pcm.FullScaleWraps | services/liveClient.ts:251 | the as-written quantiser maps +1.0 to −32768 |
| Pcm.QuantizeAsWritten | services/liveClient.ts:251 | the stored value is congruent modulo 2^16 to the truncated product, and equals it strictly inside (−1, 1) |
| Pcm.Quantize | services/liveClient.ts:251 | the corrected quantiser is within one step of x·32768 on [−1,1] and keeps the sign |
| Pcm.QuantizersAgreeBelowFullScale | services/liveClient.ts:251 | both quantisers agree on [−1,1) |
| Pcm.CreateBlobFromFloats | services/liveClient.ts:248-253 | a float frame's blob has the PCM mime type and 4·⌈2n/3⌉ payload characters, and on [−1, 1) it is exactly the blob of the as-written quantiser |
| Pcm.BlocksAgreeBelowFullScale | services/liveClient.ts:251 | on a frame within [−1, 1) the corrected and the as-written quantisers give the same samples |
| Pcm.FloatBlobRoundTrip | services/liveClient.ts:248-253 | a float frame's blob decodes back to its samples quantised by the corrected, saturating quantiser `Pcm.Quantize` |
| Playback.Schedule | services/liveClient.ts:216-226 | a decoded segment starts at max(watermark, now), ends exactly its buffer duration later, becomes a new live source and advances the watermark; a decode failure leaves the sources untouched |
| Playback.Interrupt | services/liveClient.ts:232-236 | stops every live source, clears them and resets the watermark to 0 |
| Playback.Ended | services/liveClient.ts:223 | an ended source leaves the live set and nothing else changes |
| Playback.OnMessageAudio | services/liveClient.ts:215-236 | a segment starts iff the audio is present, the output is ready and the payload decodes; without an interruption the state is exactly the scheduled one; an interruption then clears everything and its last effect stops every live source |
| Playback.NextStartAfterInterrupt | services/liveClient.ts:217-235 | after an interruption the next segment starts at the current time |
| Playback.AudioThenInterrupt | services/liveClient.ts:215-236 | audio and an interruption in one message leave nothing playing |
| Playback.DecodeFailureSkipsSegment | services/liveClient.ts:227-229 | an undecodable segment schedules nothing and keeps the sources |
| Playback.Run | services/liveClient.ts:215-230 | at most one segment per arrival, and the watermark never goes back |
| Playback.RunNeverOverlaps | services/liveClient.ts:217-225 | the scheduled segments play back to back, in order, without overlapping |
| DealCoach.OnTranscription | components/DealCoach.tsx:115-123 | a delta from the active speaker is appended; any other speaker replaces the turn |
| DealCoach.OnTurnComplete | components/DealCoach.tsx:124-132 | commits the active turn as one transcript entry and clears it |
| DealCoach.FeedAccumulates | components/DealCoach.tsx:115-123 | same-speaker deltas concatenate in order |
| DealCoach.TurnCommitsConcatenation | components/DealCoach.tsx:115-132 | a completed turn's transcript text is the concatenation of its deltas |
| DealCoach.InterleavedSpeakersDropText | components/DealCoach.tsx:117-122 | interleaved speakers discard the earlier partial turn |
| DealCoach.ManualSend | components/DealCoach.tsx:172-177 | a non-blank input with a client is appended as a user line, sent and cleared; otherwise nothing changes |
| DealCoach.DurationSeconds | components/DealCoach.tsx:80-85 | 5/10/15 minutes in seconds, and no timer for "NONE" |
| DealCoach.DurationMatchesLabel | components/DealCoach.tsx:80-85 | the number in a duration's label times 60 is its timer length |
| DealCoach.TimerTick | components/DealCoach.tsx:53-71 | each live second decrements; the warning at 30 s; the session ends at 0 |
| DealCoach.Countdown | components/DealCoach.tsx:53-71 | a countdown from t takes t ticks |
| DealCoach.CountdownEndsOnce | components/DealCoach.tsx:59-64 | the session is ended exactly once, on the last tick, and the warning is sent once iff t > 30 |
| DealCoach.FormatTime | components/DealCoach.tsx:166-170 | minutes, a colon, then the seconds as two digits |
| DealCoach.FormatTimeRoundTrip | components/DealCoach.tsx:166-170 | reading the formatted time back gives the seconds |
| DealCoach.EndSession | components/DealCoach.tsx:149-154 | analysis runs iff there are at least two transcript entries, otherwise back to setup |
| DealCoach.FinishAnalysis | components/DealCoach.tsx:155-163 | success prepends the result to the history and shows the report; failure reports "Analysis failed." and returns to setup |
| DealCoach.AgentStateOf | components/DealCoach.tsx:179 | speaking, then listening above volume 0.05, then processing while analysing, else idle |
| Analysis.Lines | services/analysisService.ts:8-9 | one "SPEAKER: text" line per transcript entry |
| Analysis.ConversationText | services/analysisService.ts:8-10 | the text is empty iff the transcript is, and starts with the first entry's line |
| Analysis.ParseLine | services/analysisService.ts:9 | a parsed line re-renders to itself |
| Analysis.ParseLineOfLine | services/analysisService.ts:9 | a rendered line parses back to its speaker and text |
| Analysis.ConversationRoundTrip | services/analysisService.ts:8-10 | when no text holds a newline, the conversation text splits back into its entries, with one newline between consecutive entries |
| Analysis.CriteriaFor | services/analysisService.ts:12-27 | 4, 7 or 10 criteria by duration label, with the comprehensive default otherwise |
| Analysis.CriteriaHaveNoComma | services/analysisService.ts:13-26 | no criterion name contains a comma |
| Analysis.CriteriaListMatchesCount | services/analysisService.ts:12-27 | for timed calls the comma-separated list has exactly the stated count; for "NONE" the count is 10 but one phrase is listed |
| Analysis.ReplyText | services/analysisService.ts:102-104 | an empty or missing reply fails with "No analysis generated"; otherwise the text is passed on |
| StableSort.SortStable | components/DealHealthDashboard.tsx:83-96 | the comparator sort keeps the input order within each key |
| StableSort.SortSorted | components/DealHealthDashboard.tsx:83-96 | the comparator sort orders by non-increasing key |

## Left out

- The React rendering, the CSS tones other than the health and ring colours, the scroll and highlight effects, and `localStorage`. They carry no logic beyond what is modelled.
- Dates: `closeDate` and its `toLocaleDateString`, and the transcript `timestamp` value. The clock is a parameter.
- Deal `value`: `floor(avgDealValue · (0.8 + 0.4·noise))` is kept as an opaque integer field. The model proves the sums built on it, not its range.
- `Math.sin`: the seeded fractions are the `noise` parameter. The model only assumes they lie in [0,1), so properties that hold for the particular sine values are not claimed.
- RepMetrics.RepScore: computed with exact rationals and `floor`. JavaScript's floating point can land one below the exact value at a band edge (for example 100 − 17·(10/17) gives 89.99…). The bands are stated for the exact arithmetic.
- RepMetrics.CoverageTenths: models `parseFloat(x.toFixed(1))` as round-half-up of the exact quotient in tenths. It does not model the binary rounding of `toFixed`.
- RepMetrics.GetRepMetrics: the rep rank is taken from the directory entry's `rank` field rather than from `parseInt` of the id text. `NaN` for a malformed id is not modelled.
- Deals.DealScore: takes the rep's `rank` field in place of `parseInt(repId.replace('rep', ''), 10)` (data/deals.ts:31). `NaN` for a malformed id is not modelled.
- Deals.MakeDeal: the seed and the id digits use the rep's `rank` field in place of the parsed id (data/deals.ts:47, 89).
- Deals.DealsForRep: the base score and the seed come from the rep's `rank` field in place of the parsed id (data/deals.ts:45-47).
- Pipeline.Domain: the 40-entry `DOMAIN_MAP` is a map literal. For a mapped account the contract states the map's entry. Object prototype keys (`"constructor"` etc.) are not modelled.
- Pipeline.Groups: `Object.values` is taken in first-insertion order. Integer-like account names would come first in JavaScript, and no account name is integer-like.
- `toLowerCase` is ASCII only, and `\s` in the squeeze is the ASCII and JavaScript whitespace set used by `trim`.
- Pipeline.Initials: counts characters, not UTF-16 code units.
- The image-generation request for a logo and the analysis model call: their outcomes are events and parameters. The prompt text, the response schema and `JSON.parse` are not modelled.
- LiveClient: the asynchronous `connect` and `initializeAudio` are collapsed into one atomic event. The interleavings of awaited promises are not modelled.
- LiveClient.StepPreservesInv: the invariant is a property of the atomic-connect model, not of the client. In the source, a `disconnect()` that runs while `connect` is suspended at its awaits (services/liveClient.ts:72-84) is followed by `connect` assigning `sessionPromise` (services/liveClient.ts:132). The unguarded `onopen` (services/liveClient.ts:90-94, 175-177) then starts capture while `isIntentionalDisconnect` is still true. The deal coach's unmount cleanup can trigger this sequence.
- LiveClient.AuthErrorsNeverRetried: the error handler is one atomic event in the model. In the source it awaits `openSelectKey()` (services/liveClient.ts:108) before `disconnect()` (services/liveClient.ts:110). A socket close that arrives while the key dialog is open finds `isIntentionalDisconnect` still false and arms a reconnect (services/liveClient.ts:96-98, 144-148). That retry's `connect` later clears the flag again (services/liveClient.ts:68), so an auth error can in fact be retried.
- LiveClient: the RMS volume is floating point and is left out. The effect only says that a volume is reported.
- Web Audio node wiring, analysers and the script processor are left out; only the flags they set are kept.
- `AIAgentLogo`, `Visualizer`, `Setup`, `Report`, `Header`, `Login`, `SettingsView` and `BottomNavigation` are presentation components and are not part of this model.

## Observations

The following are behaviours of the code as written, stated as proved lemmas. None of them is treated as a bug.

- The transcript keeps one active turn, not one buffer per speaker. A speaker change discards the other speaker's partial text (`DealCoach.InterleavedSpeakersDropText`).
- The close path reconnects with no retry cap (`LiveClient.CloseReconnectsUncapped`). A disconnect does not cancel an armed backoff timer (`LiveClient.DisconnectDoesNotCancelBackoff`).
- Reconnecting keeps the old playback watermark (`LiveClient.ReconnectKeepsWatermark`).
- Rank 50 is pinned to 65, below rank 51's 72 (`RepMetrics.PinnedRankBreaksOrder`).
- The "NONE" duration asks for 10 scores but names a single criterion (`Analysis.CriteriaListMatchesCount`).
- The logo component, taken on its own, lets a generation started for one domain set the status after the domain changes, and its in-flight guard survives the change (`Pipeline.LateOutcomeOverridesNewClient`, `Pipeline.GuardSurvivesDomainChange`). The application never reaches this: each avatar is keyed by its client's name (components/DealPipeline.tsx:325-326) and the domain is a function of that name (components/DealPipeline.tsx:204), so a different client gets a fresh component and a fresh guard.

## Findings

| source | as written | input that shows it | evidently intended | confidence | as-written member | corrected member |
|---|---|---|---|---|---|---|
| services/liveClient.ts:251 | `int16[i] = data[i] * 32768` stores 32768 into an `Int16Array`, which wraps modulo 2^16 | a full-scale sample `1.0` is sent as −32768, the opposite extreme | clamp to 32767 so that +1.0 stays positive | high; not executed | Pcm.QuantizeAsWritten (shown by Pcm.FullScaleWraps) | Pcm.Quantize |

=== FILE: analysis.dfy ===
/** The post-call analysis request (services/analysisService.ts): the
    transcript rendered as text, the criteria chosen by the call length,
    and the handling of an empty reply. The model call itself and the JSON
    decoding of its reply are outside the model. */
module Analysis {
  import opened Wrappers
  import opened Types
  import Strings

  // ------------------------------------------------------------ transcript text

  /** `speaker.toUpperCase()`. */
  function SpeakerTag(s: Speaker): string {
    match s
    case User => "USER"
    case Model => "MODEL"
  }

  const TagSeparator: string := ": "

  /** One transcript line: `SPEAKER: text`. */
  function Line(t: TranscriptionItem): string {
    SpeakerTag(t.speaker) + TagSeparator + t.text
  }

  function Lines(ts: seq<TranscriptionItem>): (ls: seq<string>)
    ensures |ls| == |ts|
    ensures forall i :: 0 <= i < |ts| ==> ls[i] == Line(ts[i])
  {
    seq(|ts|, i requires 0 <= i < |ts| => Line(ts[i]))
  }

  /** `conversationText`: the lines joined by newlines. */
  function ConversationText(ts: seq<TranscriptionItem>): (text: string)
    ensures text == [] <==> |ts| == 0
    ensures |ts| > 0 ==> |Line(ts[0])| <= |text| && text[..|Line(ts[0])|] == Line(ts[0])
  {
    Strings.Join(Lines(ts), "\n")
  }

  /** Reads one line back: the tag up to the first colon, then a space,
      then the text. */
  function ParseLine(line: string): (r: Option<(Speaker, string)>)
    ensures r.Some? ==> Line(TranscriptionItem(r.value.0, r.value.1, 0)) == line
  {
    if ':' !in line then None
    else
      var k := Strings.IndexOfChar(line, ':');
      var tag := line[..k];
      var rest := line[k + 1..];
      if |rest| == 0 || rest[0] != ' ' then None
      else if tag == "USER" then
        assert line == tag + TagSeparator + rest[1..];
        Some((User, rest[1..]))
      else if tag == "MODEL" then
        assert line == tag + TagSeparator + rest[1..];
        Some((Model, rest[1..]))
      else None
  }

  lemma ParseLineOfLine(t: TranscriptionItem)
    ensures ParseLine(Line(t)) == Some((t.speaker, t.text))
  {
    var tag := SpeakerTag(t.speaker);
    var line := Line(t);
    assert line[|tag|] == ':' && line[..|tag|] == tag;
    assert ':' !in tag;
    Strings.IndexOfCharUnique(line, ':', |tag|);
    assert line[|tag| + 1..] == " " + t.text;
  }

  function Spoken(t: TranscriptionItem): Option<(Speaker, string)> {
    Some((t.speaker, t.text))
  }

  function ParseConversation(text: string): (r: seq<Option<(Speaker, string)>>)
    ensures |r| >= 1
  {
    var ls := Strings.SplitOn(text, '\n');
    seq(|ls|, i requires 0 <= i < |ls| => ParseLine(ls[i]))
  }

  /** The transcript text keeps every speaker and every text, one line per
      item, as long as no text itself holds a newline. */
  lemma ConversationRoundTrip(ts: seq<TranscriptionItem>)
    requires |ts| > 0
    requires forall i :: 0 <= i < |ts| ==> '\n' !in ts[i].text
    ensures |ParseConversation(ConversationText(ts))| == |ts|
    ensures forall i :: 0 <= i < |ts| ==> ParseConversation(ConversationText(ts))[i] == Spoken(ts[i])
    ensures Strings.Occurrences(ConversationText(ts), '\n') == |ts| - 1
  {
    var ls := Lines(ts);
    forall k | 0 <= k < |ls|
      ensures '\n' !in ls[k]
    {
      assert ls[k] == SpeakerTag(ts[k].speaker) + TagSeparator + ts[k].text;
    }
    assert "\n" == ['\n'];
    Strings.SplitJoin(ls, '\n');
    Strings.JoinOccurrences(ls, '\n');
    forall i | 0 <= i < |ts|
      ensures ParseConversation(ConversationText(ts))[i] == Spoken(ts[i])
    {
      ParseLineOfLine(ts[i]);
    }
  }

  // ------------------------------------------------------------ criteria

  const ShortCriteria: seq<string> := ["Time Management", "Efficiency", "Core Qualification", "Conciseness"]
  const MediumCriteria: seq<string> := [
    "Listening", "Discovery Skills", "Pain Point Identification", "Qualification",
    "Objection Handling", "Empathy", "Product Knowledge"]
  const LongCriteria: seq<string> := [
    "Strategic Thinking", "Business Acumen", "Relationship Building", "Full Discovery",
    "Value Messaging", "Competitor Differentiation", "ROI Expectation Management",
    "Active Listening", "Objection Depth", "Relationship Development"]
  /** The one phrase of an open-ended call. */
  const OpenCriteria: seq<string> := ["Comprehensive Assessment across all Sales dimensions"]

  const CriteriaSeparator: string := ", "

  /** The number of scores asked for and the criteria named for a call
      length given as its label. */
  datatype Criteria = Criteria(count: nat, names: seq<string>)

  function CriteriaFor(duration: string): (c: Criteria)
    ensures c.count in {4, 7, 10}
    ensures duration == "5 MIN" ==> c == Criteria(4, ShortCriteria)
    ensures duration == "10 MIN" ==> c == Criteria(7, MediumCriteria)
    ensures duration == "15 MIN" ==> c == Criteria(10, LongCriteria)
    ensures duration !in {"5 MIN", "10 MIN", "15 MIN"} ==> c == Criteria(10, OpenCriteria)
  {
    if duration == "5 MIN" then Criteria(4, ShortCriteria)
    else if duration == "10 MIN" then Criteria(7, MediumCriteria)
    else if duration == "15 MIN" then Criteria(10, LongCriteria)
    else Criteria(10, OpenCriteria)
  }

  function CriteriaText(c: Criteria): string {
    Strings.Join(c.names, CriteriaSeparator)
  }

  predicate CommaFree(s: string) {
    forall i :: 0 <= i < |s| ==> s[i] != ','
  }

  predicate NoComma(names: seq<string>) {
    forall k :: 0 <= k < |names| ==> CommaFree(names[k])
  }

  lemma CriteriaHaveNoComma()
    ensures NoComma(ShortCriteria) && NoComma(MediumCriteria)
    ensures NoComma(LongCriteria) && NoComma(OpenCriteria)
  {
    ShortNamesCommaFree();
    MediumNamesCommaFree();
    LongNamesCommaFree();
    LongerNamesCommaFree();
    OpenPhraseCommaFree();
  }

  lemma ShortNamesCommaFree()
    ensures CommaFree("Time Management") && CommaFree("Efficiency")
    ensures CommaFree("Core Qualification") && CommaFree("Conciseness")
  {
  }

  lemma MediumNamesCommaFree()
    ensures CommaFree("Listening") && CommaFree("Discovery Skills")
    ensures CommaFree("Pain Point Identification") && CommaFree("Qualification")
    ensures CommaFree("Objection Handling") && CommaFree("Empathy") && CommaFree("Product Knowledge")
  {
  }

  lemma LongNamesCommaFree()
    ensures CommaFree("Strategic Thinking") && CommaFree("Business Acumen")
    ensures CommaFree("Relationship Building") && CommaFree("Full Discovery")
    ensures CommaFree("Value Messaging")
  {
  }

  lemma LongerNamesCommaFree()
    ensures CommaFree("Competitor Differentiation") && CommaFree("ROI Expectation Management")
    ensures CommaFree("Active Listening") && CommaFree("Objection Depth")
    ensures CommaFree("Relationship Development")
  {
  }

  /** The phrase is checked in two halves, which the solver handles more
      readily than the whole literal. */
  lemma OpenPhraseCommaFree()
    ensures CommaFree(OpenCriteria[0])
  {
    var a, b := "Comprehensive Assessment ", "across all Sales dimensions";
    OpenHalvesCommaFree();
    CommaFreeAppend(a, b);
    assert OpenCriteria[0] == a + b;
  }

  lemma OpenHalvesCommaFree()
    ensures CommaFree("Comprehensive Assessment ") && CommaFree("across all Sales dimensions")
  {
  }

  lemma CommaFreeAppend(a: string, b: string)
    requires CommaFree(a) && CommaFree(b)
    ensures CommaFree(a + b)
  {
    assert forall i :: 0 <= i < |a + b| ==> (a + b)[i] == if i < |a| then a[i] else b[i - |a|];
  }

  lemma NoCommaNotIn(names: seq<string>)
    requires NoComma(names)
    ensures forall k :: 0 <= k < |names| ==> ',' !in names[k]
  {
  }

  /** For every timed call the prompt names as many criteria as it asks
      scores for; the open call asks for ten scores but names one phrase. */
  lemma CriteriaListMatchesCount(d: CallDuration)
    ensures var c := CriteriaFor(DurationLabel(d));
            var commas := Strings.Occurrences(CriteriaText(c), ',');
            (d != NoLimit ==> commas + 1 == c.count == |c.names|)
            && (d == NoLimit ==> commas == 0 && |c.names| == 1 && c.count == 10)
  {
    CriteriaHaveNoComma();
    var c := CriteriaFor(DurationLabel(d));
    assert NoComma(c.names);
    NoCommaNotIn(c.names);
    assert Strings.Occurrences(CriteriaSeparator, ',') == 1;
    Strings.JoinCount(c.names, CriteriaSeparator, ',');
  }

  // ------------------------------------------------------------ the reply

  const NoAnalysisMessage: string := "No analysis generated"

  /** `if (!text) throw …`: a missing or empty reply is an error; anything
      else is handed on to the JSON decoder. */
  function ReplyText(text: Option<string>): (r: Result<string, string>)
    ensures r.Failure? <==> text.None? || text.value == ""
    ensures r.Failure? ==> r.error == NoAnalysisMessage
    ensures r.Success? ==> text == Some(r.value)
  {
    if text.None? || text.value == "" then Failure(NoAnalysisMessage) else Success(text.value)
  }
}

=== FILE: base64.dfy ===
/** The text-safe transport encoding of audio frames: `btoa` (encoding of
    RFC 4648 section 4, with `=` padding) and `atob` (the forgiving decoder
    of the WHATWG HTML standard, which also accepts missing padding and
    embedded ASCII whitespace). The source feeds both through a "binary
    string" whose code units are the byte values, so the model works on
    bytes directly (services/liveClient.ts:255-268). */
module Base64 {
  import opened Wrappers
  import Seqs

  type Byte = b: int | 0 <= b < 256

  /** A 6-bit group: the index of one character of the alphabet. */
  type Sextet = v: int | 0 <= v < 64

  /** The alphabet of RFC 4648 section 4, Table 1. */
  function CharOf(v: Sextet): char {
    if v < 26 then (v + 'A' as int) as char
    else if v < 52 then (v - 26 + 'a' as int) as char
    else if v < 62 then (v - 52 + '0' as int) as char
    else if v == 62 then '+'
    else '/'
  }

  predicate IsAlphabet(c: char) {
    || 'A' as int <= c as int <= 'Z' as int
    || 'a' as int <= c as int <= 'z' as int
    || '0' as int <= c as int <= '9' as int
    || c == '+' || c == '/'
  }

  function ValueOf(c: char): Sextet
    requires IsAlphabet(c)
  {
    if 'A' as int <= c as int <= 'Z' as int then c as int - 'A' as int
    else if 'a' as int <= c as int <= 'z' as int then c as int - 'a' as int + 26
    else if '0' as int <= c as int <= '9' as int then c as int - '0' as int + 52
    else if c == '+' then 62
    else 63
  }

  /** The alphabet is a bijection between sextets and its 64 characters. */
  lemma AlphabetBijection(v: Sextet)
    ensures IsAlphabet(CharOf(v)) && ValueOf(CharOf(v)) == v
  {
  }

  predicate AllAlphabet(s: string) {
    forall i :: 0 <= i < |s| ==> IsAlphabet(s[i])
  }

  // ------------------------------------------------------------ encoding

  /** Three bytes (24 bits) as four sextets, most significant bits first. */
  function EncodeTriple(b0: Byte, b1: Byte, b2: Byte): (s: string)
    ensures |s| == 4 && AllAlphabet(s)
  {
    AlphabetBijection(b0 / 4);
    AlphabetBijection((b0 % 4) * 16 + b1 / 16);
    AlphabetBijection((b1 % 16) * 4 + b2 / 64);
    AlphabetBijection(b2 % 64);
    [CharOf(b0 / 4), CharOf((b0 % 4) * 16 + b1 / 16), CharOf((b1 % 16) * 4 + b2 / 64), CharOf(b2 % 64)]
  }

  /** A final group of one byte: two characters, the low four bits zero. */
  function EncodeOne(b0: Byte): (s: string)
    ensures |s| == 2 && AllAlphabet(s)
  {
    AlphabetBijection(b0 / 4);
    AlphabetBijection((b0 % 4) * 16);
    [CharOf(b0 / 4), CharOf((b0 % 4) * 16)]
  }

  /** A final group of two bytes: three characters, the low two bits zero. */
  function EncodeTwo(b0: Byte, b1: Byte): (s: string)
    ensures |s| == 3 && AllAlphabet(s)
  {
    AlphabetBijection(b0 / 4);
    AlphabetBijection((b0 % 4) * 16 + b1 / 16);
    AlphabetBijection((b1 % 16) * 4);
    [CharOf(b0 / 4), CharOf((b0 % 4) * 16 + b1 / 16), CharOf((b1 % 16) * 4)]
  }

  /** The characters of the encoding without the `=` padding: a final group
      of one byte gives two characters, of two bytes three characters, the
      unused low bits being zero (RFC 4648 section 4). */
  function EncodeUnpadded(b: seq<Byte>): (s: string)
    ensures |s| % 4 != 1 && AllAlphabet(s)
    ensures |s| == |b| / 3 * 4 + (if |b| % 3 == 0 then 0 else |b| % 3 + 1)
  {
    if |b| == 0 then ""
    else if |b| == 1 then EncodeOne(b[0])
    else if |b| == 2 then EncodeTwo(b[0], b[1])
    else
      UnpaddedLengthStep(|b|);
      EncodeTriple(b[0], b[1], b[2]) + EncodeUnpadded(b[3..])
  }

  /** One whole group more: three more bytes give four more characters. */
  lemma UnpaddedLengthStep(n: nat)
    requires n >= 3
    ensures n / 3 * 4 + (if n % 3 == 0 then 0 else n % 3 + 1)
            == 4 + (n - 3) / 3 * 4 + (if (n - 3) % 3 == 0 then 0 else (n - 3) % 3 + 1)
  {
    assert n / 3 == (n - 3) / 3 + 1 && n % 3 == (n - 3) % 3;
  }

  /** `btoa`: the padded encoding, always a whole number of 4-character
      groups, 4 characters per started 3 bytes. */
  function Encode(b: seq<Byte>): (s: string)
    ensures |s| % 4 == 0 && |s| == (|b| + 2) / 3 * 4
    ensures forall i :: 0 <= i < |s| ==> IsAlphabet(s[i]) || s[i] == '='
  {
    PaddedLength(|b|);
    EncodeUnpadded(b) + (if |b| % 3 == 1 then "==" else if |b| % 3 == 2 then "=" else "")
  }

  /** Padding completes the last group: the unpadded length plus the `=`
      count is four per started three bytes. */
  lemma PaddedLength(n: nat)
    ensures n / 3 * 4 + (if n % 3 == 0 then 0 else n % 3 + 1) + (if n % 3 == 1 then 2 else if n % 3 == 2 then 1 else 0)
            == (n + 2) / 3 * 4
    ensures (n + 2) / 3 * 4 % 4 == 0
  {
    DivMod4((n + 2) / 3, 0);
    var q, r := n / 3, n % 3;
    assert n == 3 * q + r;
    assert (n + 2) / 3 == if r == 0 then q else q + 1;
  }

  // ------------------------------------------------------------ decoding

  /** ASCII whitespace of the Infra standard: TAB, LF, FF, CR and SPACE. */
  predicate IsAsciiWhitespace(c: char) {
    c == '\t' || c == '\n' || c == '\U{C}' || c == '\r' || c == ' '
  }

  /** Step 1 of the forgiving decoder: remove all ASCII whitespace. */
  function StripWhitespace(s: string): (t: string)
    ensures |t| <= |s|
    ensures forall i :: 0 <= i < |t| ==> !IsAsciiWhitespace(t[i]) && t[i] in s
    ensures forall i :: 0 <= i < |s| && !IsAsciiWhitespace(s[i]) ==> s[i] in t
  {
    Seqs.Filter(s, (c: char) => !IsAsciiWhitespace(c))
  }

  /** Sextets back to bytes, four characters giving three bytes; a final
      group of two or three characters gives one or two bytes and the
      left-over low bits are discarded. */
  function DecodeUnpadded(s: string): (b: seq<Byte>)
    requires AllAlphabet(s) && |s| % 4 != 1
    ensures |b| == |s| / 4 * 3 + (if |s| % 4 == 0 then 0 else |s| % 4 - 1)
  {
    if |s| == 0 then []
    else if |s| == 2 then
      [ValueOf(s[0]) * 4 + ValueOf(s[1]) / 16]
    else if |s| == 3 then
      [ValueOf(s[0]) * 4 + ValueOf(s[1]) / 16, (ValueOf(s[1]) % 16) * 16 + ValueOf(s[2]) / 4]
    else
      [ ValueOf(s[0]) * 4 + ValueOf(s[1]) / 16,
        (ValueOf(s[1]) % 16) * 16 + ValueOf(s[2]) / 4,
        (ValueOf(s[2]) % 4) * 64 + ValueOf(s[3]) ]
      + DecodeUnpadded(s[4..])
  }

  /** `atob` throws a DOMException named InvalidCharacterError. */
  datatype DecodeError = InvalidCharacter

  /** Position `i` of a whitespace-free input is padding: the length is a
      multiple of four and `i` starts a run of one or two `=` that ends the
      input. */
  predicate PaddingAt(t: string, i: int) {
    |t| % 4 == 0 && 0 <= i && |t| - 2 <= i < |t| && forall k :: i <= k < |t| ==> t[k] == '='
  }

  /** Step 2 of the forgiving decoder: a length that is a multiple of four
      may end in one or two `=`, which are dropped. */
  function DropPadding(t: string): (u: string)
    ensures |t| - 2 <= |u| <= |t| && u == t[..|u|]
    ensures forall k :: |u| <= k < |t| ==> t[k] == '='
    ensures |t| % 4 != 0 ==> u == t
    ensures forall k :: |u| <= k < |t| ==> PaddingAt(t, k)
    ensures forall k :: 0 <= k < |t| && PaddingAt(t, k) ==> |u| <= k
  {
    if |t| % 4 == 0 && |t| >= 2 && t[|t| - 1] == '=' && t[|t| - 2] == '=' then t[..|t| - 2]
    else if |t| % 4 == 0 && |t| >= 1 && t[|t| - 1] == '=' then t[..|t| - 1]
    else t
  }

  /** `atob`: the forgiving-base64 decode. */
  function Decode(s: string): (r: Result<seq<Byte>, DecodeError>)
    ensures r.Success? ==> forall i :: 0 <= i < |s| ==> IsAlphabet(s[i]) || s[i] == '=' || IsAsciiWhitespace(s[i])
    ensures |StripWhitespace(s)| % 4 == 1 ==> r.Failure?
  {
    var u := DropPadding(StripWhitespace(s));
    if |u| % 4 == 1 || !AllAlphabet(u) then Failure(InvalidCharacter)
    else Success(DecodeUnpadded(u))
  }

  // ------------------------------------------------------------ properties

  /** Division by `d` recovers the quotient and remainder it was built from. */
  lemma DivMod16(q: int, r: int)
    requires 0 <= r < 16
    ensures (q * 16 + r) / 16 == q && (q * 16 + r) % 16 == r
  {
  }

  lemma DivMod4(q: int, r: int)
    requires 0 <= r < 4
    ensures (q * 4 + r) / 4 == q && (q * 4 + r) % 4 == r
  {
  }

  /** Each group of bytes comes back from the sextets it was split into. */
  lemma GroupRoundTrip(b0: Byte, b1: Byte, b2: Byte)
    ensures (b0 / 4) * 4 + ((b0 % 4) * 16 + b1 / 16) / 16 == b0
    ensures (((b0 % 4) * 16 + b1 / 16) % 16) * 16 + ((b1 % 16) * 4 + b2 / 64) / 4 == b1
    ensures (((b1 % 16) * 4 + b2 / 64) % 4) * 64 + b2 % 64 == b2
  {
    DivMod16(b0 % 4, b1 / 16);
    DivMod4(b1 % 16, b2 / 64);
  }

  lemma DecodeEncodeTriple(b0: Byte, b1: Byte, b2: Byte)
    ensures DecodeUnpadded(EncodeTriple(b0, b1, b2)) == [b0, b1, b2]
  {
    AlphabetBijection(b0 / 4);
    AlphabetBijection((b0 % 4) * 16 + b1 / 16);
    AlphabetBijection((b1 % 16) * 4 + b2 / 64);
    AlphabetBijection(b2 % 64);
    GroupRoundTrip(b0, b1, b2);
  }

  /** Decoding works group by group. */
  lemma DecodeUnpaddedAppend(g: string, rest: string)
    requires |g| == 4 && AllAlphabet(g) && AllAlphabet(rest) && |rest| % 4 != 1
    ensures AllAlphabet(g + rest) && |g + rest| % 4 != 1
    ensures DecodeUnpadded(g + rest) == DecodeUnpadded(g) + DecodeUnpadded(rest)
  {
    var s := g + rest;
    assert s[4..] == rest;
    assert g[4..] == [];
  }

  /** A final group of one byte comes back from its two characters. */
  lemma DecodeEncodeOne(b0: Byte)
    ensures DecodeUnpadded(EncodeOne(b0)) == [b0]
  {
    var c0, c1 := b0 / 4, (b0 % 4) * 16;
    AlphabetBijection(c0);
    AlphabetBijection(c1);
    var s := [CharOf(c0), CharOf(c1)];
    assert EncodeOne(b0) == s;
    assert DecodeUnpadded(s) == [c0 * 4 + c1 / 16];
    DivMod16(b0 % 4, 0);
  }

  /** A final group of two bytes comes back from its three characters. */
  lemma DecodeEncodeTwo(b0: Byte, b1: Byte)
    ensures DecodeUnpadded(EncodeTwo(b0, b1)) == [b0, b1]
  {
    var c0, c1, c2 := b0 / 4, (b0 % 4) * 16 + b1 / 16, (b1 % 16) * 4;
    AlphabetBijection(c0);
    AlphabetBijection(c1);
    AlphabetBijection(c2);
    var s := [CharOf(c0), CharOf(c1), CharOf(c2)];
    assert EncodeTwo(b0, b1) == s;
    assert DecodeUnpadded(s) == [c0 * 4 + c1 / 16, (c1 % 16) * 16 + c2 / 4];
    DivMod16(b0 % 4, b1 / 16);
    DivMod4(b1 % 16, 0);
  }

  /** Encoding emits a whole first group before the rest. */
  lemma EncodeUnpaddedGroup(b: seq<Byte>)
    requires |b| >= 3
    ensures EncodeUnpadded(b) == EncodeTriple(b[0], b[1], b[2]) + EncodeUnpadded(b[3..])
  {
  }

  lemma {:induction false} DecodeEncodeUnpadded(b: seq<Byte>)
    ensures DecodeUnpadded(EncodeUnpadded(b)) == b
  {
    if |b| == 1 {
      DecodeEncodeOne(b[0]);
      assert b == [b[0]];
    } else if |b| == 2 {
      DecodeEncodeTwo(b[0], b[1]);
      assert b == [b[0], b[1]];
    } else if |b| >= 3 {
      DecodeEncodeUnpadded(b[3..]);
      DecodeEncodeGroup(b);
    }
  }

  /** The inductive step: a whole first group comes back in front of the
      decoded rest. */
  lemma DecodeEncodeGroup(b: seq<Byte>)
    requires |b| >= 3 && DecodeUnpadded(EncodeUnpadded(b[3..])) == b[3..]
    ensures DecodeUnpadded(EncodeUnpadded(b)) == b
  {
    var g := EncodeTriple(b[0], b[1], b[2]);
    var rest := EncodeUnpadded(b[3..]);
    assert EncodeUnpadded(b) == g + rest by {
      EncodeUnpaddedGroup(b);
    }
    assert DecodeUnpadded(g + rest) == [b[0], b[1], b[2]] + b[3..] by {
      DecodeUnpaddedAppend(g, rest);
      DecodeEncodeTriple(b[0], b[1], b[2]);
    }
    Seqs.SplitThree(b);
  }

  /** Padding is exactly what the forgiving decoder drops again. */
  lemma DropPaddingOfEncode(b: seq<Byte>)
    ensures DropPadding(Encode(b)) == EncodeUnpadded(b)
  {
    var s := Encode(b);
    var e := EncodeUnpadded(b);
    if |b| % 3 == 0 {
      assert s == e;
      assert |e| > 0 ==> IsAlphabet(e[|e| - 1]);
    } else if |b| % 3 == 1 {
      assert s[..|s| - 2] == e;
    } else {
      assert s[..|s| - 1] == e;
      assert s[|s| - 2] == e[|e| - 1];
    }
  }

  /** `atob(btoa(x))` gives back every byte sequence `x`: the framing the
      client sends is losslessly recoverable. */
  lemma RoundTrip(b: seq<Byte>)
    ensures Decode(Encode(b)) == Success(b)
  {
    var s := Encode(b);
    Seqs.FilterAll(s, (c: char) => !IsAsciiWhitespace(c));
    assert StripWhitespace(s) == s;
    DropPaddingOfEncode(b);
    DecodeEncodeUnpadded(b);
  }

  /** The decoder ignores ASCII whitespace anywhere in its input. */
  lemma DecodeIgnoresWhitespace(s: string)
    ensures Decode(s) == Decode(StripWhitespace(s))
  {
    var t := StripWhitespace(s);
    Seqs.FilterAll(t, (c: char) => !IsAsciiWhitespace(c));
  }

  /** Exactly when `atob` succeeds: once whitespace is removed, the length
      is not one more than a multiple of four, and every character is in
      the alphabet except a final run of one or two `=` in an input whose
      length is a multiple of four. */
  lemma DecodeSucceedsIff(s: string)
    ensures Decode(s).Success? <==>
              var t := StripWhitespace(s);
              |t| % 4 != 1 && forall i :: 0 <= i < |t| ==> IsAlphabet(t[i]) || PaddingAt(t, i)
  {
    var t := StripWhitespace(s);
    var u := DropPadding(t);
    assert forall i :: 0 <= i < |u| ==> u[i] == t[i];
    if |t| % 4 == 0 {
      assert |u| % 4 != 1 by {
        DivMod4(|t| / 4, 0);
      }
    }
  }

  /** A single `=` after two characters is not padding: the stripped length
      is not a multiple of four, so `atob("AA=")` throws. */
  lemma ShortPaddingRejected()
    ensures Decode("AA=").Failure?
  {
    var s := "AA=";
    Seqs.FilterAll(s, (c: char) => !IsAsciiWhitespace(c));
    assert StripWhitespace(s) == s;
    assert DropPadding(s) == s;
    assert !IsAlphabet(s[2]);
  }

  /** A character outside the alphabet, `=` and whitespace always makes the
      decoder throw. */
  lemma DecodeRejectsForeign(s: string, i: int)
    requires 0 <= i < |s| && !IsAlphabet(s[i]) && s[i] != '=' && !IsAsciiWhitespace(s[i])
    ensures Decode(s).Failure?
  {
    var t := StripWhitespace(s);
    assert s[i] in t;
    var k :| 0 <= k < |t| && t[k] == s[i];
    var u := DropPadding(t);
    if k < |u| {
      assert u[k] == s[i];
    }
  }
}

=== FILE: dashboard.dfy ===
/** The deal-health dashboard (components/DealHealthDashboard.tsx): the
    score ring and its animation, the open action items, and the
    leaderboard with its windowed view around the current user. */
module Dashboard {
  import opened Wrappers
  import opened Types
  import Seqs
  import StableSort
  import RepMetrics

  // ------------------------------------------------------------ score ring

  /** `Math.min(100, score + adjustment)`. */
  function TargetScore(base: int, adjustment: int): (t: int)
    ensures t <= 100 && t <= base + adjustment
    ensures t == base + adjustment || t == 100
  {
    if base + adjustment < 100 then base + adjustment else 100
  }

  function Dist(a: int, b: int): nat {
    if a <= b then b - a else a - b
  }

  predicate Between(x: int, a: int, b: int) {
    (a <= x <= b) || (b <= x <= a)
  }

  /** One animation tick moves the shown score one point toward the target. */
  function AnimationStep(shown: int, target: int): (next: int)
    requires shown != target
    ensures Dist(shown, next) == 1
    ensures Dist(next, target) == Dist(shown, target) - 1
  {
    if target > shown then shown + 1 else shown - 1
  }

  /** The scores shown, tick by tick, until the animation settles. */
  function Animate(shown: int, target: int): (frames: seq<int>)
    ensures |frames| == Dist(shown, target) + 1
    ensures frames[0] == shown && frames[|frames| - 1] == target
    ensures forall i :: 0 <= i < |frames| ==> Between(frames[i], shown, target)
    ensures forall i :: 0 <= i < |frames| - 1 ==> Dist(frames[i], frames[i + 1]) == 1
    decreases Dist(shown, target)
  {
    if shown == target then [shown]
    else [shown] + Animate(AnimationStep(shown, target), target)
  }

  /** The shown score starts at the unclamped sum, so an adjustment past
      100 makes the ring count down to 100 and never shows less. */
  lemma AnimationFromMount(base: int, adjustment: int)
    requires base + adjustment > 100
    ensures var frames := Animate(base + adjustment, TargetScore(base, adjustment));
            |frames| == base + adjustment - 99
            && forall i :: 0 <= i < |frames| ==> 100 <= frames[i] <= base + adjustment
  {
  }

  datatype Ring = Cyan | Blue | Orange | Red

  /** `getRingColor`. */
  function RingColor(score: int): (c: Ring)
    ensures c == Cyan <==> score >= 100
    ensures c == Blue <==> 80 <= score < 100
    ensures c == Orange <==> 60 <= score < 80
    ensures c == Red <==> score < 60
  {
    if score >= 100 then Cyan else if score >= 80 then Blue else if score >= 60 then Orange else Red
  }

  function RingLevel(c: Ring): nat {
    match c
    case Red => 0
    case Orange => 1
    case Blue => 2
    case Cyan => 3
  }

  /** A higher score never shows a lower ring colour. */
  lemma RingColorMonotone(a: int, b: int)
    requires a <= b
    ensures RingLevel(RingColor(a)) <= RingLevel(RingColor(b))
  {
  }

  // ------------------------------------------------------------ action items

  /** An improvement action; `kind` is `'missing_field'` or `'potential'`. */
  datatype ActionItem = ActionItem(id: string, kind: string, points: int, labelText: string, dealName: string)

  const MissingField: string := "missing_field"
  const Potential: string := "potential"
  const DefaultQuickPoints: int := 15
  const DefaultQuickLabel: string := "Scan for Insights"

  function NotCompleted(completed: seq<string>): ActionItem -> bool {
    (a: ActionItem) => a.id !in completed
  }

  function IsKind(kind: string): ActionItem -> bool {
    (a: ActionItem) => a.kind == kind
  }

  function Points(a: ActionItem): int {
    a.points
  }

  datatype ActionSummary = ActionSummary(
    visible: seq<ActionItem>,
    missing: seq<ActionItem>,
    potential: seq<ActionItem>,
    pointsAtRisk: int,
    pointsUnlockable: int,
    riskComplete: bool,
    growthComplete: bool,
    quickPath: Option<ActionItem>)

  /** The open actions, split by kind, with the potential ones ordered by
      points (highest first), their point totals, and the quick path. */
  function Summarize(all: seq<ActionItem>, completed: seq<string>): (r: ActionSummary)
    ensures r.visible == Seqs.Filter(all, NotCompleted(completed))
    ensures r.missing == Seqs.Filter(r.visible, IsKind(MissingField))
    ensures multiset(r.potential) == multiset(Seqs.Filter(r.visible, IsKind(Potential)))
    ensures |r.potential| == |Seqs.Filter(r.visible, IsKind(Potential))|
    ensures StableSort.SortedDesc(r.potential, Points)
    ensures r.pointsAtRisk == Seqs.Sum(r.missing, Points)
    ensures r.pointsUnlockable == Seqs.Sum(Seqs.Filter(r.visible, IsKind(Potential)), Points)
    ensures r.riskComplete <==> r.missing == []
    ensures r.growthComplete <==> r.potential == []
    ensures r.quickPath.None? <==> forall i :: 0 <= i < |all| ==> all[i].id in completed
    ensures r.quickPath.Some? ==> r.visible != [] && r.quickPath.value == r.visible[0]
  {
    var visible := Seqs.Filter(all, NotCompleted(completed));
    var missing := Seqs.Filter(visible, IsKind(MissingField));
    var offered := Seqs.Filter(visible, IsKind(Potential));
    var potential := StableSort.Sort(offered, Points);
    assert StableSort.SortedDesc(potential, Points)
        && Seqs.Sum(potential, Points) == Seqs.Sum(offered, Points) by {
      StableSort.SortSorted(offered, Points);
      StableSort.SortPreservesSum(offered, Points, Points);
    }
    assert |visible| == 0 <==> forall i :: 0 <= i < |all| ==> all[i].id in completed by {
      NothingOpen(all, completed);
    }
    ActionSummary(
      visible,
      missing,
      potential,
      Seqs.Sum(missing, Points),
      Seqs.Sum(potential, Points),
      |missing| == 0,
      |potential| == 0,
      if |visible| > 0 then Some(visible[0]) else None)
  }

  /** Nothing is shown exactly when every action has been completed. */
  lemma NothingOpen(all: seq<ActionItem>, completed: seq<string>)
    ensures |Seqs.Filter(all, NotCompleted(completed))| == 0 <==>
            forall i :: 0 <= i < |all| ==> all[i].id in completed
  {
    var visible := Seqs.Filter(all, NotCompleted(completed));
    if |visible| > 0 {
      assert NotCompleted(completed)(visible[0]);
    }
  }

  /** The missing-field section is complete exactly when no open action of
      that kind is left. */
  lemma RiskCompleteSpec(all: seq<ActionItem>, completed: seq<string>)
    ensures Summarize(all, completed).riskComplete <==>
            forall i :: 0 <= i < |all| && all[i].id !in completed ==> all[i].kind != MissingField
  {
    NoneLeft(all, NotCompleted(completed), IsKind(MissingField));
  }

  /** The potential section is complete exactly when no open action of that
      kind is left. */
  lemma GrowthCompleteSpec(all: seq<ActionItem>, completed: seq<string>)
    ensures Summarize(all, completed).growthComplete <==>
            forall i :: 0 <= i < |all| && all[i].id !in completed ==> all[i].kind != Potential
  {
    NoneLeft(all, NotCompleted(completed), IsKind(Potential));
  }

  lemma NoneLeft(all: seq<ActionItem>, v: ActionItem -> bool, k: ActionItem -> bool)
    ensures |Seqs.Filter(Seqs.Filter(all, v), k)| == 0 <==> forall i :: 0 <= i < |all| ==> !(v(all[i]) && k(all[i]))
  {
    Seqs.FilterFilter(all, v, k);
    assert Seqs.Count(all, Seqs.Both(v, k)) == |Seqs.Filter(all, Seqs.Both(v, k))|;
  }

  /** The points shown on the quick-path button (`points || 15`). */
  function QuickPathPoints(q: Option<ActionItem>): (p: int)
    ensures p != 0
    ensures q.Some? && q.value.points != 0 ==> p == q.value.points
    ensures q.None? ==> p == 15
    ensures q.Some? && q.value.points == 0 ==> p == 15
  {
    if q.Some? && q.value.points != 0 then q.value.points else DefaultQuickPoints
  }

  /** The label shown on the quick-path button (`label || 'Scan for Insights'`). */
  function QuickPathLabel(q: Option<ActionItem>): (l: string)
    ensures l != []
    ensures q.Some? && q.value.labelText != [] ==> l == q.value.labelText
    ensures q.None? ==> l == "Scan for Insights"
    ensures q.Some? && q.value.labelText == [] ==> l == "Scan for Insights"
  {
    if q.Some? && q.value.labelText != [] then q.value.labelText else DefaultQuickLabel
  }

  predicate DistinctIds(all: seq<ActionItem>) {
    forall i, j :: 0 <= i < j < |all| ==> all[i].id != all[j].id
  }

  /** Completing an open action of one kind lowers that kind's total by its
      points and leaves the other kind's total alone. */
  lemma CompletingAction(all: seq<ActionItem>, completed: seq<string>, k: int)
    requires DistinctIds(all) && 0 <= k < |all| && all[k].id !in completed
    requires all[k].kind == MissingField || all[k].kind == Potential
    ensures var before := Summarize(all, completed);
            var after := Summarize(all, completed + [all[k].id]);
            if all[k].kind == MissingField then
              after.pointsAtRisk == before.pointsAtRisk - all[k].points
              && after.pointsUnlockable == before.pointsUnlockable
            else
              after.pointsUnlockable == before.pointsUnlockable - all[k].points
              && after.pointsAtRisk == before.pointsAtRisk
  {
    var done := completed + [all[k].id];
    var v0, v1 := NotCompleted(completed), NotCompleted(done);
    assert forall i :: 0 <= i < |all| && i != k ==> v0(all[i]) == v1(all[i]);
    var kind := all[k].kind;
    var other := if kind == MissingField then Potential else MissingField;
    Seqs.FilterFilter(all, v0, IsKind(kind));
    Seqs.FilterFilter(all, v1, IsKind(kind));
    Seqs.FilterFilter(all, v0, IsKind(other));
    Seqs.FilterFilter(all, v1, IsKind(other));
    Seqs.SumFilterDropOne(all, Seqs.Both(v0, IsKind(kind)), Seqs.Both(v1, IsKind(kind)), Points, k);
    Seqs.CountCongruent(all, Seqs.Both(v0, IsKind(other)), Seqs.Both(v1, IsKind(other)));
  }

  // ------------------------------------------------------------ leaderboard

  datatype Standing = Standing(rep: SalesRep, score: int)

  datatype Ranked = Ranked(rep: SalesRep, score: int, rank: nat)

  function StandingScore(s: Standing): int {
    s.score
  }

  /** Every rep with the score the dashboard shows: the live target for
      the current user, the rank's score for everyone else. */
  function Standings(reps: seq<SalesRep>, userId: string, target: int): (st: seq<Standing>)
    ensures |st| == |reps|
    ensures forall i :: 0 <= i < |reps| ==> st[i].rep == reps[i]
    ensures forall i :: 0 <= i < |reps| && reps[i].id == userId ==> st[i].score == target
    ensures forall i :: 0 <= i < |reps| && reps[i].id != userId ==> st[i].score == RepMetrics.RepScore(reps[i].rank)
  {
    seq(|reps|, i requires 0 <= i < |reps| =>
      Standing(reps[i], if reps[i].id == userId then target else RepMetrics.RepScore(reps[i].rank)))
  }

  function Unrank(board: seq<Ranked>): (st: seq<Standing>)
    ensures |st| == |board|
    ensures forall i :: 0 <= i < |board| ==> st[i] == Standing(board[i].rep, board[i].score)
  {
    seq(|board|, i requires 0 <= i < |board| => Standing(board[i].rep, board[i].score))
  }

  /** The leaderboard: reps ordered by score, highest first, ranked 1, 2, … */
  function Leaderboard(reps: seq<SalesRep>, userId: string, target: int): (board: seq<Ranked>)
    ensures |board| == |reps|
    ensures forall i :: 0 <= i < |board| ==> board[i].rank == i + 1
    ensures forall i, j :: 0 <= i < j < |board| ==> board[i].score >= board[j].score
    ensures multiset(Unrank(board)) == multiset(Standings(reps, userId, target))
  {
    var standings := Standings(reps, userId, target);
    var sorted := StableSort.Sort(standings, StandingScore);
    StableSort.SortSorted(standings, StandingScore);
    var board := seq(|sorted|, i requires 0 <= i < |sorted| => Ranked(sorted[i].rep, sorted[i].score, i + 1));
    assert Unrank(board) == sorted;
    board
  }

  /** Reps with the same score keep their directory order. */
  lemma LeaderboardStable(reps: seq<SalesRep>, userId: string, target: int, score: int)
    ensures Seqs.Filter(Unrank(Leaderboard(reps, userId, target)), StableSort.KeyIs(StandingScore, score))
            == Seqs.Filter(Standings(reps, userId, target), StableSort.KeyIs(StandingScore, score))
  {
    var standings := Standings(reps, userId, target);
    var sorted := StableSort.Sort(standings, StandingScore);
    assert Unrank(Leaderboard(reps, userId, target)) == sorted;
    StableSort.SortStable(standings, StandingScore, score);
  }

  /** `leaderboard.findIndex(r => r.id === userId)`. */
  function UserRankIndex(board: seq<Ranked>, userId: string): (k: int)
    ensures -1 <= k < |board|
    ensures k == -1 <==> forall i :: 0 <= i < |board| ==> board[i].rep.id != userId
    ensures k >= 0 ==> board[k].rep.id == userId && forall i :: 0 <= i < k ==> board[i].rep.id != userId
  {
    if |board| == 0 then -1
    else if board[0].rep.id == userId then 0
    else
      var k := UserRankIndex(board[1..], userId);
      if k == -1 then -1 else k + 1
  }

  /** A user in the directory is on the board, and the board shows the
      user's live target score. */
  lemma UserOnBoard(reps: seq<SalesRep>, userId: string, target: int, u: int)
    requires 0 <= u < |reps| && reps[u].id == userId
    ensures var board := Leaderboard(reps, userId, target);
            var k := UserRankIndex(board, userId);
            k >= 0 && board[k].score == target
  {
    var board := Leaderboard(reps, userId, target);
    var standings := Standings(reps, userId, target);
    assert standings[u] in multiset(Unrank(board));
    var j :| 0 <= j < |board| && Unrank(board)[j] == standings[u];
    assert board[j].rep.id == userId;
    var k := UserRankIndex(board, userId);
    assert Unrank(board)[k] in multiset(standings);
    var m :| 0 <= m < |standings| && standings[m] == Unrank(board)[k];
  }

  // ------------------------------------------------------------ the window

  /** The leaderboard card: everything, or the top three plus a window of
      at most three entries around the user. */
  datatype View<T> = Full(items: seq<T>) | Windowed(top3: seq<T>, context: seq<T>, hasGap: bool)

  function ContextStart(userIndex: int): int {
    if userIndex - 1 > 3 then userIndex - 1 else 3
  }

  function WindowOf<T>(board: seq<T>, userIndex: int, showFull: bool): (v: View<T>)
    requires -1 <= userIndex < |board|
    ensures showFull ==> v == Full(board)
    ensures !showFull && userIndex < 3 ==> v.Full? && v.items == board[..if |board| < 3 then |board| else 3]
    ensures !showFull && userIndex >= 3 ==>
              v.Windowed? && v.top3 == board[..3] && 1 <= |v.context| <= 3
              && 3 <= ContextStart(userIndex) <= userIndex < ContextStart(userIndex) + |v.context| <= |board|
              && v.context == board[ContextStart(userIndex)..ContextStart(userIndex) + |v.context|]
              && v.context[userIndex - ContextStart(userIndex)] == board[userIndex]
              && (v.hasGap <==> userIndex > 4)
              && (userIndex - 1 >= 3 ==> v.context[0] == board[userIndex - 1])
              && (userIndex + 1 < |board| ==> v.context[|v.context| - 1] == board[userIndex + 1])
  {
    if showFull then Full(board)
    else
      var top3 := board[..if |board| < 3 then |board| else 3];
      if userIndex + 1 <= 3 then Full(top3)
      else
        var start := ContextStart(userIndex);
        var end := if |board| < userIndex + 2 then |board| else userIndex + 2;
        assert userIndex - 1 >= 3 ==> start == userIndex - 1;
        Windowed(top3, board[start..end], start > 3)
  }
}

=== FILE: deal_coach.dfy ===
/** The pure logic of the role-play coach screen (components/DealCoach.tsx):
    the active-turn transcript buffer, manual text sends, the call timer and
    its display, the end-of-session guard and the agent animation state.
    React state updates are modelled as functions from the old values to
    the new ones; `Date.now()` is a parameter. */
module DealCoach {
  import opened Wrappers
  import opened Types
  import Strings

  /** The turn being spoken, not yet committed to the transcript. */
  datatype Turn = Turn(speaker: Speaker, text: string)

  /** The text the client sends when thirty seconds remain. */
  const WarningText: string := "[SYSTEM: 30 seconds remaining. As the PROSPECT, start looking for a way to naturally end the meeting soon.]"

  /** The remaining time at which the warning is sent. */
  const WarningAt: nat := 30

  /** The volume above which the agent is shown as listening. */
  const ListeningThreshold: real := 0.05

  // ------------------------------------------------ transcript buffer

  /** `onTranscription`: a delta continues the active turn of the same
      speaker; from anyone else it starts a new turn, dropping the old
      text uncommitted. */
  function OnTranscription(active: Option<Turn>, speaker: Speaker, text: string): (r: Option<Turn>)
    ensures r.Some? && r.value.speaker == speaker
    ensures active.Some? && active.value.speaker == speaker ==> r.value.text == active.value.text + text
    ensures !(active.Some? && active.value.speaker == speaker) ==> r.value.text == text
  {
    if active.Some? && active.value.speaker == speaker then Some(Turn(speaker, active.value.text + text))
    else Some(Turn(speaker, text))
  }

  /** `onTurnComplete`: the active turn, if any, becomes one transcript
      record stamped `now`; the buffer empties either way. */
  function OnTurnComplete(active: Option<Turn>, transcripts: seq<TranscriptionItem>, now: int): (r: (Option<Turn>, seq<TranscriptionItem>))
    ensures r.0.None?
    ensures active.None? ==> r.1 == transcripts
    ensures active.Some? ==> |r.1| == |transcripts| + 1 && r.1[..|transcripts|] == transcripts
                             && r.1[|transcripts|] == TranscriptionItem(active.value.speaker, active.value.text, now)
  {
    match active
    case None => (None, transcripts)
    case Some(t) => (None, transcripts + [TranscriptionItem(t.speaker, t.text, now)])
  }

  /** The concatenation of a list of text deltas. */
  function Concat(deltas: seq<string>): string {
    if |deltas| == 0 then "" else deltas[0] + Concat(deltas[1..])
  }

  /** Feeding deltas of one speaker in order, starting from `active`. */
  function Feed(active: Option<Turn>, speaker: Speaker, deltas: seq<string>): Option<Turn>
    decreases |deltas|
  {
    if |deltas| == 0 then active
    else Feed(OnTranscription(active, speaker, deltas[0]), speaker, deltas[1..])
  }

  /** Deltas of one speaker accumulate: continuing a turn of that speaker
      appends all of them to its text, in order. */
  lemma {:induction false} FeedAccumulates(prefix: string, speaker: Speaker, deltas: seq<string>)
    ensures Feed(Some(Turn(speaker, prefix)), speaker, deltas) == Some(Turn(speaker, prefix + Concat(deltas)))
    decreases |deltas|
  {
    if |deltas| > 0 {
      assert OnTranscription(Some(Turn(speaker, prefix)), speaker, deltas[0]) == Some(Turn(speaker, prefix + deltas[0]));
      FeedAccumulates(prefix + deltas[0], speaker, deltas[1..]);
      assert Concat(deltas) == deltas[0] + Concat(deltas[1..]);
      assert prefix + deltas[0] + Concat(deltas[1..]) == prefix + Concat(deltas);
    } else {
      assert prefix + Concat(deltas) == prefix;
    }
  }

  /** A whole turn of one speaker, committed, is one record holding every
      delta of the turn. */
  lemma TurnCommitsConcatenation(speaker: Speaker, deltas: seq<string>, transcripts: seq<TranscriptionItem>, now: int)
    requires |deltas| > 0
    ensures OnTurnComplete(Feed(None, speaker, deltas), transcripts, now).1
              == transcripts + [TranscriptionItem(speaker, Concat(deltas), now)]
  {
    FeedAccumulates(deltas[0], speaker, deltas[1..]);
    assert deltas[0] + Concat(deltas[1..]) == Concat(deltas);
  }

  /** Interleaved speakers lose text: model "Hi", user "Hello", model
      " there", then turn complete commits only " there". */
  lemma InterleavedSpeakersDropText(transcripts: seq<TranscriptionItem>, now: int)
    ensures var a := OnTranscription(None, Model, "Hi");
            var b := OnTranscription(a, User, "Hello");
            var c := OnTranscription(b, Model, " there");
            OnTurnComplete(c, transcripts, now).1 == transcripts + [TranscriptionItem(Model, " there", now)]
  {
  }

  // ------------------------------------------------ manual send

  /** `handleManualSend`: a blank input or a missing client changes
      nothing; otherwise one untrimmed `user` record is added, the text is
      sent and the input cleared. The result holds the new transcripts, the
      new input, and the text handed to the client. */
  function ManualSend(input: string, clientPresent: bool, transcripts: seq<TranscriptionItem>, now: int): (r: (seq<TranscriptionItem>, string, Option<string>))
    ensures Strings.IsBlank(input) || !clientPresent ==> r == (transcripts, input, None)
    ensures !Strings.IsBlank(input) && clientPresent ==>
              r.0 == transcripts + [TranscriptionItem(User, input, now)] && r.1 == "" && r.2 == Some(input)
  {
    Strings.TrimSpec(input);
    if Strings.Trim(input) == "" || !clientPresent then (transcripts, input, None)
    else (transcripts + [TranscriptionItem(User, input, now)], "", Some(input))
  }

  // ------------------------------------------------ duration and timer

  /** `handleStart`'s duration mapping: the call length in seconds, or no
      timer. */
  function DurationSeconds(d: CallDuration): (r: Option<nat>)
    ensures r.None? <==> d == NoLimit
    ensures r.Some? ==> r.value > WarningAt && r.value % 60 == 0
  {
    match d
    case FiveMin => Some(5 * 60)
    case TenMin => Some(10 * 60)
    case FifteenMin => Some(15 * 60)
    case NoLimit => None
  }

  /** Each timed duration lasts as many minutes as its label names. */
  lemma DurationMatchesLabel(d: CallDuration)
    requires d != NoLimit
    ensures var head := Strings.SplitHead(DurationLabel(d), " ");
            (forall i :: 0 <= i < |head| ==> Strings.IsDigit(head[i]))
            && DurationSeconds(d) == Some(60 * Strings.DigitsValue(head))
  {
    var text := DurationLabel(d);
    var digits := if d == FiveMin then "5" else if d == TenMin then "10" else "15";
    assert text == digits + " " + "MIN";
    Strings.SplitHeadOfJoin(digits, " ", "MIN");
    if d == FiveMin {
      assert digits[..0] == "";
    } else {
      assert digits[..1] == "1" && "1"[..0] == "";
    }
  }

  /** What one timer tick did. */
  datatype Tick = Tick(timeLeft: Option<int>, sentWarning: bool, endedSession: bool)

  /** One interval tick. The interval runs only while live with time left;
      the new value is one less, the warning goes out when it reaches 30,
      and at 0 the session ends with the timer held at 0. */
  function TimerTick(state: AppState, timeLeft: Option<int>): (r: Tick)
    ensures !(state == Live && timeLeft.Some? && timeLeft.value > 0) ==> r == Tick(timeLeft, false, false)
    ensures state == Live && timeLeft.Some? && timeLeft.value > 0 ==>
              r.timeLeft == Some(timeLeft.value - 1) && r.timeLeft.value >= 0
              && (r.sentWarning <==> timeLeft.value - 1 == WarningAt)
              && (r.endedSession <==> timeLeft.value == 1)
  {
    if state == Live && timeLeft.Some? && timeLeft.value > 0 then
      var next := timeLeft.value - 1;
      if next == 0 then Tick(Some(0), false, true)
      else Tick(Some(next), next == WarningAt, false)
    else Tick(timeLeft, false, false)
  }

  /** The ticks of a live call with `t` seconds left, up to the one that
      ends the session (after which the screen leaves the live state). */
  function Countdown(t: nat): (ticks: seq<Tick>)
    ensures |ticks| == t
    decreases t
  {
    if t == 0 then []
    else
      var tick := TimerTick(Live, Some(t));
      if tick.endedSession then [tick] else [tick] + Countdown(t - 1)
  }

  function Warnings(ticks: seq<Tick>): nat {
    if |ticks| == 0 then 0 else (if ticks[0].sentWarning then 1 else 0) + Warnings(ticks[1..])
  }

  /** A timed call of `t` seconds ends on exactly the `t`-th tick, only
      there, and sends the thirty-second warning once when it is longer
      than thirty seconds, otherwise never. */
  lemma {:induction false} CountdownEndsOnce(t: nat)
    ensures var ticks := Countdown(t);
            (forall i :: 0 <= i < |ticks| ==> (ticks[i].endedSession <==> i == t - 1))
            && Warnings(ticks) == (if t > WarningAt then 1 else 0)
    decreases t
  {
    if t > 1 {
      CountdownEndsOnce(t - 1);
      var ticks := Countdown(t);
      assert ticks == [TimerTick(Live, Some(t))] + Countdown(t - 1);
      assert ticks[1..] == Countdown(t - 1);
      forall i | 0 <= i < |ticks|
        ensures ticks[i].endedSession <==> i == t - 1
      {
        if i > 0 {
          assert ticks[i] == Countdown(t - 1)[i - 1];
        }
      }
    }
  }

  // ------------------------------------------------ time display

  /** `formatTime`: whole minutes, a colon, and the seconds padded to two
      digits. */
  function FormatTime(seconds: nat): (r: string)
    ensures ':' in r
    ensures var k := Strings.IndexOfChar(r, ':');
            |r[k + 1..]| == 2 && Strings.IsDigit(r[k + 1]) && Strings.IsDigit(r[k + 2])
            && Strings.DigitValue(r[k + 1]) < 6
  {
    var mins := Strings.NatToString(seconds / 60);
    var secs := Strings.PadTwo(seconds % 60);
    var r := mins + ":" + secs;
    Strings.PadTwoValue(seconds % 60);
    assert r[|mins|] == ':';
    assert forall i :: 0 <= i < |mins| ==> mins[i] != ':' by {
      assert forall i :: 0 <= i < |mins| ==> Strings.IsDigit(mins[i]);
    }
    assert ':' !in r[..|mins|] by {
      assert r[..|mins|] == mins;
    }
    Strings.IndexOfCharUnique(r, ':', |mins|);
    assert r[|mins| + 1..] == secs;
    assert Strings.DigitsValue(secs) == 10 * Strings.DigitValue(secs[0]) + Strings.DigitValue(secs[1]) by {
      assert secs[..1][..0] == [];
      assert secs[..|secs| - 1] == secs[..1];
    }
    r
  }

  /** Reading an `m:ss` display back as a number of seconds. */
  function ParseTime(t: string): Option<nat> {
    var pieces := Strings.SplitOn(t, ':');
    if |pieces| == 2
       && (forall i :: 0 <= i < |pieces[0]| ==> Strings.IsDigit(pieces[0][i]))
       && (forall i :: 0 <= i < |pieces[1]| ==> Strings.IsDigit(pieces[1][i]))
    then Some(60 * Strings.DigitsValue(pieces[0]) + Strings.DigitsValue(pieces[1]))
    else None
  }

  /** The display denotes exactly the remaining seconds. */
  lemma FormatTimeRoundTrip(seconds: nat)
    ensures ParseTime(FormatTime(seconds)) == Some(seconds)
  {
    var mins := Strings.NatToString(seconds / 60);
    var secs := Strings.PadTwo(seconds % 60);
    FormatTimePieces(seconds);
    Strings.NatToStringRoundTrip(seconds / 60);
    Strings.PadTwoValue(seconds % 60);
    assert ParseTime(FormatTime(seconds))
        == Some(60 * Strings.DigitsValue(mins) + Strings.DigitsValue(secs));
  }

  /** The display splits at its colon into the minutes and the seconds. */
  lemma FormatTimePieces(seconds: nat)
    ensures Strings.SplitOn(FormatTime(seconds), ':')
         == [Strings.NatToString(seconds / 60), Strings.PadTwo(seconds % 60)]
  {
    var mins := Strings.NatToString(seconds / 60);
    var secs := Strings.PadTwo(seconds % 60);
    assert ':' !in mins && ':' !in secs;
    assert Strings.Join([mins, secs], ":") == FormatTime(seconds);
    Strings.SplitJoin([mins, secs], ':');
  }

  // ------------------------------------------------ ending a session

  /** The state after `handleEndSession`, and whether the transcript went
      to analysis. The client is disconnected and dropped either way. */
  function EndSession(transcripts: seq<TranscriptionItem>): (r: (AppState, bool))
    ensures r.1 <==> |transcripts| >= 2
    ensures r.0 == (if r.1 then Analyzing else Setup)
  {
    if |transcripts| < 2 then (Setup, false) else (Analyzing, true)
  }

  /** The outcome of the analysis request: the report, or back to setup
      with "Analysis failed.". A report is recorded at the head of the
      history. */
  function FinishAnalysis<A>(outcome: Result<A, string>, history: seq<A>): (r: (AppState, seq<A>, Option<string>))
    ensures outcome.Success? ==> r.0 == Report && r.1 == [outcome.value] + history && r.2.None?
    ensures outcome.Failure? ==> r.0 == Setup && r.1 == history && r.2 == Some("Analysis failed.")
  {
    match outcome
    case Success(a) => (Report, [a] + history, None)
    case Failure(_) => (Setup, history, Some("Analysis failed."))
  }

  // ------------------------------------------------ agent animation

  datatype AgentState = Speaking | Listening | Processing | Idle

  /** `agentState`: the first matching of speaking, loud input, analysing. */
  function AgentStateOf(isSpeaking: bool, volume: real, state: AppState): (r: AgentState)
    ensures r == Speaking <==> isSpeaking
    ensures r == Listening <==> !isSpeaking && volume > ListeningThreshold
    ensures r == Processing <==> !isSpeaking && volume <= ListeningThreshold && state == Analyzing
    ensures r == Idle <==> !isSpeaking && volume <= ListeningThreshold && state != Analyzing
  {
    if isSpeaking then Speaking
    else if volume > ListeningThreshold then Listening
    else if state == Analyzing then Processing
    else Idle
  }
}

=== FILE: deals.dfy ===
/** The mock deal generator (data/deals.ts). The seeded pseudo-random
    numbers, fractional parts of `Math.sin(rank + offset) * 10000`, are an
    arbitrary function `noise` from the argument to a real in [0, 1). The
    rep directory is a parameter. */
module Deals {
  import opened Wrappers
  import opened Types
  import Strings
  import Seqs

  /** The 33 account names, in their source order. The list is written in
      three parts so that facts about its names can be proved part by part. */
  const AccountNames: seq<string> := AccountsHead + AccountsMiddle + AccountsTail

  const AccountsHead: seq<string> := [
    "UnitedHealth Group", "Mayo Clinic", "HCA Healthcare", "Skadden Arps", "CVS", "Baker McKenzie",
    "JPMorgan Chase", "Goldman Sachs", "Deloitte", "PwC", "EY"]

  const AccountsMiddle: seq<string> := [
    "KPMG", "White & Case", "Latham & Watkins", "Cravath Swaine", "DLA Piper", "Kaiser Permanente",
    "Anthem", "Kirkland & Ellis", "Sidley Austin", "Jones Day", "Pfizer"]

  const AccountsTail: seq<string> := [
    "Microsoft", "Apple", "Amazon", "Citigroup", "Bank of America", "Cleveland Clinic",
    "Federal Trade Commission (FTC)", "Wells Fargo", "Morgan Stanley", "Alphabet Inc.", "Walmart"]

  const DealSuffixes: seq<string> := [
    "Global Tax Solution", "Regulatory Compliance Suite", "Legal Research Intelligence",
    "Healthcare Risk Manager", "Audit & Assurance Platform", "Financial Reporting Upgrade",
    "ESG Compliance Audit", "Corporate Governance Portal", "Internal Audit Cloud",
    "TeamMate+ Implementation", "CT Corporation Compliance", "CCH Axcess Migration"]

  const Stages: seq<Stage> := [Discovery, Qualification, Proposal, Negotiation, ClosedWon, ClosedLost]

  /** The one rep who gets the large, sequential book of deals. */
  const MichaelEmail: string := "michael.thompson@wolterskluwer.com"

  const DefaultQuota: int := 400000

  /** Separator between account and product in a deal name. */
  const NameSeparator: string := " - "

  /** Every seeded value is a fraction in [0, 1). */
  ghost predicate IsNoise(noise: int -> real) {
    forall k :: 0.0 <= noise(k) < 1.0
  }

  /** `reps.find(r => r.id === id)`. */
  function FindRep(reps: seq<SalesRep>, id: string): (r: Option<SalesRep>)
    ensures r.None? <==> forall i :: 0 <= i < |reps| ==> reps[i].id != id
    ensures r.Some? ==> exists i :: 0 <= i < |reps| && reps[i] == r.value
                                    && reps[i].id == id && forall j :: 0 <= j < i ==> reps[j].id != id
  {
    if |reps| == 0 then None
    else if reps[0].id == id then Some(reps[0])
    else
      var r := FindRep(reps[1..], id);
      if r.Some? then
        var i :| 0 <= i < |reps[1..]| && reps[1..][i] == r.value && reps[1..][i].id == id
                 && forall j :: 0 <= j < i ==> reps[1..][j].id != id;
        assert reps[i + 1] == r.value;
        r
      else r
  }

  /** `getScoreFromRepId` of this file: two linear bands. */
  function DealScore(rank: int): (score: int)
    ensures 1 <= rank <= 5 ==> 91 <= score <= 100
    ensures 6 <= rank <= 100 ==> 50 <= score <= 90
  {
    if rank <= 5 then (100.0 - (rank - 1) as real * 9.0 / 4.0).Floor
    else (90.0 - (rank - 6) as real * 40.0 / 94.0).Floor
  }

  /** The two bands join without a rise: the score never increases with
      the rank. */
  lemma DealScoreMonotone(a: int, b: int)
    requires 1 <= a <= b
    ensures DealScore(a) >= DealScore(b)
  {
  }

  lemma DealScoreValues()
    ensures DealScore(1) == 100 && DealScore(2) == 97 && DealScore(3) == 95
    ensures DealScore(4) == 93 && DealScore(5) == 91 && DealScore(6) == 90 && DealScore(100) == 50
  {
  }

  /** `Math.floor(f * n)`: an index into a list of `n` entries. */
  function FracIndex(f: real, n: int): (i: nat)
    requires 0.0 <= f < 1.0 && n >= 1
    ensures i < n
  {
    assert f * n as real < n as real by {
      assert (1.0 - f) * n as real > 0.0;
    }
    assert f * n as real >= 0.0;
    (f * n as real).Floor
  }

  /** The health of a deal: the score moved by a variance in [-5, 5),
      rounded down and clamped to [20, 100]. */
  function Health(base: int, noise: real): (h: int)
    requires 0.0 <= noise < 1.0
    ensures 20 <= h <= 100
    ensures ClampHealth(base - 5) <= h <= ClampHealth(base + 4)
    ensures 25 <= base <= 95 ==> base - 5 <= h <= base + 4
    ensures 20 < h < 100 ==> base - 5 <= h <= base + 4
    ensures h == 20 ==> base <= 25
    ensures h == 100 ==> base >= 96
    ensures noise == 0.5 ==> h == ClampHealth(base)
  {
    var raw := (base as real + (noise * 10.0 - 5.0)).Floor;
    if raw > 100 then 100 else if raw < 20 then 20 else raw
  }

  /** `Math.max(20, Math.min(100, x))`. */
  function ClampHealth(x: int): int {
    if x > 100 then 100 else if x < 20 then 20 else x
  }

  /** A higher score or a higher draw never gives a lower health. */
  lemma HealthMonotone(base1: int, base2: int, noise1: real, noise2: real)
    requires base1 <= base2 && 0.0 <= noise1 <= noise2 < 1.0
    ensures Health(base1, noise1) <= Health(base2, noise2)
  {
  }

  /** The status bands of a health value. */
  function StatusOf(health: int): (s: DealStatus)
    ensures s == Critical <==> health < 40
    ensures s == Risk <==> 40 <= health < 60
    ensures s == Watch <==> 60 <= health < 80
    ensures s == Healthy <==> health >= 80
  {
    if health < 40 then Critical
    else if health < 60 then Risk
    else if health < 80 then Watch
    else Healthy
  }

  function Severity(s: DealStatus): nat {
    match s
    case Healthy => 0
    case Watch => 1
    case Risk => 2
    case Critical => 3
  }

  /** A healthier deal never has a more severe status. */
  lemma StatusMonotone(h1: int, h2: int)
    requires h1 <= h2
    ensures Severity(StatusOf(h1)) >= Severity(StatusOf(h2))
  {
  }

  /** `rep.quota || 400000`. */
  function Quota(rep: SalesRep): (q: int)
    ensures q != 0
  {
    if rep.quota.Some? && rep.quota.value != 0 then rep.quota.value else DefaultQuota
  }

  /** `parseInt(`${rank}${i}`)`: the digits of the rank followed by those
      of the index. */
  /** The id is the rank shifted left by the number of digits of the
      index, plus the index; a single-digit index gives `10 * rank + i`. */
  function DealId(rank: nat, i: nat): (id: int)
    ensures id == rank * Strings.Pow10(|Strings.NatToString(i)|) + i
    ensures i < 10 ==> id == 10 * rank + i
  {
    var digits := Strings.NatToString(rank) + Strings.NatToString(i);
    Strings.DigitsValueAppend(Strings.NatToString(rank), Strings.NatToString(i));
    Strings.NatToStringRoundTrip(rank);
    Strings.NatToStringRoundTrip(i);
    Strings.DigitsValue(digits)
  }

  /** The health of deal `i` of `rep`: the rep's score moved by the
      seeded draw at offset `i + 4`. */
  function DealHealth(rep: SalesRep, i: nat, noise: int -> real): (h: int)
    requires IsNoise(noise)
    ensures 20 <= h <= 100
  {
    Health(DealScore(rep.rank), noise(rep.rank + i + 4))
  }

  /** Deal `i` of `rep` out of `count`. */
  function MakeDeal(rep: SalesRep, i: nat, count: nat, isMichael: bool, noise: int -> real): (d: Deal)
    requires IsNoise(noise) && count >= 1
    ensures d.account in AccountNames
    ensures isMichael ==> d.account == AccountNames[i % |AccountNames|]
    ensures exists j :: 0 <= j < |DealSuffixes| && d.name == d.account + NameSeparator + DealSuffixes[j]
    ensures d.stage != ClosedLost
    ensures 20 <= d.health <= 100 && d.status == StatusOf(d.health)
    ensures d.health == DealHealth(rep, i, noise)
    ensures d.id == DealId(rep.rank, i)
    ensures d.ownerId == rep.id
  {
    var base := DealScore(rep.rank);
    var at := rep.rank + i;
    var accountIndex := if isMichael then i % |AccountNames| else FracIndex(noise(at + 1), |AccountNames|);
    var suffixIndex := FracIndex(noise(at + 2), |DealSuffixes|);
    var stageIndex := FracIndex(noise(at + 3), |Stages| - 1);
    var health := DealHealth(rep, i, noise);
    var value := DealValue(Quota(rep), base, count, noise(at + 5));
    var account := AccountNames[accountIndex];
    Deal(
      DealId(rep.rank, i),
      account + NameSeparator + DealSuffixes[suffixIndex],
      account,
      value,
      Stages[stageIndex],
      health,
      rep.id,
      rep.firstName + " " + rep.lastName,
      StatusOf(health))
  }

  /** A deal's value: the quota times the score-linked coverage, shared
      over the deals and moved by a variance in [0.8, 1.2), rounded down. */
  function DealValue(quota: int, base: int, count: nat, f: real): int
    requires count >= 1
  {
    var average := quota as real * (base + 20) as real / 100.0 / count as real;
    (average * (f * 0.4 + 0.8)).Floor
  }

  /** `getDealsForRep`: none for an unknown id, 35 for Michael, 8 for
      everyone else. */
  function DealsForRep(reps: seq<SalesRep>, repId: string, noise: int -> real): (ds: seq<Deal>)
    requires IsNoise(noise)
    ensures FindRep(reps, repId).None? ==> ds == []
    ensures FindRep(reps, repId).Some? ==>
              |ds| == (if FindRep(reps, repId).value.email == MichaelEmail then 35 else 8)
    ensures forall k :: 0 <= k < |ds| ==>
              ds[k].ownerId == repId && ds[k].stage != ClosedLost && ds[k].account in AccountNames
              && 20 <= ds[k].health <= 100 && ds[k].status == StatusOf(ds[k].health)
    ensures FindRep(reps, repId).Some? && FindRep(reps, repId).value.email == MichaelEmail ==>
              forall k :: 0 <= k < |ds| ==> ds[k].account == AccountNames[k % |AccountNames|]
    ensures FindRep(reps, repId).Some? ==>
              var rep := FindRep(reps, repId).value;
              forall k :: 0 <= k < |ds| ==> ds[k].health == DealHealth(rep, k, noise) && ds[k].id == DealId(rep.rank, k)
  {
    match FindRep(reps, repId)
    case None => []
    case Some(rep) =>
      var isMichael := rep.email == MichaelEmail;
      Book(rep, if isMichael then 35 else 8, isMichael, noise)
  }

  /** The loop of `getDealsForRep`: deal `k` of the rep's `count`, in order. */
  function Book(rep: SalesRep, count: nat, isMichael: bool, noise: int -> real): (ds: seq<Deal>)
    requires IsNoise(noise) && count >= 1
    ensures |ds| == count
    ensures forall k :: 0 <= k < count ==>
              ds[k].ownerId == rep.id && ds[k].stage != ClosedLost && ds[k].account in AccountNames
              && 20 <= ds[k].health <= 100 && ds[k].status == StatusOf(ds[k].health)
              && ds[k].health == DealHealth(rep, k, noise)
              && ds[k].id == DealId(rep.rank, k)
    ensures isMichael ==> forall k :: 0 <= k < count ==> ds[k].account == AccountNames[k % |AccountNames|]
  {
    seq(count, k requires 0 <= k < count => MakeDeal(rep, k, count, isMichael, noise))
  }

  /** `getAllDeals`: the deals of each rep of `of`, looked up in `reps`,
      concatenated in order. */
  function DealsOfReps(reps: seq<SalesRep>, of: seq<SalesRep>, noise: int -> real): (ds: seq<Deal>)
    requires IsNoise(noise)
    ensures forall k :: 0 <= k < |ds| ==> exists j :: 0 <= j < |of| && ds[k].ownerId == of[j].id
  {
    if |of| == 0 then [] else DealsForRep(reps, of[0].id, noise) + DealsOfReps(reps, of[1..], noise)
  }

  /** `getAllDeals`: every rep's deals, rep by rep. Every deal is owned by
      a rep of the directory. */
  function AllDeals(reps: seq<SalesRep>, noise: int -> real): (ds: seq<Deal>)
    requires IsNoise(noise)
    ensures forall k :: 0 <= k < |ds| ==> exists j :: 0 <= j < |reps| && ds[k].ownerId == reps[j].id
  {
    DealsOfReps(reps, reps, noise)
  }

  function OwnedBy(id: string): Deal -> bool {
    (d: Deal) => d.ownerId == id
  }

  /** Picking one owner's deals out of the concatenation gives back exactly
      that rep's list, when the rep appears once. */
  lemma {:induction false} OwnerSlice(reps: seq<SalesRep>, of: seq<SalesRep>, noise: int -> real, k: int)
    requires IsNoise(noise)
    requires 0 <= k < |of| && forall j :: 0 <= j < |of| && j != k ==> of[j].id != of[k].id
    ensures Seqs.Filter(DealsOfReps(reps, of, noise), OwnedBy(of[k].id)) == DealsForRep(reps, of[k].id, noise)
  {
    var id := of[k].id;
    var p := OwnedBy(id);
    var head := DealsForRep(reps, of[0].id, noise);
    var tail := DealsOfReps(reps, of[1..], noise);
    Seqs.FilterAppend(head, tail, p);
    if k == 0 {
      Seqs.FilterAll(head, p);
      OwnerAbsent(reps, of[1..], noise, id);
      assert Seqs.Filter(head, p) + [] == head;
    } else {
      Seqs.FilterNone(head, p);
      OwnerSlice(reps, of[1..], noise, k - 1);
    }
  }

  lemma {:induction false} OwnerAbsent(reps: seq<SalesRep>, of: seq<SalesRep>, noise: int -> real, id: string)
    requires IsNoise(noise)
    requires forall j :: 0 <= j < |of| ==> of[j].id != id
    ensures Seqs.Filter(DealsOfReps(reps, of, noise), OwnedBy(id)) == []
  {
    if |of| > 0 {
      var p := OwnedBy(id);
      Seqs.FilterAppend(DealsForRep(reps, of[0].id, noise), DealsOfReps(reps, of[1..], noise), p);
      Seqs.FilterNone(DealsForRep(reps, of[0].id, noise), p);
      OwnerAbsent(reps, of[1..], noise, id);
    }
  }

  /** With distinct ids, a rep's slice of all deals is that rep's list. */
  lemma AllDealsOwnerSlice(reps: seq<SalesRep>, noise: int -> real, k: int)
    requires IsNoise(noise)
    requires 0 <= k < |reps| && forall i, j :: 0 <= i < j < |reps| ==> reps[i].id != reps[j].id
    ensures Seqs.Filter(AllDeals(reps, noise), OwnedBy(reps[k].id)) == DealsForRep(reps, reps[k].id, noise)
  {
    OwnerSlice(reps, reps, noise, k);
  }

  predicate NoDash(s: string) {
    forall k :: 0 <= k < |s| ==> s[k] != '-'
  }

  lemma AccountsNoDashFirst()
    ensures forall i :: 0 <= i < |AccountsHead| ==> NoDash(AccountsHead[i])
  {
    assert NoDash(AccountsHead[0]) && NoDash(AccountsHead[1]) && NoDash(AccountsHead[2]) && NoDash(AccountsHead[3])
      && NoDash(AccountsHead[4]) && NoDash(AccountsHead[5]) && NoDash(AccountsHead[6]) && NoDash(AccountsHead[7])
      && NoDash(AccountsHead[8]) && NoDash(AccountsHead[9]) && NoDash(AccountsHead[10]);
  }

  lemma AccountsNoDashSecond()
    ensures forall i :: 0 <= i < |AccountsMiddle| ==> NoDash(AccountsMiddle[i])
  {
    assert NoDash(AccountsMiddle[0]) && NoDash(AccountsMiddle[1]) && NoDash(AccountsMiddle[2]) && NoDash(AccountsMiddle[3])
      && NoDash(AccountsMiddle[4]) && NoDash(AccountsMiddle[5]) && NoDash(AccountsMiddle[6]) && NoDash(AccountsMiddle[7])
      && NoDash(AccountsMiddle[8]) && NoDash(AccountsMiddle[9]) && NoDash(AccountsMiddle[10]);
  }

  lemma AccountsNoDashThird()
    ensures forall i :: 0 <= i < |AccountsTail| ==> NoDash(AccountsTail[i])
  {
    assert NoDash(AccountsTail[0]) && NoDash(AccountsTail[1]) && NoDash(AccountsTail[2]) && NoDash(AccountsTail[3])
      && NoDash(AccountsTail[4]) && NoDash(AccountsTail[5]) && NoDash(AccountsTail[6]) && NoDash(AccountsTail[7])
      && NoDash(AccountsTail[8]) && NoDash(AccountsTail[9]) && NoDash(AccountsTail[10]);
  }

  /** No account name contains a dash. */
  lemma AccountsHaveNoDash()
    ensures forall i :: 0 <= i < |AccountNames| ==> NoDash(AccountNames[i])
  {
    AccountsNoDashFirst();
    AccountsNoDashSecond();
    AccountsNoDashThird();
    var head, middle := AccountsHead, AccountsHead + AccountsMiddle;
    assert forall i :: 0 <= i < 11 ==> AccountNames[i] == head[i];
    assert forall i :: 11 <= i < 22 ==> AccountNames[i] == middle[i] == AccountsMiddle[i - 11];
    assert forall i :: 22 <= i < 33 ==> AccountNames[i] == AccountsTail[i - 22];
  }

  /** Splitting a deal name on `" - "` yields the account first, because
      an account name has no dash. */
  lemma NameSplitsToAccount(account: string, suffix: string)
    requires NoDash(account)
    ensures Strings.SplitHead(account + NameSeparator + suffix, NameSeparator) == account
  {
    var s := account + NameSeparator + suffix;
    assert Strings.OccursAt(s, NameSeparator, |account|);
    assert s[..|account|] == account;
    forall j | 0 <= j < |account|
      ensures !Strings.OccursAt(s, NameSeparator, j)
    {
      if j + 1 < |account| {
        assert s[j + 1] == account[j + 1];
      } else {
        assert s[j + 1] == ' ';
      }
      assert s[j..j + |NameSeparator|][1] == s[j + 1] != '-';
    }
  }

  /** Every generated deal's name splits back to its account. */
  lemma DealNameSplits(reps: seq<SalesRep>, repId: string, noise: int -> real, k: int)
    requires IsNoise(noise)
    requires 0 <= k < |DealsForRep(reps, repId, noise)|
    ensures var d := DealsForRep(reps, repId, noise)[k];
            Strings.SplitHead(d.name, NameSeparator) == d.account
  {
    var d := DealsForRep(reps, repId, noise)[k];
    AccountsHaveNoDash();
    var rep := FindRep(reps, repId).value;
    var isMichael := rep.email == MichaelEmail;
    var count := if isMichael then 35 else 8;
    assert d == MakeDeal(rep, k, count, isMichael, noise);
    var j :| 0 <= j < |DealSuffixes| && d.name == d.account + NameSeparator + DealSuffixes[j];
    NameSplitsToAccount(d.account, DealSuffixes[j]);
  }
}

=== FILE: live_client.dfy ===
/** The connection lifecycle of the live conversation client
    (services/liveClient.ts) as a state machine: one transition per event,
    each returning the next state and the effects it asks of the browser,
    the session and the UI. Asynchronous steps are taken as atomic, and
    everything the client learns from the outside world during `connect`
    (key selection, the API key, microphone permission, the outcome of
    opening the session) is an input of the event. */
module LiveClient {
  import opened Wrappers
  import Strings
  import Pcm
  import Playback
  import Types

  /** `maxRetries`. */
  const MaxRetries: nat := 3

  /** The cap on one backoff wait, in milliseconds. */
  const MaxDelayMs: nat := 5000

  const MissingKeyMessage: string := "API Key not found. Please click 'Select Key' and choose a paid project."
  const MicDeniedMessage: string := "Microphone access denied. Please check your browser permissions."
  const BillingMessage: string := "AI Coach Connection Failed: Please ensure you select an API key from a project with active billing. Free projects do not support native audio streams."
  const PersistentMessage: string := "Persistent connection error. Please try again later."

  /** The lower-cased error fragments that mean a key or billing problem. */
  const AuthMarkers: seq<string> := ["requested entity was not found", "403", "billing"]

  /** The client's fields, abstracted:
      - `intentional`: `isIntentionalDisconnect`;
      - `session`: a session promise is held;
      - `capturing`: the script processor's frame handler is installed;
      - `devicesReady`: input context, microphone stream and input analyser exist;
      - `outputReady`: output context and output gain node exist;
      - `scheduler`: the playback watermark and live sources;
      - `instruction`: the system instruction the callbacks reconnect with;
      - `pending`: backoff waits started and not yet elapsed, each holding
        the instruction it will reconnect with. */
  datatype State = State(
    intentional: bool,
    retryCount: nat,
    session: bool,
    capturing: bool,
    devicesReady: bool,
    outputReady: bool,
    scheduler: Playback.Scheduler,
    instruction: string,
    pending: seq<string>)

  const Initial: State := State(false, 0, false, false, false, false, Playback.Initial, "", [])

  /** What the outside world answers while `connect` runs. */
  datatype ConnectEnv = ConnectEnv(
    keySelected: bool,
    apiKey: string,
    micGranted: bool,
    sessionOutcome: Result<(), string>)

  /** One server message; an absent text or payload is the empty string. */
  datatype ServerMessage = ServerMessage(
    outputText: string,
    inputText: string,
    turnComplete: bool,
    audio: string,
    interrupted: bool)

  datatype Event =
    | Connect(instruction: string, isRetry: bool, env: ConnectEnv)
    | Open
    | Close
    | Error(message: string)
    | Disconnect
    | SendText(text: string)
    | Message(content: ServerMessage, now: real)
    | Frame(samples: seq<Pcm.Int16>)
    | BackoffElapsed(timer: nat, env: ConnectEnv)
    | SourceEnded(id: nat)

  datatype Effect =
    | RequestKey
    | OpenSession(instruction: string)
    | CloseSession
    | StartCapture
    | NotifyOpen
    | NotifyError(message: string)
    | NotifyTranscription(speaker: Types.Speaker, text: string)
    | NotifyTurnComplete
    | NotifyVolume
    | ScheduleReconnect(delayMs: nat)
    | SendTextInput(text: string)
    | SendMedia(blob: Pcm.Blob)
    | Audio(action: Playback.Action)

  // ------------------------------------------------ backoff

  function Pow2(k: nat): (p: nat)
    ensures p >= 1
  {
    if k == 0 then 1 else 2 * Pow2(k - 1)
  }

  /** `Math.min(Math.pow(2, retryCount) * 1000, 5000)`. */
  function BackoffDelay(retryCount: nat): (d: nat)
    ensures d <= MaxDelayMs
    ensures d == MaxDelayMs || d == Pow2(retryCount) * 1000
  {
    var raw := Pow2(retryCount) * 1000;
    if raw < MaxDelayMs then raw else MaxDelayMs
  }

  lemma {:induction false} Pow2Monotone(j: nat, k: nat)
    requires j <= k
    ensures Pow2(j) <= Pow2(k)
    decreases k
  {
    if j < k {
      Pow2Monotone(j, k - 1);
    }
  }

  /** The waits of successive reconnects are 2 s, 4 s, then 5 s for ever,
      and never shrink. */
  lemma BackoffSchedule(j: nat, k: nat)
    ensures BackoffDelay(1) == 2000 && BackoffDelay(2) == 4000
    ensures k >= 3 ==> BackoffDelay(k) == MaxDelayMs
    ensures j <= k ==> BackoffDelay(j) <= BackoffDelay(k)
  {
    if k >= 3 {
      Pow2Monotone(3, k);
    }
    if j <= k {
      Pow2Monotone(j, k);
    }
  }

  // ------------------------------------------------ transitions

  /** `cleanupAudio`: the frame handler, the input devices and the output
      context are released. */
  function CleanupAudio(s: State): (r: State)
    ensures !r.capturing && !r.devicesReady && !r.outputReady
    ensures r.session == s.session && r.intentional == s.intentional && r.retryCount == s.retryCount
    ensures r.scheduler == s.scheduler && r.pending == s.pending && r.instruction == s.instruction
  {
    s.(capturing := false, devicesReady := false, outputReady := false)
  }

  /** `disconnect`: the flag is raised first, a held session is closed and
      dropped, and audio is cleaned up. Pending backoff waits are left
      running. */
  function OnDisconnect(s: State): (r: (State, seq<Effect>))
    ensures r.0.intentional && !r.0.session && !r.0.capturing && !r.0.devicesReady && !r.0.outputReady
    ensures r.1 == (if s.session then [CloseSession] else [])
    ensures r.0.retryCount == s.retryCount && r.0.pending == s.pending && r.0.scheduler == s.scheduler
  {
    (CleanupAudio(s.(intentional := true, session := false)), if s.session then [CloseSession] else [])
  }

  /** Every failure inside `connect` reports its message and disconnects. */
  function FailConnect(s: State, before: seq<Effect>, message: string): (r: (State, seq<Effect>))
    ensures r.0.intentional && !r.0.session
    ensures |r.1| > |before| && r.1[..|before|] == before && r.1[|before|] == NotifyError(message)
    ensures r.0.retryCount == s.retryCount && r.0.pending == s.pending && r.0.scheduler == s.scheduler
  {
    var (s1, closing) := OnDisconnect(s);
    (s1, before + [NotifyError(message)] + closing)
  }

  /** `connect(systemInstruction, isRetry)`. */
  function OnConnect(s: State, instruction: string, isRetry: bool, env: ConnectEnv): (r: (State, seq<Effect>))
    ensures r.0.retryCount == (if isRetry then s.retryCount else 0)
    ensures r.0.scheduler == s.scheduler && r.0.pending == s.pending
    ensures |r.1| > 0 && (r.1[0] == RequestKey <==> !env.keySelected)
    ensures !r.0.intentional <==> env.apiKey != [] && env.micGranted && env.sessionOutcome.Success?
    ensures !r.0.intentional ==>
              r.0.session && r.0.devicesReady && r.0.outputReady && !r.0.capturing
              && r.0.instruction == instruction && r.1[|r.1| - 1] == OpenSession(instruction)
    ensures r.0.intentional ==> !r.0.session && !r.0.capturing
    ensures env.apiKey == [] ==> NotifyError(MissingKeyMessage) in r.1 && OpenSession(instruction) !in r.1
    ensures env.apiKey != [] && !env.micGranted ==> NotifyError(MicDeniedMessage) in r.1 && OpenSession(instruction) !in r.1
  {
    var s1 := s.(intentional := false, retryCount := if isRetry then s.retryCount else 0);
    var keyEffects := if env.keySelected then [] else [RequestKey];
    if env.apiKey == [] then
      FailConnect(s1, keyEffects, MissingKeyMessage)
    else
      var s2 := CleanupAudio(s1);
      if !env.micGranted then
        FailConnect(s2.(outputReady := true), keyEffects, MicDeniedMessage)
      else
        var s3 := s2.(devicesReady := true, outputReady := true, session := true, instruction := instruction);
        var started := keyEffects + [OpenSession(instruction)];
        match env.sessionOutcome
        case Success(_) => (s3, started)
        case Failure(message) => FailConnect(s3, started, message)
  }

  /** `onopen`: the retry count is reset and `onOpen` fires whether or not
      a disconnect was requested; capture starts only when the input
      devices and a session are present. */
  function OnOpen(s: State): (r: (State, seq<Effect>))
    ensures r.0.retryCount == 0
    ensures |r.1| >= 1 && r.1[0] == NotifyOpen
    ensures r.0.capturing <==> s.capturing || (s.devicesReady && s.session)
    ensures r.0.intentional == s.intentional && r.0.session == s.session && r.0.pending == s.pending
  {
    var s1 := s.(retryCount := 0);
    if s.devicesReady && s.session then (s1.(capturing := true), [NotifyOpen, StartCapture])
    else (s1, [NotifyOpen])
  }

  /** `handleAutoReconnect`: the count goes up, and a wait of the backoff
      delay for the new count starts; when it elapses `connect(…, true)`
      runs. */
  function AutoReconnect(s: State): (r: (State, seq<Effect>))
    ensures r.0.retryCount == s.retryCount + 1
    ensures r.0.pending == s.pending + [s.instruction]
    ensures r.1 == [ScheduleReconnect(BackoffDelay(s.retryCount + 1))]
    ensures r.0.intentional == s.intentional && r.0.session == s.session && r.0.capturing == s.capturing
  {
    var s1 := s.(retryCount := s.retryCount + 1, pending := s.pending + [s.instruction]);
    (s1, [ScheduleReconnect(BackoffDelay(s1.retryCount))])
  }

  /** `onclose`: unless the disconnect was requested, reconnect, with no
      limit on the count. */
  function OnClose(s: State): (r: (State, seq<Effect>))
    ensures s.intentional ==> r == (s, [])
    ensures !s.intentional ==> r == AutoReconnect(s)
  {
    if s.intentional then (s, []) else AutoReconnect(s)
  }

  function IsAuthError(message: string): (b: bool)
    ensures b <==> exists k :: 0 <= k < |AuthMarkers| && Strings.Contains(Strings.ToLower(message), AuthMarkers[k])
  {
    var lower := Strings.ToLower(message);
    Strings.Contains(lower, AuthMarkers[0]) || Strings.Contains(lower, AuthMarkers[1]) || Strings.Contains(lower, AuthMarkers[2])
  }

  /** `onerror`: ignored after a requested disconnect; a key or billing
      problem asks for a key, reports and disconnects; otherwise reconnect
      while fewer than three retries were made, else report once and
      disconnect. */
  function OnError(s: State, message: string): (r: (State, seq<Effect>))
    ensures s.intentional ==> r == (s, [])
    ensures !s.intentional && IsAuthError(message) ==>
              r.0.intentional && |r.1| >= 2 && r.1[..2] == [RequestKey, NotifyError(BillingMessage)]
              && r.0.retryCount == s.retryCount && r.0.pending == s.pending
    ensures !s.intentional && !IsAuthError(message) && s.retryCount < MaxRetries ==> r == AutoReconnect(s)
    ensures !s.intentional && !IsAuthError(message) && s.retryCount >= MaxRetries ==>
              r.0.intentional && |r.1| >= 1 && r.1[0] == NotifyError(PersistentMessage)
              && r.0.retryCount == s.retryCount && r.0.pending == s.pending
  {
    if s.intentional then (s, [])
    else if IsAuthError(message) then
      var (s1, closing) := OnDisconnect(s);
      (s1, [RequestKey, NotifyError(BillingMessage)] + closing)
    else if s.retryCount < MaxRetries then AutoReconnect(s)
    else
      var (s1, closing) := OnDisconnect(s);
      (s1, [NotifyError(PersistentMessage)] + closing)
  }

  /** `sendText`: forwarded only while a session is held. */
  function OnSendText(s: State, text: string): (r: (State, seq<Effect>))
    ensures r.0 == s
    ensures r.1 == (if s.session then [SendTextInput(text)] else [])
  {
    (s, if s.session then [SendTextInput(text)] else [])
  }

  /** One captured microphone block: the volume is always reported, the
      blob is sent only with a session and no requested disconnect. */
  function OnFrame(s: State, samples: seq<Pcm.Int16>): (r: (State, seq<Effect>))
    ensures r.0 == s
    ensures !s.capturing ==> r.1 == []
    ensures s.capturing ==> |r.1| >= 1 && r.1[0] == NotifyVolume
    ensures (exists b :: SendMedia(b) in r.1) <==> s.capturing && s.session && !s.intentional
    ensures forall b :: SendMedia(b) in r.1 ==> b == Pcm.CreateBlob(samples)
  {
    if !s.capturing then (s, [])
    else if s.session && !s.intentional then (s, [NotifyVolume, SendMedia(Pcm.CreateBlob(samples))])
    else (s, [NotifyVolume])
  }

  /** The effects of one server message, in `handleMessage`'s order: the
      model transcription first, then the user transcription, then the turn
      completion (each only when present), and after these notifications
      every action of the playback scheduler, in order. */
  predicate MessageEffects(m: ServerMessage, acts: seq<Playback.Action>, effects: seq<Effect>) {
    var n := |effects| - |acts|;
    0 <= n <= 3
    && (forall i :: 0 <= i < n ==> effects[i].NotifyTranscription? || effects[i] == NotifyTurnComplete)
    && (m.outputText != [] ==> n >= 1 && effects[0] == NotifyTranscription(Types.Model, m.outputText))
    && (m.inputText != [] ==>
          var k := if m.outputText != [] then 1 else 0;
          k < n && effects[k] == NotifyTranscription(Types.User, m.inputText))
    && (m.turnComplete ==> n >= 1 && effects[n - 1] == NotifyTurnComplete)
    && forall i :: 0 <= i < |acts| ==> effects[n + i] == Audio(acts[i])
  }

  /** The notifications followed by the forwarded actions are in order. */
  lemma NotificationsThenAudio(m: ServerMessage, acts: seq<Playback.Action>)
    ensures MessageEffects(m, acts, Notifications(m) + AudioEffects(acts))
  {
    var texts, audio := Notifications(m), AudioEffects(acts);
    assert forall i :: 0 <= i < |texts| ==> (texts + audio)[i] == texts[i];
    assert forall i :: 0 <= i < |acts| ==> (texts + audio)[|texts| + i] == audio[i];
  }

  /** `handleMessage`: transcriptions (model first, then user), turn
      completion, then the audio payload and the interrupt. */
  function OnMessage(s: State, m: ServerMessage, now: real): (r: (State, seq<Effect>))
    ensures s.intentional ==> r == (s, [])
    ensures !s.intentional ==>
              r.0 == s.(scheduler := Playback.OnMessageAudio(s.scheduler, now, m.audio, s.outputReady, m.interrupted).0)
    ensures !s.intentional ==>
              MessageEffects(m, Playback.OnMessageAudio(s.scheduler, now, m.audio, s.outputReady, m.interrupted).1, r.1)
  {
    if s.intentional then (s, [])
    else
      var out := Playback.OnMessageAudio(s.scheduler, now, m.audio, s.outputReady, m.interrupted);
      NotificationsThenAudio(m, out.1);
      (s.(scheduler := out.0), Notifications(m) + AudioEffects(out.1))
  }

  /** The transcription and turn-completion notifications of one message. */
  function Notifications(m: ServerMessage): (e: seq<Effect>)
    ensures |e| <= 3
    ensures forall i :: 0 <= i < |e| ==> e[i].NotifyTranscription? || e[i] == NotifyTurnComplete
    ensures m.outputText != [] ==> |e| >= 1 && e[0] == NotifyTranscription(Types.Model, m.outputText)
    ensures m.inputText != [] ==>
              var k := if m.outputText != [] then 1 else 0;
              k < |e| && e[k] == NotifyTranscription(Types.User, m.inputText)
    ensures m.turnComplete ==> |e| >= 1 && e[|e| - 1] == NotifyTurnComplete
  {
    (if m.outputText != [] then [NotifyTranscription(Types.Model, m.outputText)] else [])
    + (if m.inputText != [] then [NotifyTranscription(Types.User, m.inputText)] else [])
    + (if m.turnComplete then [NotifyTurnComplete] else [])
  }

  /** The scheduler's actions forwarded to the audio graph, in order. */
  function AudioEffects(actions: seq<Playback.Action>): (e: seq<Effect>)
    ensures |e| == |actions|
    ensures forall i :: 0 <= i < |actions| ==> e[i] == Audio(actions[i])
  {
    seq(|actions|, i requires 0 <= i < |actions| => Audio(actions[i]))
  }

  /** A backoff wait elapses: it leaves the pending list and runs a retry
      `connect`. A timer that is not pending does nothing. */
  function OnBackoffElapsed(s: State, timer: nat, env: ConnectEnv): (r: (State, seq<Effect>))
    ensures timer >= |s.pending| ==> r == (s, [])
    ensures timer < |s.pending| ==> |r.0.pending| == |s.pending| - 1 && r.0.retryCount == s.retryCount
  {
    if timer >= |s.pending| then (s, [])
    else
      var instruction := s.pending[timer];
      var s1 := s.(pending := s.pending[..timer] + s.pending[timer + 1..]);
      OnConnect(s1, instruction, true, env)
  }

  /** The single transition function. */
  function Step(s: State, e: Event): (r: (State, seq<Effect>))
    ensures |r.0.pending| <= |s.pending| + 1
    ensures e.SourceEnded? ==> r.1 == [] && r.0.scheduler.sources == s.scheduler.sources - {e.id}
  {
    match e
    case Connect(instruction, isRetry, env) => OnConnect(s, instruction, isRetry, env)
    case Open => OnOpen(s)
    case Close => OnClose(s)
    case Error(message) => OnError(s, message)
    case Disconnect => OnDisconnect(s)
    case SendText(text) => OnSendText(s, text)
    case Message(m, now) => OnMessage(s, m, now)
    case Frame(samples) => OnFrame(s, samples)
    case BackoffElapsed(timer, env) => OnBackoffElapsed(s, timer, env)
    case SourceEnded(id) => (s.(scheduler := Playback.Ended(s.scheduler, id)), [])
  }

  /** The final state of a run of events. */
  function Run(s: State, events: seq<Event>): State
    decreases |events|
  {
    if |events| == 0 then s else Run(Step(s, events[0]).0, events[1..])
  }

  // ------------------------------------------------ invariants

  /** A requested disconnect holds no session and no audio; capture runs
      only over a held session; live source ids are fresh. */
  ghost predicate Inv(s: State) {
    (s.intentional ==> !s.session && !s.capturing && !s.devicesReady && !s.outputReady)
    && (s.capturing ==> s.session)
    && Playback.Valid(s.scheduler)
  }

  lemma InitialInv()
    ensures Inv(Initial)
  {
  }

  lemma StepPreservesInv(s: State, e: Event)
    requires Inv(s)
    ensures Inv(Step(s, e).0)
  {
  }

  lemma {:induction false} RunPreservesInv(s: State, events: seq<Event>)
    requires Inv(s)
    ensures Inv(Run(s, events))
    decreases |events|
  {
    if |events| > 0 {
      StepPreservesInv(s, events[0]);
      RunPreservesInv(Step(s, events[0]).0, events[1..]);
    }
  }

  /** While the flag is raised, inbound messages, errors and closes change
      nothing and do nothing, and no frame or text reaches the session. */
  lemma GuardsWhileIntentional(s: State, e: Event)
    requires Inv(s) && s.intentional
    requires e.Message? || e.Error? || e.Close? || e.Frame? || e.SendText?
    ensures Step(s, e) == (s, [])
  {
  }

  /** Disconnecting twice is disconnecting once. */
  lemma DisconnectIdempotent(s: State)
    ensures var s1 := Step(s, Disconnect).0;
            Step(s1, Disconnect) == (s1, [])
  {
  }

  /** Text sent after a disconnect goes nowhere. */
  lemma SendTextAfterDisconnect(s: State, text: string)
    ensures Step(Step(s, Disconnect).0, SendText(text)).1 == []
  {
  }

  /** `onopen` always resets the retry count. */
  lemma OpenResetsRetries(s: State)
    ensures Step(s, Open).0.retryCount == 0
  {
  }

  /** With the error handler taken as one event, key and billing errors are
      never retried: no reconnect is scheduled and the client ends
      disconnected. The source awaits the key dialog before disconnecting,
      and a close arriving meanwhile does reconnect; that window is not
      modelled. */
  lemma AuthErrorsNeverRetried(s: State, message: string)
    requires !s.intentional && IsAuthError(message)
    ensures var r := Step(s, Error(message));
            r.0.intentional && !r.0.session && r.0.pending == s.pending
            && forall i :: 0 <= i < |r.1| ==> !r.1[i].ScheduleReconnect?
  {
  }

  /** A message naming HTTP 403 in any letter case is a key problem. */
  lemma ForbiddenIsAuthError(prefix: string, suffix: string)
    ensures IsAuthError(prefix + "403" + suffix)
  {
    var s := Strings.ToLower(prefix + "403" + suffix);
    assert Strings.OccursAt(s, "403", |prefix|);
    Strings.ContainsSpec(s, "403");
  }

  /** On the error path the retry count never passes three: below the cap
      an error reconnects, at the cap it reports once and gives up. */
  lemma ErrorPathIsCapped(s: State, message: string)
    requires !s.intentional && !IsAuthError(message)
    ensures var r := Step(s, Error(message));
            (s.retryCount < MaxRetries ==>
               (r.0.retryCount == s.retryCount + 1 && !r.0.intentional
                && r.1 == [ScheduleReconnect(BackoffDelay(s.retryCount + 1))]))
            && (s.retryCount >= MaxRetries ==>
               (r.0.intentional && r.0.retryCount == s.retryCount
                && |r.1| >= 1 && r.1[0] == NotifyError(PersistentMessage)
                && forall i :: 0 <= i < |r.1| ==> !r.1[i].ScheduleReconnect? && (i > 0 ==> !r.1[i].NotifyError?)))
  {
  }

  /** A non-retry `connect` starts from a zero count and, when every step
      succeeds, clears the flag and holds a session. */
  lemma ConnectClearsFlag(s: State, instruction: string, env: ConnectEnv)
    requires env.apiKey != [] && env.micGranted && env.sessionOutcome.Success?
    ensures var r := Step(s, Connect(instruction, false, env)).0;
            !r.intentional && r.retryCount == 0 && r.session
  {
  }

  /** The close path has no cap: from any count, a close not asked for
      schedules another reconnect. */
  lemma CloseReconnectsUncapped(s: State)
    requires !s.intentional
    ensures var r := Step(s, Close);
            r.0.retryCount == s.retryCount + 1 && |r.0.pending| == |s.pending| + 1
            && r.1 == [ScheduleReconnect(BackoffDelay(s.retryCount + 1))]
  {
  }

  /** A backoff wait that started before `disconnect` still reconnects
      after it: the retry `connect` clears the flag again. */
  lemma DisconnectDoesNotCancelBackoff(s: State, env: ConnectEnv)
    requires !s.intentional
    requires env.apiKey != [] && env.micGranted && env.sessionOutcome.Success?
    ensures var s1 := Step(s, Close).0;
            var s2 := Step(s1, Disconnect).0;
            var s3 := Step(s2, BackoffElapsed(|s.pending|, env)).0;
            s2.intentional && !s2.session && !s3.intentional && s3.session
  {
  }

  /** Reconnecting keeps the playback watermark and the live sources of
      the previous session, although the new output context's clock starts
      again from 0. */
  lemma ReconnectKeepsWatermark(s: State, instruction: string, isRetry: bool, env: ConnectEnv)
    ensures Step(s, Connect(instruction, isRetry, env)).0.scheduler == s.scheduler
  {
  }

  /** A retry that reaches a session leaves the count as it was and no
      wait pending, provided one wait was pending. */
  lemma RetrySucceeds(s: State, env: ConnectEnv)
    requires |s.pending| == 1
    requires env.apiKey != [] && env.micGranted && env.sessionOutcome.Success?
    ensures var r := Step(s, BackoffElapsed(0, env)).0;
            !r.intentional && r.session && r.retryCount == s.retryCount && r.pending == []
  {
  }

  lemma TimeoutIsNotAuthError()
    ensures !IsAuthError("timeout")
  {
    var lower := Strings.ToLower("timeout");
    assert lower == "timeout";
    forall i | 0 <= i < 3
      ensures !Strings.Contains(lower, AuthMarkers[i])
    {
      NotContained(lower, AuthMarkers[i]);
    }
  }

  /** A session that keeps failing without ever opening: three errors each
      schedule a reconnect (2 s, 4 s, 5 s), the retries connect, and the
      fourth error reports the persistent failure and disconnects. */
  lemma PersistentFailureTrace(instruction: string, env: ConnectEnv)
    requires env.apiKey != [] && env.micGranted && env.sessionOutcome.Success?
    ensures var s0 := Step(Initial, Connect(instruction, false, env)).0;
            var e1 := Step(s0, Error("timeout"));
            var c1 := Step(e1.0, BackoffElapsed(0, env)).0;
            var e2 := Step(c1, Error("timeout"));
            var c2 := Step(e2.0, BackoffElapsed(0, env)).0;
            var e3 := Step(c2, Error("timeout"));
            var c3 := Step(e3.0, BackoffElapsed(0, env)).0;
            var e4 := Step(c3, Error("timeout"));
            e1.1 == [ScheduleReconnect(2000)] && e2.1 == [ScheduleReconnect(4000)]
            && e3.1 == [ScheduleReconnect(5000)]
            && e4.1 == [NotifyError(PersistentMessage), CloseSession] && e4.0.intentional
  {
    TimeoutIsNotAuthError();
    BackoffSchedule(3, 3);
    var s0 := Step(Initial, Connect(instruction, false, env)).0;
    assert !s0.intentional && s0.session && s0.retryCount == 0 && s0.pending == [];
    var e1 := Step(s0, Error("timeout"));
    ErrorPathIsCapped(s0, "timeout");
    var c1 := Step(e1.0, BackoffElapsed(0, env)).0;
    RetrySucceeds(e1.0, env);
    var e2 := Step(c1, Error("timeout"));
    ErrorPathIsCapped(c1, "timeout");
    var c2 := Step(e2.0, BackoffElapsed(0, env)).0;
    RetrySucceeds(e2.0, env);
    var e3 := Step(c2, Error("timeout"));
    ErrorPathIsCapped(c2, "timeout");
    var c3 := Step(e3.0, BackoffElapsed(0, env)).0;
    RetrySucceeds(e3.0, env);
    assert c3.retryCount == 3 && c3.session;
  }

  /** A string none of whose characters is the first of `t` does not
      contain `t`. */
  lemma NotContained(s: string, t: string)
    requires |t| > 0 && forall i :: 0 <= i < |s| ==> s[i] != t[0]
    ensures !Strings.Contains(s, t)
  {
    Strings.ContainsSpec(s, t);
    forall i | 0 <= i <= |s| - |t|
      ensures !Strings.OccursAt(s, t, i)
    {
      assert s[i..i + |t|][0] == s[i];
    }
  }
}

=== FILE: pcm.dfy ===
/** The PCM framing of the live client: 16-bit samples to little-endian
    bytes and back, the outbound blob tagged `audio/pcm;rate=16000`, and the
    split of inbound samples into channels (services/liveClient.ts:248-281).
    Samples are integers in [-32768, 32767]; the float scaling by 32768 is
    modelled only in the quantiser of the findings at the end. */
module Pcm {
  import opened Wrappers
  import Base64

  type Byte = Base64.Byte
  type Int16 = x: int | -32768 <= x < 32768

  /** The MIME tag of every outbound frame. */
  const PcmMimeType: string := "audio/pcm;rate=16000"

  /** The sample rates of the two audio contexts. */
  const InputSampleRate: int := 16000
  const OutputSampleRate: int := 24000

  // ------------------------------------------------ sample <-> bytes

  /** Two's complement: the low and the high byte of a sample. */
  function LowByte(x: Int16): Byte {
    (x % 65536) % 256
  }

  function HighByte(x: Int16): Byte {
    (x % 65536) / 256
  }

  /** An `Int16Array` element read from two little-endian bytes. */
  function FromLittleEndian(lo: Byte, hi: Byte): Int16 {
    var u := lo + 256 * hi;
    if u >= 32768 then u - 65536 else u
  }

  /** A sample survives being written as two bytes and read back. */
  lemma SampleRoundTrip(x: Int16)
    ensures FromLittleEndian(LowByte(x), HighByte(x)) == x
  {
    var u := x % 65536;
    assert u == (u / 256) * 256 + u % 256;
  }

  /** `new Uint8Array(int16.buffer)` on a little-endian platform: each
      sample contributes its low byte then its high byte. */
  function SamplesToBytes(xs: seq<Int16>): (b: seq<Byte>)
    ensures |b| == 2 * |xs|
    ensures forall i :: 0 <= i < |xs| ==> b[2 * i] == LowByte(xs[i]) && b[2 * i + 1] == HighByte(xs[i])
  {
    if |xs| == 0 then []
    else [LowByte(xs[0]), HighByte(xs[0])] + SamplesToBytes(xs[1..])
  }

  /** `new Int16Array(bytes.buffer, 0, bytes.byteLength / 2)`: the length
      argument is truncated, so an odd trailing byte is ignored. */
  function BytesToSamples(b: seq<Byte>): (xs: seq<Int16>)
    ensures |xs| == |b| / 2
    ensures forall i :: 0 <= i < |xs| ==> xs[i] == FromLittleEndian(b[2 * i], b[2 * i + 1])
  {
    if |b| < 2 then []
    else [FromLittleEndian(b[0], b[1])] + BytesToSamples(b[2..])
  }

  /** Framing `n` samples gives `2n` bytes that read back as the same `n`
      samples in the same order. */
  lemma FramingRoundTrip(xs: seq<Int16>)
    ensures |SamplesToBytes(xs)| == 2 * |xs|
    ensures BytesToSamples(SamplesToBytes(xs)) == xs
  {
    var ys := BytesToSamples(SamplesToBytes(xs));
    forall i | 0 <= i < |xs|
      ensures ys[i] == xs[i]
    {
      SampleRoundTrip(xs[i]);
    }
  }

  // ------------------------------------------------ outbound blob

  datatype Blob = Blob(data: string, mimeType: string)

  /** `createBlob` on samples already converted to 16 bits. */
  function CreateBlob(xs: seq<Int16>): (blob: Blob)
    ensures blob.mimeType == PcmMimeType
    ensures |blob.data| == (2 * |xs| + 2) / 3 * 4
  {
    Blob(Base64.Encode(SamplesToBytes(xs)), PcmMimeType)
  }

  /** The receiver of a blob recovers exactly the samples that were framed:
      base64-decoding its data and reading 16-bit little-endian samples. */
  lemma BlobRoundTrip(xs: seq<Int16>)
    ensures Base64.Decode(CreateBlob(xs).data) == Success(SamplesToBytes(xs))
    ensures BytesToSamples(SamplesToBytes(xs)) == xs
  {
    Base64.RoundTrip(SamplesToBytes(xs));
    FramingRoundTrip(xs);
  }

  // ------------------------------------------------ inbound audio

  /** Why an inbound segment cannot be turned into an audio buffer: `atob`
      threw, or `createBuffer` was asked for zero frames. */
  datatype AudioError = InvalidBase64 | EmptyBuffer

  lemma FrameIndex(i: int, c: int, n: int, frames: int, len: int)
    requires 0 <= i < frames && 0 <= c < n && frames == len / n && len >= 0
    ensures 0 <= i * n + c < len
  {
    assert (i + 1) * n <= frames * n by {
      assert frames - (i + 1) >= 0;
      assert (frames - (i + 1)) * n >= 0;
    }
    assert frames * n <= len;
  }

  /** Channel `c` of interleaved samples: every `n`-th sample from `c`. */
  function Channel(xs: seq<Int16>, n: int, c: int): (ch: seq<Int16>)
    requires 0 <= c < n
    ensures |ch| == |xs| / n
  {
    seq(|xs| / n, i requires 0 <= i < |xs| / n =>
      FrameIndex(i, c, n, |xs| / n, |xs|);
      xs[i * n + c])
  }

  /** `decodeAudioData`: the bytes read as 16-bit samples and split into
      `numChannels` channels of `frameCount = samples / numChannels` frames;
      an empty buffer makes `createBuffer` throw. */
  function DecodeAudioData(bytes: seq<Byte>, numChannels: int): (r: Result<seq<seq<Int16>>, AudioError>)
    requires numChannels >= 1
    ensures r.Failure? <==> |bytes| / 2 < numChannels
    ensures r.Success? ==> |r.value| == numChannels
    ensures r.Success? ==> forall c :: 0 <= c < numChannels ==> |r.value[c]| == |bytes| / 2 / numChannels
  {
    var xs := BytesToSamples(bytes);
    NoWholeFrame(|xs|, numChannels);
    if |xs| / numChannels == 0 then Failure(EmptyBuffer)
    else Success(seq(numChannels, c requires 0 <= c < numChannels => Channel(xs, numChannels, c)))
  }

  lemma NoWholeFrame(len: int, n: int)
    requires len >= 0 && n >= 1
    ensures len / n == 0 <==> len < n
  {
    if len >= n {
      assert len / n >= 1;
    }
  }

  /** Frame `i` of channel `c` is sample `i * numChannels + c`. */
  lemma DeinterleaveIndex(bytes: seq<Byte>, numChannels: int, c: int, i: int)
    requires numChannels >= 1 && DecodeAudioData(bytes, numChannels).Success?
    requires 0 <= c < numChannels && 0 <= i < |bytes| / 2 / numChannels
    ensures 0 <= i * numChannels + c < |bytes| / 2
    ensures DecodeAudioData(bytes, numChannels).value[c][i] == BytesToSamples(bytes)[i * numChannels + c]
  {
    FrameIndex(i, c, numChannels, |bytes| / 2 / numChannels, |bytes| / 2);
  }

  /** Putting the channels back together frame by frame gives the samples
      that filled whole frames, in their original order. */
  function Interleave(chs: seq<seq<Int16>>, frames: nat): (xs: seq<Int16>)
    requires |chs| >= 1 && forall c :: 0 <= c < |chs| ==> |chs[c]| == frames
    ensures |xs| == frames * |chs|
  {
    seq(frames * |chs|, k requires 0 <= k < frames * |chs| =>
      FrameOf(k, |chs|, frames);
      chs[k % |chs|][k / |chs|])
  }

  lemma FrameOf(k: int, n: int, frames: int)
    requires n >= 1 && 0 <= k < frames * n
    ensures 0 <= k / n < frames
  {
  }

  /** Sample `k` sits in channel `k % n` at frame `k / n`. */
  lemma ChannelAt(xs: seq<Int16>, n: int, k: int)
    requires n >= 1 && 0 <= k < |xs| / n * n
    ensures 0 <= k / n < |xs| / n
    ensures Channel(xs, n, k % n)[k / n] == xs[k]
  {
    FrameOf(k, n, |xs| / n);
    FrameIndex(k / n, k % n, n, |xs| / n, |xs|);
    assert (k / n) * n + k % n == k;
  }

  lemma {:induction false} InterleaveChannels(xs: seq<Int16>, n: int)
    requires n >= 1
    ensures var chs := seq(n, c requires 0 <= c < n => Channel(xs, n, c));
            Interleave(chs, |xs| / n) == xs[..|xs| / n * n]
  {
    var frames := |xs| / n;
    var chs := seq(n, c requires 0 <= c < n => Channel(xs, n, c));
    assert frames * n <= |xs|;
    var ys := Interleave(chs, frames);
    forall k | 0 <= k < frames * n
      ensures ys[k] == xs[k]
    {
      ChannelAt(xs, n, k);
      assert ys[k] == chs[k % n][k / n];
    }
  }

  lemma DeinterleaveInverse(bytes: seq<Byte>, numChannels: int)
    requires numChannels >= 1 && DecodeAudioData(bytes, numChannels).Success?
    ensures var frames := |bytes| / 2 / numChannels;
            Interleave(DecodeAudioData(bytes, numChannels).value, frames)
              == BytesToSamples(bytes)[..frames * numChannels]
  {
    InterleaveChannels(BytesToSamples(bytes), numChannels);
  }

  /** With one channel (the only call site) the output order equals the
      input order, and only an empty segment is refused. */
  lemma MonoIsIdentity(bytes: seq<Byte>)
    ensures DecodeAudioData(bytes, 1).Success? <==> |bytes| >= 2
    ensures |bytes| >= 2 ==> DecodeAudioData(bytes, 1).value == [BytesToSamples(bytes)]
  {
    if |bytes| >= 2 {
      var chs := DecodeAudioData(bytes, 1).value;
      assert chs[0] == BytesToSamples(bytes);
    }
  }

  /** The inbound path of one message: `decode` (`atob`) then
      `decodeAudioData(…, 24000, 1)`, giving the mono samples. */
  function DecodeSegment(base64: string): (r: Result<seq<Int16>, AudioError>)
    ensures r.Success? ==> |r.value| >= 1
  {
    match Base64.Decode(base64)
    case Failure(_) => Failure(InvalidBase64)
    case Success(bytes) =>
      match DecodeAudioData(bytes, 1)
      case Failure(e) => Failure(e)
      case Success(chs) => Success(chs[0])
  }

  /** What the client frames is what an inbound segment carrying the same
      data decodes to. */
  lemma SegmentRoundTrip(xs: seq<Int16>)
    requires |xs| >= 1
    ensures DecodeSegment(CreateBlob(xs).data) == Success(xs)
  {
    BlobRoundTrip(xs);
    MonoIsIdentity(SamplesToBytes(xs));
  }

  /** `audioBuffer.duration`: frames over the output sample rate, in seconds. */
  function Duration(frames: nat): (d: real)
    ensures d >= 0.0
    ensures frames > 0 ==> d > 0.0
  {
    frames as real / OutputSampleRate as real
  }

  // ------------------------------------------------ float quantisation

  /** ECMAScript ToIntegerOrInfinity on a finite number: truncation toward zero. */
  function Truncate(r: real): int {
    if r >= 0.0 then r.Floor else -((-r).Floor)
  }

  /** ECMAScript ToInt16: reduction modulo 2^16 into the signed range. */
  function ToInt16(n: int): (t: Int16)
    ensures (t - n) % 65536 == 0
    ensures -32768 <= n < 32768 ==> t == n
  {
    var m := n % 65536;
    if m >= 32768 then m - 65536 else m
  }

  /** `int16[i] = data[i] * 32768` as written: the assignment into an
      `Int16Array` wraps around instead of saturating. */
  function QuantizeAsWritten(x: real): (q: Int16)
    ensures (q - Truncate(x * 32768.0)) % 65536 == 0
    ensures -1.0 < x < 1.0 ==> q == Truncate(x * 32768.0)
  {
    ToInt16(Truncate(x * 32768.0))
  }

  /** A full-scale positive sample (1.0) is sent as the most negative value. */
  lemma FullScaleWraps()
    ensures QuantizeAsWritten(1.0) == -32768
  {
  }

  /** The quantiser with saturation: products outside the 16-bit range are
      clamped to its ends. */
  function Quantize(x: real): (q: Int16)
    ensures -1.0 <= x <= 1.0 ==> -1.0 <= x * 32768.0 - q as real <= 1.0
    ensures x >= 0.0 ==> q >= 0
    ensures x <= 0.0 ==> q <= 0
  {
    var t := Truncate(x * 32768.0);
    if t > 32767 then 32767 else if t < -32768 then -32768 else t
  }

  /** Inside [-1, 1) the two quantisers agree: the wrap bites only at
      full scale and beyond. */
  lemma QuantizersAgreeBelowFullScale(x: real)
    requires -1.0 <= x < 1.0
    ensures Quantize(x) == QuantizeAsWritten(x)
  {
  }

  /** `createBlob` on the captured float block, with the corrected
      (saturating) quantiser `Quantize` in place of the wrapping store;
      the receiver recovers the quantised samples. */
  function CreateBlobFromFloats(xs: seq<real>): (blob: Blob)
    ensures blob.mimeType == PcmMimeType
    ensures |blob.data| == (2 * |xs| + 2) / 3 * 4
    ensures (forall i :: 0 <= i < |xs| ==> -1.0 <= xs[i] < 1.0) ==>
              blob == CreateBlob(seq(|xs|, i requires 0 <= i < |xs| => QuantizeAsWritten(xs[i])))
  {
    var corrected := seq(|xs|, i requires 0 <= i < |xs| => Quantize(xs[i]));
    BlocksAgreeBelowFullScale(xs);
    CreateBlob(corrected)
  }

  /** Below full scale the corrected block is the block the wrapping store
      produces. */
  lemma BlocksAgreeBelowFullScale(xs: seq<real>)
    ensures (forall i :: 0 <= i < |xs| ==> -1.0 <= xs[i] < 1.0) ==>
              seq(|xs|, i requires 0 <= i < |xs| => Quantize(xs[i]))
              == seq(|xs|, i requires 0 <= i < |xs| => QuantizeAsWritten(xs[i]))
  {
    if forall i :: 0 <= i < |xs| ==> -1.0 <= xs[i] < 1.0 {
      forall i | 0 <= i < |xs|
        ensures Quantize(xs[i]) == QuantizeAsWritten(xs[i])
      {
        QuantizersAgreeBelowFullScale(xs[i]);
      }
    }
  }

  lemma FloatBlobRoundTrip(xs: seq<real>)
    ensures Base64.Decode(CreateBlobFromFloats(xs).data).Success?
    ensures BytesToSamples(Base64.Decode(CreateBlobFromFloats(xs).data).value)
              == seq(|xs|, i requires 0 <= i < |xs| => Quantize(xs[i]))
  {
    BlobRoundTrip(seq(|xs|, i requires 0 <= i < |xs| => Quantize(xs[i])));
  }
}

=== FILE: pipeline.dfy ===
/** The pipeline view (components/DealPipeline.tsx): the user's deals
    filtered by a search query, grouped by client account in order of first
    appearance, the selected client, the completion form, and the client
    logo's fallback chain. */
module Pipeline {
  import opened Wrappers
  import opened Types
  import Strings
  import Seqs
  import Deals

  // ------------------------------------------------------------ search

  /** A deal matches a query when the query, lower-cased and trimmed, is
      empty or occurs in the lower-cased name or account. */
  function Matches(query: string): (m: Deal -> bool)
    ensures Strings.Trim(Strings.ToLower(query)) == [] ==> forall d :: m(d)
    ensures forall d :: m(d) ==> Strings.Trim(Strings.ToLower(query)) == []
                                 || Strings.Contains(Strings.ToLower(d.name), Strings.Trim(Strings.ToLower(query)))
                                 || Strings.Contains(Strings.ToLower(d.account), Strings.Trim(Strings.ToLower(query)))
    ensures forall d: Deal ::
              (Strings.Contains(Strings.ToLower(d.name), Strings.Trim(Strings.ToLower(query)))
               || Strings.Contains(Strings.ToLower(d.account), Strings.Trim(Strings.ToLower(query))))
              ==> m(d)
  {
    var q := Strings.Trim(Strings.ToLower(query));
    (d: Deal) => q == [] || Strings.Contains(Strings.ToLower(d.name), q)
                         || Strings.Contains(Strings.ToLower(d.account), q)
  }

  function OwnedBy(id: string): Deal -> bool {
    (d: Deal) => d.ownerId == id
  }

  /** `filteredDeals`: the user's own deals that match the query. */
  function FilterDeals(all: seq<Deal>, userId: string, query: string): (r: seq<Deal>)
    ensures forall i :: 0 <= i < |r| ==> r[i] in all && r[i].ownerId == userId && Matches(query)(r[i])
    ensures forall i :: 0 <= i < |all| && all[i].ownerId == userId && Matches(query)(all[i]) ==> all[i] in r
    ensures forall i :: 0 <= i < |all| && all[i].ownerId == userId
                        && (Strings.Contains(Strings.ToLower(all[i].name), Strings.Trim(Strings.ToLower(query)))
                            || Strings.Contains(Strings.ToLower(all[i].account), Strings.Trim(Strings.ToLower(query))))
                        ==> all[i] in r
  {
    Seqs.Filter(all, Seqs.Both(OwnedBy(userId), Matches(query)))
  }

  /** A blank query filters by owner only. */
  lemma BlankQueryKeepsOwned(all: seq<Deal>, userId: string, query: string)
    requires Strings.IsBlank(query)
    ensures FilterDeals(all, userId, query) == Seqs.Filter(all, OwnedBy(userId))
  {
    Strings.ToLowerSpec(query);
    Strings.TrimSpec(Strings.ToLower(query));
    Seqs.CountCongruent(all, Seqs.Both(OwnedBy(userId), Matches(query)), OwnedBy(userId));
  }

  /** With a blank query the pipeline lists exactly the deals generated for
      the user, in order (rep ids being distinct). */
  lemma BlankQueryShowsOwnBook(reps: seq<SalesRep>, noise: int -> real, u: int, query: string)
    requires Deals.IsNoise(noise) && Strings.IsBlank(query)
    requires 0 <= u < |reps| && forall i, j :: 0 <= i < j < |reps| ==> reps[i].id != reps[j].id
    ensures FilterDeals(Deals.AllDeals(reps, noise), reps[u].id, query)
            == Deals.DealsForRep(reps, reps[u].id, noise)
  {
    var all := Deals.AllDeals(reps, noise);
    BlankQueryKeepsOwned(all, reps[u].id, query);
    Deals.AllDealsOwnerSlice(reps, noise, u);
    Seqs.CountCongruent(all, OwnedBy(reps[u].id), Deals.OwnedBy(reps[u].id));
  }

  // ------------------------------------------------------------ domains

  const DomainMap: map<string, string> := map[
    "Baker McKenzie" := "bakermckenzie.com", "DLA Piper" := "dlapiper.com",
    "Latham & Watkins" := "lw.com", "Kirkland & Ellis" := "kirkland.com",
    "Skadden Arps" := "skadden.com", "Sidley Austin" := "sidley.com",
    "White & Case" := "whitecase.com", "Jones Day" := "jonesday.com",
    "Cleveland Clinic" := "clevelandclinic.org", "Kaiser Permanente" := "kp.org",
    "HCA Healthcare" := "hcahealthcare.com", "Mayo Clinic" := "mayoclinic.org",
    "UnitedHealth Group" := "unitedhealthgroup.com", "Pfizer" := "pfizer.com",
    "Johns Hopkins Medicine" := "hopkinsmedicine.org", "JPMorgan Chase" := "jpmorganchase.com",
    "Goldman Sachs" := "goldmansachs.com", "Bank of America" := "bankofamerica.com",
    "Wells Fargo" := "wellsfargo.com", "Citigroup" := "citigroup.com",
    "Morgan Stanley" := "morganstanley.com", "Barclays" := "barclays.com",
    "HSBC Holdings" := "hsbc.com", "Microsoft" := "microsoft.com",
    "Apple" := "apple.com", "Amazon" := "amazon.com", "Walmart" := "walmart.com",
    "ExxonMobil" := "exxonmobil.com", "Alphabet Inc." := "abc.xyz",
    "Johnson & Johnson" := "jnj.com", "General Electric" := "ge.com",
    "Deloitte" := "deloitte.com", "PwC" := "pwc.com", "EY" := "ey.com", "KPMG" := "kpmg.com",
    "Grant Thornton" := "grantthornton.com", "BDO Global" := "bdo.global",
    "RSM International" := "rsm.global", "Internal Revenue Service (IRS)" := "irs.gov",
    "Department of Justice (DOJ)" := "justice.gov",
    "Securities and Exchange Commission (SEC)" := "sec.gov",
    "Federal Trade Commission (FTC)" := "ftc.gov", "FINRA" := "finra.org"]

  predicate Squeezed(c: char) {
    Strings.IsJsWhitespace(c) || c == '&'
  }

  /** `replace(/[\s&]+/g, '')`: every whitespace character and ampersand
      removed, everything else kept in order. */
  function Squeeze(s: string): (r: string)
    ensures |r| <= |s|
    ensures forall i :: 0 <= i < |r| ==> !Squeezed(r[i]) && r[i] in s
  {
    if |s| == 0 then ""
    else if Squeezed(s[0]) then Squeeze(s[1..])
    else [s[0]] + Squeeze(s[1..])
  }

  /** Squeezing keeps exactly the characters that are not squeezed out. */
  lemma {:induction false} SqueezeIsFilter(s: string)
    ensures Squeeze(s) == Seqs.Filter(s, (c: char) => !Squeezed(c))
  {
    if |s| > 0 {
      SqueezeIsFilter(s[1..]);
    }
  }

  const DomainSuffix: string := ".com"

  /** The client's logo domain: the mapped one, or the squeezed lower-case
      account name with `.com`. */
  function Domain(account: string): (d: string)
    ensures account in DomainMap && DomainMap[account] != "" ==> d == DomainMap[account]
    ensures !(account in DomainMap && DomainMap[account] != "") ==>
              |d| >= |DomainSuffix| && d[|d| - |DomainSuffix|..] == DomainSuffix
              && forall i :: 0 <= i < |d| - |DomainSuffix| ==> !Squeezed(d[i]) && Strings.IsLower([d[i]])
    ensures !(account in DomainMap && DomainMap[account] != "") ==>
              d == Seqs.Filter(Strings.ToLower(account), (c: char) => !Squeezed(c)) + DomainSuffix
  {
    if account in DomainMap && DomainMap[account] != "" then DomainMap[account]
    else
      var lower := Strings.ToLower(account);
      Strings.ToLowerSpec(account);
      var squeezed := Squeeze(lower);
      assert forall i :: 0 <= i < |squeezed| ==> squeezed[i] in lower;
      SqueezeIsFilter(lower);
      Squeeze(lower) + DomainSuffix
  }

  // ------------------------------------------------------------ groups

  datatype ClientGroup = ClientGroup(name: string, domain: string, deals: seq<Deal>)

  predicate DistinctNames(gs: seq<ClientGroup>) {
    forall i, j :: 0 <= i < j < |gs| ==> gs[i].name != gs[j].name
  }

  /** The position of the group with a name, or -1. */
  function FindGroup(gs: seq<ClientGroup>, name: string): (k: int)
    ensures -1 <= k < |gs|
    ensures k == -1 <==> forall i :: 0 <= i < |gs| ==> gs[i].name != name
    ensures k >= 0 ==> gs[k].name == name && forall i :: 0 <= i < k ==> gs[i].name != name
  {
    if |gs| == 0 then -1
    else if gs[0].name == name then 0
    else
      var k := FindGroup(gs[1..], name);
      if k == -1 then -1 else k + 1
  }

  /** One step of the `forEach`: open a group for a new account, or append
      to the account's group. */
  function AddDeal(gs: seq<ClientGroup>, d: Deal): (r: seq<ClientGroup>)
    requires DistinctNames(gs)
    ensures DistinctNames(r)
    ensures FindGroup(gs, d.account) == -1 ==> r == gs + [ClientGroup(d.account, Domain(d.account), [d])]
    ensures FindGroup(gs, d.account) >= 0 ==>
              var k := FindGroup(gs, d.account);
              |r| == |gs| && r[k].name == gs[k].name && r[k].domain == gs[k].domain && r[k].deals == gs[k].deals + [d]
              && forall i :: 0 <= i < |gs| && i != k ==> r[i] == gs[i]
  {
    var k := FindGroup(gs, d.account);
    if k == -1 then gs + [ClientGroup(d.account, Domain(d.account), [d])]
    else gs[k := gs[k].(deals := gs[k].deals + [d])]
  }

  /** `Object.values(groups)`: the groups in order of first appearance. */
  function Groups(ds: seq<Deal>): (gs: seq<ClientGroup>)
    ensures DistinctNames(gs)
    ensures forall i :: 0 <= i < |gs| ==> gs[i].domain == Domain(gs[i].name)
    decreases |ds|
  {
    if |ds| == 0 then []
    else
      var pre, d := Groups(ds[..|ds| - 1]), ds[|ds| - 1];
      // `AddDeal`, with the new or extended group's domain made explicit
      var k := FindGroup(pre, d.account);
      if k == -1 then
        var g := ClientGroup(d.account, Domain(d.account), [d]);
        assert AddDeal(pre, d) == pre + [g];
        pre + [g]
      else
        assert AddDeal(pre, d)[k].domain == pre[k].domain;
        AddDeal(pre, d)
  }

  function AccountIs(name: string): Deal -> bool {
    (d: Deal) => d.account == name
  }

  /** The grouping invariant: every deal of `ds` has a group, and each group
      holds exactly the deals of its account, in order, and at least one. */
  predicate GroupedBy(gs: seq<ClientGroup>, ds: seq<Deal>) {
    (forall j :: 0 <= j < |ds| ==> FindGroup(gs, ds[j].account) >= 0)
    && (forall i :: 0 <= i < |gs| ==> gs[i].deals == Seqs.Filter(ds, AccountIs(gs[i].name)) && gs[i].deals != [])
  }

  /** Every deal lands in the group of its account, every group holds
      exactly the deals of its account in their original order, and no
      group is empty. */
  lemma {:induction false} GroupsSpec(ds: seq<Deal>)
    ensures GroupedBy(Groups(ds), ds)
    decreases |ds|
  {
    if |ds| > 0 {
      var pre, d := ds[..|ds| - 1], ds[|ds| - 1];
      GroupsSpec(pre);
      Seqs.SplitLast(ds);
      AddDealGroups(Groups(pre), pre, d);
    }
  }

  /** One `forEach` step keeps the grouping invariant. */
  lemma AddDealGroups(gs: seq<ClientGroup>, pre: seq<Deal>, d: Deal)
    requires DistinctNames(gs) && GroupedBy(gs, pre)
    ensures GroupedBy(AddDeal(gs, d), pre + [d])
  {
    var r := AddDeal(gs, d);
    var ds := pre + [d];
    var k := FindGroup(gs, d.account);
    forall i | 0 <= i < |r|
      ensures r[i].deals == Seqs.Filter(ds, AccountIs(r[i].name)) && r[i].deals != []
    {
      var p := AccountIs(r[i].name);
      Seqs.FilterSnoc(pre, d, p);
      if k == -1 && i == |gs| {
        forall j | 0 <= j < |pre|
          ensures !p(pre[j])
        {
          assert FindGroup(gs, pre[j].account) >= 0;
        }
        Seqs.FilterNone(pre, p);
      } else if i != k {
        assert r[i] == gs[i];
      }
    }
    forall j | 0 <= j < |ds|
      ensures FindGroup(r, ds[j].account) >= 0
    {
      if j < |pre| {
        var m := FindGroup(gs, pre[j].account);
        assert r[m].name == pre[j].account;
      } else if k == -1 {
        assert r[|gs|].name == d.account;
      } else {
        assert r[k].name == d.account;
      }
    }
  }

  /** The position of an account's first deal, or `|ds|` when it has none. */
  function FirstOf(ds: seq<Deal>, name: string): (k: nat)
    ensures k <= |ds|
    ensures k < |ds| ==> ds[k].account == name
    ensures forall j :: 0 <= j < k ==> ds[j].account != name
  {
    if |ds| == 0 || ds[0].account == name then 0
    else
      var k := FirstOf(ds[1..], name);
      assert forall j :: 1 <= j < 1 + k ==> ds[j] == ds[1..][j - 1];
      1 + k
  }

  /** A position before which the account never occurs, and at which it
      occurs (or the end), is its first position. */
  lemma FirstOfUnique(ds: seq<Deal>, name: string, k: nat)
    requires k <= |ds| && (k < |ds| ==> ds[k].account == name)
    requires forall j :: 0 <= j < k ==> ds[j].account != name
    ensures FirstOf(ds, name) == k
  {
  }

  /** Appending a deal keeps the first position of an account that already
      occurs, and otherwise makes the new deal its first. */
  lemma FirstOfSnoc(pre: seq<Deal>, d: Deal, name: string)
    ensures FirstOf(pre, name) < |pre| ==> FirstOf(pre + [d], name) == FirstOf(pre, name)
    ensures FirstOf(pre, name) == |pre| && d.account == name ==> FirstOf(pre + [d], name) == |pre|
  {
    var k := FirstOf(pre, name);
    assert forall j :: 0 <= j < |pre| ==> (pre + [d])[j] == pre[j];
    if k < |pre| || d.account == name {
      FirstOfUnique(pre + [d], name, k);
    }
  }

  /** The groups come in the order in which their accounts first appear
      among the deals, and every group's account does appear. */
  predicate InFirstAppearanceOrder(gs: seq<ClientGroup>, ds: seq<Deal>) {
    (forall i :: 0 <= i < |gs| ==> FirstOf(ds, gs[i].name) < |ds|)
    && forall i, j :: 0 <= i < j < |gs| ==> FirstOf(ds, gs[i].name) < FirstOf(ds, gs[j].name)
  }

  /** Every deal's account has a group. */
  predicate Covers(gs: seq<ClientGroup>, ds: seq<Deal>) {
    forall j :: 0 <= j < |ds| ==> FindGroup(gs, ds[j].account) >= 0
  }

  /** Appending a deal does not move the first deal of a grouped account. */
  lemma FirstOfGroupsSnoc(gs: seq<ClientGroup>, pre: seq<Deal>, d: Deal)
    requires InFirstAppearanceOrder(gs, pre)
    ensures forall i :: 0 <= i < |gs| ==> FirstOf(pre + [d], gs[i].name) == FirstOf(pre, gs[i].name)
  {
    forall i | 0 <= i < |gs|
      ensures FirstOf(pre + [d], gs[i].name) == FirstOf(pre, gs[i].name)
    {
      FirstOfSnoc(pre, d, gs[i].name);
    }
  }

  /** One `forEach` step keeps the first-appearance order: a new account's
      group goes last, and its first deal is the one just added. */
  lemma AddDealOrder(gs: seq<ClientGroup>, pre: seq<Deal>, d: Deal)
    requires DistinctNames(gs) && Covers(gs, pre) && InFirstAppearanceOrder(gs, pre)
    ensures InFirstAppearanceOrder(AddDeal(gs, d), pre + [d])
  {
    FirstOfGroupsSnoc(gs, pre, d);
    if FindGroup(gs, d.account) == -1 {
      UngroupedIsFresh(gs, pre, d.account);
      NewGroupOrder(gs, pre, d, ClientGroup(d.account, Domain(d.account), [d]));
    } else {
      var r := AddDeal(gs, d);
      assert forall i :: 0 <= i < |r| ==> r[i].name == gs[i].name;
    }
  }

  /** An account without a group has no deal yet. */
  lemma UngroupedIsFresh(gs: seq<ClientGroup>, pre: seq<Deal>, name: string)
    requires Covers(gs, pre) && FindGroup(gs, name) == -1
    ensures forall j :: 0 <= j < |pre| ==> pre[j].account != name
  {
    forall j | 0 <= j < |pre|
      ensures pre[j].account != name
    {
      assert FindGroup(gs, pre[j].account) >= 0;
    }
  }

  /** A deal of an account with no deal yet opens the last group, whose
      first deal is the new one. */
  lemma NewGroupOrder(gs: seq<ClientGroup>, pre: seq<Deal>, d: Deal, g: ClientGroup)
    requires InFirstAppearanceOrder(gs, pre) && g.name == d.account
    requires forall j :: 0 <= j < |pre| ==> pre[j].account != d.account
    requires forall i :: 0 <= i < |gs| ==> FirstOf(pre + [d], gs[i].name) == FirstOf(pre, gs[i].name)
    ensures InFirstAppearanceOrder(gs + [g], pre + [d])
  {
    var r, ds := gs + [g], pre + [d];
    FirstOfUnique(pre, d.account, |pre|);
    FirstOfSnoc(pre, d, d.account);
    forall i | 0 <= i < |r|
      ensures FirstOf(ds, r[i].name) <= |pre| && (i < |gs| ==> FirstOf(ds, r[i].name) < |pre|)
    {
      if i < |gs| {
        assert r[i] == gs[i];
      }
    }
  }

  /** `Object.values(groups)` lists the groups in insertion order: one
      group per distinct account, in the order the accounts first appear,
      so the first group is the first deal's account (the default
      selection). */
  lemma {:induction false} GroupsFirstAppearance(ds: seq<Deal>)
    ensures InFirstAppearanceOrder(Groups(ds), ds)
    ensures |ds| > 0 ==> |Groups(ds)| > 0 && Groups(ds)[0].name == ds[0].account
    decreases |ds|
  {
    if |ds| > 0 {
      var pre, d := ds[..|ds| - 1], ds[|ds| - 1];
      GroupsFirstAppearance(pre);
      GroupsSpec(pre);
      Seqs.SplitLast(ds);
      AddDealOrder(Groups(pre), pre, d);
      GroupsSpec(ds);
      var gs := Groups(ds);
      var k := FindGroup(gs, ds[0].account);
      assert k >= 0;
      FirstOfUnique(ds, ds[0].account, 0);
      assert k == 0;
    }
  }

  function GroupSum(f: Deal -> int): ClientGroup -> int {
    (g: ClientGroup) => Seqs.Sum(g.deals, f)
  }

  /** Summing any per-deal figure group by group gives its total over the
      filtered deals: the groups neither lose nor duplicate a deal. */
  lemma {:induction false} GroupSums(ds: seq<Deal>, f: Deal -> int)
    ensures Seqs.Sum(Groups(ds), GroupSum(f)) == Seqs.Sum(ds, f)
    decreases |ds|
  {
    if |ds| > 0 {
      var pre, d := ds[..|ds| - 1], ds[|ds| - 1];
      GroupSums(pre, f);
      AddDealSum(Groups(pre), d, f);
      Seqs.SplitLast(ds);
      Seqs.SumAppend(pre, [d], f);
    }
  }

  /** Adding a deal to the groups adds its figure to their total. */
  lemma AddDealSum(gs: seq<ClientGroup>, d: Deal, f: Deal -> int)
    requires DistinctNames(gs)
    ensures Seqs.Sum(AddDeal(gs, d), GroupSum(f)) == Seqs.Sum(gs, GroupSum(f)) + f(d)
  {
    var k := FindGroup(gs, d.account);
    Seqs.SumSingle(d, f);
    if k == -1 {
      var g := ClientGroup(d.account, Domain(d.account), [d]);
      Seqs.SumAppend(gs, [g], GroupSum(f));
      Seqs.SumSingle(g, GroupSum(f));
    } else {
      var g := gs[k].(deals := gs[k].deals + [d]);
      assert AddDeal(gs, d) == gs[k := g];
      Seqs.SumUpdate(gs, k, g, GroupSum(f));
      Seqs.SumAppend(gs[k].deals, [d], f);
    }
  }

  function DealValue(d: Deal): int {
    d.value
  }

  /** The group counts add up to the number of filtered deals, and the group
      totals to their total value. */
  lemma GroupTotals(ds: seq<Deal>)
    ensures Seqs.Sum(Groups(ds), GroupSum(Seqs.One)) == |ds|
    ensures Seqs.Sum(Groups(ds), GroupSum(DealValue)) == Seqs.Sum(ds, DealValue)
  {
    GroupSums(ds, Seqs.One);
    Seqs.SumOne(ds);
    GroupSums(ds, DealValue);
  }

  // ------------------------------------------------------------ selection

  /** A client name as React state holds it; `None` and `Some("")` are both
      falsy. */
  predicate IsSet(name: Option<string>) {
    name.Some? && name.value != ""
  }

  /** The effect that runs when the active action, the groups or the
      selection change: an action selects the account part of its deal
      name; otherwise an unset selection falls to the first group. */
  function SelectionEffect(actionDeal: Option<string>, gs: seq<ClientGroup>, selected: Option<string>): (r: Option<string>)
    ensures actionDeal.Some? ==> r == Some(Strings.SplitHead(actionDeal.value, Deals.NameSeparator))
    ensures actionDeal.None? && |gs| > 0 && !IsSet(selected) ==> r == Some(gs[0].name)
    ensures actionDeal.None? && (|gs| == 0 || IsSet(selected)) ==> r == selected
  {
    if actionDeal.Some? then Some(Strings.SplitHead(actionDeal.value, Deals.NameSeparator))
    else if |gs| > 0 && !IsSet(selected) then Some(gs[0].name)
    else selected
  }

  /** `clientGroups.find(c => c.name === selected) || clientGroups[0]`. */
  function SelectedGroup(gs: seq<ClientGroup>, selected: Option<string>): (r: Option<ClientGroup>)
    ensures r.None? <==> |gs| == 0
    ensures r.Some? ==> r.value in gs
    ensures selected.Some? && FindGroup(gs, selected.value) >= 0 ==> r == Some(gs[FindGroup(gs, selected.value)])
    ensures (selected.None? || FindGroup(gs, selected.value) == -1) && |gs| > 0 ==> r == Some(gs[0])
  {
    if selected.Some? && FindGroup(gs, selected.value) >= 0 then Some(gs[FindGroup(gs, selected.value)])
    else if |gs| > 0 then Some(gs[0])
    else None
  }

  /** Acting on a generated deal selects that deal's client. */
  lemma ActionSelectsAccount(reps: seq<SalesRep>, repId: string, noise: int -> real, k: int, gs: seq<ClientGroup>)
    requires Deals.IsNoise(noise)
    requires 0 <= k < |Deals.DealsForRep(reps, repId, noise)|
    ensures SelectionEffect(Some(Deals.DealsForRep(reps, repId, noise)[k].name), gs, None)
            == Some(Deals.DealsForRep(reps, repId, noise)[k].account)
  {
    Deals.DealNameSplits(reps, repId, noise, k);
  }

  /** Selecting a listed deal's account shows the group that holds it. */
  lemma SelectedGroupHoldsDeal(ds: seq<Deal>, j: int)
    requires 0 <= j < |ds|
    ensures SelectedGroup(Groups(ds), Some(ds[j].account)).Some?
    ensures SelectedGroup(Groups(ds), Some(ds[j].account)).value.name == ds[j].account
    ensures ds[j] in SelectedGroup(Groups(ds), Some(ds[j].account)).value.deals
  {
    GroupsSpec(ds);
    SelectingAnAccount(Groups(ds), ds, j);
  }

  /** Under the grouping invariant, selecting a deal's account shows the
      group that holds the deal. */
  lemma SelectingAnAccount(gs: seq<ClientGroup>, ds: seq<Deal>, j: int)
    requires GroupedBy(gs, ds) && 0 <= j < |ds|
    ensures SelectedGroup(gs, Some(ds[j].account)).Some?
    ensures SelectedGroup(gs, Some(ds[j].account)).value.name == ds[j].account
    ensures ds[j] in SelectedGroup(gs, Some(ds[j].account)).value.deals
  {
    var m := FindGroup(gs, ds[j].account);
    assert gs[m].deals == Seqs.Filter(ds, AccountIs(gs[m].name));
    assert AccountIs(gs[m].name)(ds[j]);
  }

  // ------------------------------------------------------------ completion form

  datatype FormOutcome = ValidationError | Completed

  /** `handleMarkComplete`: a blank field is refused, anything else
      completes the action. */
  function MarkComplete(fieldValue: string): (r: FormOutcome)
    ensures r == ValidationError <==> Strings.IsBlank(fieldValue)
  {
    Strings.TrimSpec(fieldValue);
    if Strings.Trim(fieldValue) == [] then ValidationError else Completed
  }

  // ------------------------------------------------------------ health tone

  datatype Tone = Teal | Amber | Rose

  /** The colour of a deal's health figure. */
  function HealthTone(health: int): (t: Tone)
    ensures t == Teal <==> health > 70
    ensures t == Amber <==> 50 < health <= 70
    ensures t == Rose <==> health <= 50
  {
    if health > 70 then Teal else if health > 50 then Amber else Rose
  }

  function ToneLevel(t: Tone): nat {
    match t
    case Rose => 0
    case Amber => 1
    case Teal => 2
  }

  lemma HealthToneMonotone(a: int, b: int)
    requires a <= b
    ensures ToneLevel(HealthTone(a)) <= ToneLevel(HealthTone(b))
  {
  }

  // ------------------------------------------------------------ client avatar

  /** The first character of every non-empty word. */
  function Heads(words: seq<string>): (r: string)
    ensures |r| <= |words|
  {
    if |words| == 0 then ""
    else (if words[0] == "" then "" else [words[0][0]]) + Heads(words[1..])
  }

  /** `name.split(' ').map(n => n[0]).join('').slice(0, 2)`; an empty word
      contributes nothing. */
  function Initials(name: string): (r: string)
    ensures |r| <= 2
  {
    var heads := Heads(Strings.SplitOn(name, ' '));
    if |heads| <= 2 then heads else heads[..2]
  }

  /** A name of two or more space-separated words has the first letters of
      its first two words as initials. */
  lemma InitialsOfWords(words: seq<string>)
    requires |words| >= 2
    requires forall k :: 0 <= k < |words| ==> words[k] != "" && ' ' !in words[k]
    ensures Initials(Strings.Join(words, " ")) == [words[0][0], words[1][0]]
  {
    Strings.SplitJoin(words, ' ');
    assert [' '] == " ";
    assert words[1..][1..] == words[2..];
    assert Heads(words[1..]) == [words[1][0]] + Heads(words[2..]);
    assert Heads(words) == [words[0][0]] + Heads(words[1..]);
  }

  /** The logo fallback chain: Brandfetch, then the favicon service, then
      image generation, ending with a generated logo or the initials. */
  datatype LogoStatus = Brandfetch | Favicon | Generating | Generated | ShowInitials

  /** `generating` is the ref guarding against a second generation request. */
  datatype Logo = Logo(status: LogoStatus, generating: bool)

  datatype LogoEvent = ImageError | GenerationDone(found: bool) | DomainChanged

  const LogoInitial: Logo := Logo(Brandfetch, false)

  /** One event; the flag says whether a generation request is sent. An
      outcome lands whatever the status is by then, and a domain change
      resets the status but not the guard. */
  function LogoStep(s: Logo, e: LogoEvent): (r: (Logo, bool))
    ensures r.1 ==> e == ImageError && s.status == Favicon && !s.generating && r.0 == Logo(Generating, true)
    ensures e == DomainChanged ==> r.0 == Logo(Brandfetch, s.generating) && !r.1
    ensures e.GenerationDone? ==> r.0 == Logo(if e.found then Generated else ShowInitials, false)
    ensures e == ImageError && s.status == Brandfetch ==> r.0 == Logo(Favicon, s.generating)
    ensures e == ImageError && s.status != Brandfetch && !r.1 ==> r.0 == s
  {
    match e
    case DomainChanged => (s.(status := Brandfetch), false)
    case GenerationDone(found) => (Logo(if found then Generated else ShowInitials, false), false)
    case ImageError =>
      if s.status == Brandfetch then (s.(status := Favicon), false)
      else if s.status == Favicon && !s.generating then (Logo(Generating, true), true)
      else (s, false)
  }

  function LogoLevel(t: LogoStatus): nat {
    match t
    case Brandfetch => 0
    case Favicon => 1
    case Generating => 2
    case Generated => 3
    case ShowInitials => 3
  }

  /** Short of a domain change, the chain only moves forward. */
  lemma LogoOnlyAdvances(s: Logo, e: LogoEvent)
    requires e != DomainChanged
    ensures LogoLevel(LogoStep(s, e).0.status) >= LogoLevel(s.status)
  {
  }

  /** The logo after a sequence of events, with the number of generation
      requests sent. */
  function LogoRun(s: Logo, es: seq<LogoEvent>): (r: (Logo, nat))
    decreases |es|
  {
    if |es| == 0 then (s, 0)
    else
      var step := LogoStep(s, es[0]);
      var rest := LogoRun(step.0, es[1..]);
      (rest.0, rest.1 + if step.1 then 1 else 0)
  }

  function Outcomes(es: seq<LogoEvent>): nat {
    if |es| == 0 then 0 else (if es[0].GenerationDone? then 1 else 0) + Outcomes(es[1..])
  }

  /** At most one generation is in flight: every request beyond the first
      needs an outcome in between. */
  lemma {:induction false} OneGenerationInFlight(s: Logo, es: seq<LogoEvent>)
    decreases |es|
    ensures LogoRun(s, es).1 + (if s.generating then 1 else 0)
            <= Outcomes(es) + (if LogoRun(s, es).0.generating then 1 else 0)
  {
    if |es| > 0 {
      OneGenerationInFlight(LogoStep(s, es[0]).0, es[1..]);
    }
  }

  /** The logo effect does not ignore a late outcome: a generation that
      finishes after the domain changed still sets the status. In this
      application an avatar is keyed by its client's name and the domain is
      a function of that name, so a mounted avatar never sees its domain
      change; the lemma is about the component reused across domains. */
  lemma LateOutcomeOverridesNewClient()
    ensures var run := LogoRun(LogoInitial, [ImageError, ImageError, DomainChanged, GenerationDone(true)]);
            run.0.status == Generated && run.1 == 1
  {
  }

  /** Likewise the in-flight guard is not reset by a domain change, so a
      reused component ignores a favicon failure until the earlier
      generation ends. */
  lemma GuardSurvivesDomainChange()
    ensures LogoRun(LogoInitial, [ImageError, ImageError, DomainChanged, ImageError, ImageError]).0
            == Logo(Favicon, true)
  {
  }
}

=== FILE: playback.dfy ===
/** Gapless scheduling of inbound audio segments on the output clock
    (services/liveClient.ts:215-236). Time is a real number of seconds; each
    started source node is identified by a fresh number. */
module Playback {
  import opened Wrappers
  import Pcm

  /** `nextStartTime`, the set of live source nodes, and the next fresh id. */
  datatype Scheduler = Scheduler(watermark: real, sources: set<nat>, nextId: nat)

  /** A source node started at `start` that plays until `end`. */
  datatype Segment = Segment(id: nat, start: real, end: real)

  /** What the scheduler asks of the audio graph. */
  datatype Action = Start(segment: Segment) | Stop(ids: set<nat>)

  const Initial: Scheduler := Scheduler(0.0, {}, 0)

  /** Every live source carries an id handed out earlier. */
  ghost predicate Valid(s: Scheduler) {
    forall id :: id in s.sources ==> id < s.nextId
  }

  function Max(a: real, b: real): real {
    if a >= b then a else b
  }

  /** One audio payload arriving at output time `now`, already decoded (or
      not). The watermark is raised to `now` before decoding is attempted;
      a successful segment starts at the watermark, pushes it forward by its
      duration and joins the live set. */
  function Schedule(s: Scheduler, now: real, decoded: Result<seq<Pcm.Int16>, Pcm.AudioError>): (r: (Scheduler, Option<Segment>))
    ensures r.0.nextId >= s.nextId
    ensures Valid(s) ==> Valid(r.0)
    ensures decoded.Failure? ==> r.1.None? && r.0.sources == s.sources && r.0.nextId == s.nextId
    ensures decoded.Failure? ==> r.0.watermark >= now && r.0.watermark >= s.watermark
                                 && (r.0.watermark == now || r.0.watermark == s.watermark)
    ensures decoded.Success? ==> r.1.Some? && r.0.sources == s.sources + {r.1.value.id}
    ensures decoded.Success? && Valid(s) ==> r.1.value.id !in s.sources
    ensures r.1.Some? ==> var seg := r.1.value;
              seg.start >= now && seg.start >= s.watermark
              && (seg.start == now || seg.start == s.watermark)
              && seg.start <= seg.end && r.0.watermark == seg.end
    ensures decoded.Success? ==> r.1.value.end == r.1.value.start + Pcm.Duration(|decoded.value|)
    ensures decoded.Success? && |decoded.value| > 0 ==> r.1.value.start < r.1.value.end
  {
    var base := Max(s.watermark, now);
    match decoded
    case Failure(_) => (s.(watermark := base), None)
    case Success(xs) =>
      var seg := Segment(s.nextId, base, base + Pcm.Duration(|xs|));
      (Scheduler(seg.end, s.sources + {seg.id}, s.nextId + 1), Some(seg))
  }

  /** `interrupted`: every live source is stopped, the set emptied and the
      watermark put back to 0. */
  function Interrupt(s: Scheduler): (r: (Scheduler, Action))
    ensures r.0.sources == {} && r.0.watermark == 0.0
    ensures r.1 == Stop(s.sources)
    ensures r.0.nextId == s.nextId
  {
    (Scheduler(0.0, {}, s.nextId), Stop(s.sources))
  }

  /** A source's `ended` event drops that source and nothing else. */
  function Ended(s: Scheduler, id: nat): (r: Scheduler)
    ensures id !in r.sources
    ensures forall other :: other != id ==> (other in r.sources <==> other in s.sources)
    ensures r.watermark == s.watermark && r.nextId == s.nextId
  {
    s.(sources := s.sources - {id})
  }

  /** The audio part of one inbound message. `audio` is the payload (the
      empty string is JavaScript-falsy and means none) and `outputReady`
      says whether the output context and gain node exist. */
  function OnMessageAudio(s: Scheduler, now: real, audio: string, outputReady: bool, interrupted: bool): (r: (Scheduler, seq<Action>))
    ensures Valid(s) ==> Valid(r.0)
    ensures interrupted ==> r.0.sources == {} && r.0.watermark == 0.0
    ensures !interrupted && (audio == [] || !outputReady) ==> r.0 == s && r.1 == []
    ensures !interrupted && audio != [] && outputReady ==>
              var sched := Schedule(s, now, Pcm.DecodeSegment(audio));
              r.0 == sched.0
              && (sched.1.Some? ==> r.1 == [Start(sched.1.value)])
              && (sched.1.None? ==> r.1 == [])
    ensures audio != [] && outputReady && Pcm.DecodeSegment(audio).Success? <==>
              |r.1| >= 1 && r.1[0].Start?
    ensures interrupted && !(audio != [] && outputReady) ==> r.1 == [Stop(s.sources)]
    ensures interrupted && audio != [] && outputReady ==>
              |r.1| >= 1 && r.1[|r.1| - 1] == Stop(Schedule(s, now, Pcm.DecodeSegment(audio)).0.sources)
    ensures interrupted <==> |r.1| >= 1 && r.1[|r.1| - 1].Stop?
  {
    var (s1, started) :=
      if audio != [] && outputReady then Schedule(s, now, Pcm.DecodeSegment(audio)) else (s, None);
    var acts1 := if started.Some? then [Start(started.value)] else [];
    if interrupted then
      var (s2, stop) := Interrupt(s1);
      (s2, acts1 + [stop])
    else (s1, acts1)
  }

  /** After an interrupt, the next segment starts exactly at the current
      time (the output clock never reads below 0). */
  lemma NextStartAfterInterrupt(s: Scheduler, now: real, xs: seq<Pcm.Int16>)
    requires now >= 0.0
    ensures var r := Schedule(Interrupt(s).0, now, Success(xs));
            r.1.Some? && r.1.value.start == now
  {
  }

  /** A message carrying both audio and `interrupted` first starts the new
      segment and then stops it together with every older source. */
  lemma AudioThenInterrupt(s: Scheduler, now: real, audio: string)
    requires Valid(s) && Pcm.DecodeSegment(audio).Success?
    ensures var r := OnMessageAudio(s, now, audio, true, true);
            |r.1| == 2 && r.1[0].Start? && r.1[1].Stop?
            && r.1[1].ids == s.sources + {r.1[0].segment.id}
            && r.0.sources == {}
  {
  }

  /** A payload that fails to decode leaves the live set alone and only
      raises the watermark to the current time. */
  lemma DecodeFailureSkipsSegment(s: Scheduler, now: real, audio: string)
    requires audio != [] && Pcm.DecodeSegment(audio).Failure?
    ensures var r := OnMessageAudio(s, now, audio, true, false);
            r.1 == [] && r.0.sources == s.sources
            && r.0.watermark == Max(s.watermark, now) && r.0.nextId == s.nextId
  {
  }

  /** A run of payloads with no interrupt in between: the scheduler after
      them and the segments they started, in order. */
  function Run(s: Scheduler, arrivals: seq<(real, Result<seq<Pcm.Int16>, Pcm.AudioError>)>): (r: (Scheduler, seq<Segment>))
    ensures |r.1| <= |arrivals|
    ensures r.0.watermark >= s.watermark
    decreases |arrivals|
  {
    if |arrivals| == 0 then (s, [])
    else
      var (s1, started) := Schedule(s, arrivals[0].0, arrivals[0].1);
      var (s2, rest) := Run(s1, arrivals[1..]);
      (s2, (if started.Some? then [started.value] else []) + rest)
  }

  /** Segments that lie within [from, to] in order, each ending no later
      than the next one starts. */
  ghost predicate BackToBack(from: real, segs: seq<Segment>, to: real) {
    (forall i :: 0 <= i < |segs| ==> from <= segs[i].start <= segs[i].end <= to)
    && (forall i, j :: 0 <= i < j < |segs| ==> segs[i].end <= segs[j].start)
  }

  /** Segments started in one run play back to back: each starts no earlier
      than the previous one ends, none starts before the initial watermark,
      and none ends after the final one. */
  lemma {:induction false} RunNeverOverlaps(s: Scheduler, arrivals: seq<(real, Result<seq<Pcm.Int16>, Pcm.AudioError>)>)
    ensures BackToBack(s.watermark, Run(s, arrivals).1, Run(s, arrivals).0.watermark)
    decreases |arrivals|
  {
    if |arrivals| > 0 {
      var r1 := Schedule(s, arrivals[0].0, arrivals[0].1);
      var s1 := r1.0;
      RunNeverOverlaps(s1, arrivals[1..]);
      var rr := Run(s1, arrivals[1..]);
      var s2, rest := rr.0, rr.1;
      var head := if r1.1.Some? then [r1.1.value] else [];
      var segs := head + rest;
      assert Run(s, arrivals) == (s2, segs);
      assert s1.watermark >= s.watermark;
      forall i | 0 <= i < |segs|
        ensures s.watermark <= segs[i].start <= segs[i].end <= s2.watermark
      {
        if i >= |head| {
          assert segs[i] == rest[i - |head|];
        }
      }
      forall i, j | 0 <= i < j < |segs|
        ensures segs[i].end <= segs[j].start
      {
        if i >= |head| {
          assert segs[i] == rest[i - |head|] && segs[j] == rest[j - |head|];
        } else {
          assert segs[j] == rest[j - 1];
        }
      }
    }
  }
}

=== FILE: rep_metrics.dfy ===
/** The per-rep dashboard metrics (data/repMetrics.ts): a score from the
    rep's rank, figures derived from the rep's generated deals, and seeded
    filler numbers drawn from the same `noise` as the deal generator. */
module RepMetrics {
  import opened Wrappers
  import opened Types
  import Seqs
  import Deals

  /** The rank whose score is pinned regardless of its band. */
  const PinnedRank: nat := 50
  const PinnedScore: int := 65

  /** `getScoreFromRepId` of this file: five linear bands and one pinned
      rank. The band slopes are exact rationals here. */
  function RepScore(rank: nat): (score: int)
    ensures 1 <= rank <= 100 ==> 20 <= score <= 100
  {
    if rank == PinnedRank then PinnedScore
    else if rank <= 18 then (100.0 - (rank - 1) as real * (10.0 / 17.0)).Floor
    else if rank <= 35 then (89.0 - (rank - 19) as real * (10.0 / 16.0)).Floor
    else if rank <= 80 then (79.0 - (rank - 36) as real * (19.0 / 44.0)).Floor
    else if rank <= 95 then (59.0 - (rank - 81) as real * (19.0 / 14.0)).Floor
    else (39.0 - (rank - 96) as real * (19.0 / 4.0)).Floor
  }

  /** The score bands of the ranks 1..100. */
  lemma RepScoreBands(rank: nat)
    ensures 1 <= rank <= 18 ==> 90 <= RepScore(rank) <= 100
    ensures 19 <= rank <= 35 ==> 79 <= RepScore(rank) <= 89
    ensures 36 <= rank <= 80 && rank != PinnedRank ==> 60 <= RepScore(rank) <= 79
    ensures 81 <= rank <= 95 ==> 40 <= RepScore(rank) <= 59
    ensures 96 <= rank <= 100 ==> 20 <= RepScore(rank) <= 39
  {
  }

  /** Apart from the pinned rank, a better rank never scores lower. */
  lemma RepScoreMonotone(a: nat, b: nat)
    requires 1 <= a <= b && a != PinnedRank && b != PinnedRank
    ensures RepScore(a) >= RepScore(b)
  {
  }

  /** The pinned rank scores below its successor, so ordering reps by score
      does not order them by rank. */
  lemma PinnedRankBreaksOrder()
    ensures RepScore(PinnedRank) < RepScore(PinnedRank + 1)
    ensures RepScore(PinnedRank + 1) == 72
  {
  }

  /** Above 80 the trend is improving, above 60 stable, else declining. */
  function TrendOf(score: int): (t: Trend)
    ensures t == Improving <==> score > 80
    ensures t == Stable <==> 60 < score <= 80
    ensures t == Declining <==> score <= 60
  {
    if score > 80 then Improving else if score > 60 then Stable else Declining
  }

  /** `max(1, min(8, ceil((100 - score) / 8)))`: one missing field per eight
      points short of 100, at least one and at most eight. */
  function MissingFields(score: int): (n: int)
    ensures 1 <= n <= 8
    ensures n == 1 <==> score >= 92
    ensures n == 8 <==> score <= 43
    ensures 1 < n < 8 ==> 8 * (n - 1) < 100 - score <= 8 * n
  {
    var shortfall := (100 - score + 7) / 8;
    if shortfall > 8 then 8 else if shortfall < 1 then 1 else shortfall
  }

  /** `Math.round((100 - score) * 0.4)`: the integer nearest to two fifths
      of the shortfall (the fraction is never exactly a half). */
  function PotentialGain(score: int): (g: int)
    ensures 2 * (100 - score) - 2 <= 5 * g <= 2 * (100 - score) + 2
  {
    (4 * (100 - score) + 5) / 10
  }

  /** `getStaticRand(min, max, offset)`: a seeded integer in [min, max]. */
  function StaticRand(lo: int, hi: int, f: real): (r: int)
    requires lo <= hi && 0.0 <= f < 1.0
    ensures lo <= r <= hi
  {
    Deals.FracIndex(f, hi - lo + 1) + lo
  }

  /** `parseFloat((total / quota).toFixed(1))`, held in tenths: the
      coverage multiple rounded to one decimal. */
  function CoverageTenths(total: int, quota: int): (t: int)
    requires quota != 0
    ensures t as real - 0.5 <= 10.0 * total as real / quota as real < t as real + 0.5
  {
    (10.0 * total as real / quota as real + 0.5).Floor
  }

  datatype Territory = Territory(coverage: int, accounts: int, opportunities: nat, quotaTarget: int)
  datatype PipelineStats = PipelineStats(coverageTenths: int, avgDealAge: int, atRisk: nat)
  datatype LeadMaturation = LeadMaturation(mqls: int, sqls: int, conversionRate: int)
  datatype ProcessAdherence = ProcessAdherence(completionRate: int, automated: int, manual: int, ratio: int)
  datatype DataQuality = DataQuality(score: int, maxScore: int)
  datatype Onboarding = Onboarding(completePct: int, modulesDone: int, totalModules: int, nextModule: string)

  datatype Metrics = Metrics(
    repId: string,
    dealHealthScore: int,
    trend: Trend,
    missingFields: int,
    potentialGain: int,
    territory: Territory,
    pipeline: PipelineStats,
    leadMaturation: LeadMaturation,
    processAdherence: ProcessAdherence,
    dataQuality: DataQuality,
    onboarding: Onboarding)

  const TotalModules: int := 12
  const NextModule: string := "Strategic Account Planning"

  function NotFound(repId: string): string {
    "Rep with ID " + repId + " not found"
  }

  function DealValue(d: Deal): int {
    d.value
  }

  function AtRisk(d: Deal): bool {
    d.health < 60
  }

  /** `getRepMetrics`: fails for an unknown id, otherwise assembles the
      metrics of the rep's generated deals. */
  function GetRepMetrics(reps: seq<SalesRep>, repId: string, noise: int -> real): (r: Result<Metrics, string>)
    requires Deals.IsNoise(noise)
    ensures r.Failure? <==> Deals.FindRep(reps, repId).None?
    ensures r.Failure? ==> r.error == NotFound(repId)
    ensures r.Success? ==>
              var rep := Deals.FindRep(reps, repId).value;
              var deals := Deals.DealsForRep(reps, repId, noise);
              var m := r.value;
              m.repId == repId && m.dealHealthScore == RepScore(rep.rank)
              && m.territory.opportunities == |deals| && m.pipeline.atRisk <= |deals|
              && m.territory.coverage == Seqs.Sum(deals, DealValue)
              && m.territory.quotaTarget == Deals.Quota(rep)
              && 1 <= m.missingFields <= 8
              && 15 <= m.territory.accounts <= 65 && 18 <= m.pipeline.avgDealAge <= 35
              && 150 <= m.leadMaturation.mqls <= 350 && 20 <= m.leadMaturation.sqls <= 75
              && 18 <= m.leadMaturation.conversionRate <= 35 && 55 <= m.processAdherence.completionRate <= 95
              && 120 <= m.processAdherence.automated <= 250 && 15 <= m.processAdherence.manual <= 45
              && 75 <= m.processAdherence.ratio <= 92 && 60 <= m.dataQuality.score <= 95
              && 40 <= m.onboarding.completePct <= 100 && 5 <= m.onboarding.modulesDone <= 12
    ensures r.Success? ==>
              var m := r.value;
              m.trend == TrendOf(m.dealHealthScore)
              && m.missingFields == MissingFields(m.dealHealthScore)
              && m.potentialGain == PotentialGain(m.dealHealthScore)
    ensures r.Success? ==>
              var m := r.value;
              m.territory.quotaTarget != 0
              && m.pipeline.coverageTenths == CoverageTenths(m.territory.coverage, m.territory.quotaTarget)
              && m.pipeline.atRisk == Seqs.Count(Deals.DealsForRep(reps, repId, noise), AtRisk)
  {
    match Deals.FindRep(reps, repId)
    case None => Failure(NotFound(repId))
    case Some(rep) =>
      var score := RepScore(rep.rank);
      var deals := Deals.DealsForRep(reps, repId, noise);
      var total := Seqs.Sum(deals, DealValue);
      var quota := Deals.Quota(rep);
      var seed := rep.rank;
      Success(Metrics(
        repId,
        score,
        TrendOf(score),
        MissingFields(score),
        PotentialGain(score),
        Territory(total, StaticRand(15, 65, noise(seed + 2)), |deals|, quota),
        PipelineStats(CoverageTenths(total, quota), StaticRand(18, 35, noise(seed + 3)), Seqs.Count(deals, AtRisk)),
        LeadMaturation(StaticRand(150, 350, noise(seed + 4)), StaticRand(20, 75, noise(seed + 4)),
                       StaticRand(18, 35, noise(seed + 5))),
        ProcessAdherence(StaticRand(55, 95, noise(seed + 6)), StaticRand(120, 250, noise(seed + 7)),
                         StaticRand(15, 45, noise(seed + 8)), StaticRand(75, 92, noise(seed + 9))),
        DataQuality(StaticRand(60, 95, noise(seed + 10)), 100),
        Onboarding(StaticRand(40, 100, noise(seed + 11)), StaticRand(5, 12, noise(seed + 12)), TotalModules, NextModule)))
  }

  function AtRiskStatus(d: Deal): bool {
    d.status == Risk || d.status == Critical
  }

  /** The at-risk count is the number of deals whose status is Risk or
      Critical. */
  lemma AtRiskMatchesStatus(reps: seq<SalesRep>, repId: string, noise: int -> real)
    requires Deals.IsNoise(noise) && Deals.FindRep(reps, repId).Some?
    ensures GetRepMetrics(reps, repId, noise).value.pipeline.atRisk
            == Seqs.Count(Deals.DealsForRep(reps, repId, noise), AtRiskStatus)
  {
    Seqs.CountCongruent(Deals.DealsForRep(reps, repId, noise), AtRisk, AtRiskStatus);
  }

  /** Leads and qualified leads are drawn from the same seed, so a rep with
      more leads than another never has fewer qualified leads. */
  lemma LeadsMoveTogether(f: real, g: real)
    requires 0.0 <= f < 1.0 && 0.0 <= g < 1.0
    requires StaticRand(150, 350, f) > StaticRand(150, 350, g)
    ensures StaticRand(20, 75, f) >= StaticRand(20, 75, g)
  {
  }
}

=== FILE: seqs.dfy ===
/** Order-preserving filtering and summation over sequences: the model of
    JavaScript's `Array.prototype.filter` and `reduce((sum, x) => sum + f(x), 0)`. */
module Seqs {

  /** The elements of `s` satisfying `p`, in their original order. */
  function Filter<T>(s: seq<T>, p: T -> bool): (r: seq<T>)
    ensures |r| <= |s|
    ensures forall i :: 0 <= i < |r| ==> r[i] in s && p(r[i])
    ensures forall i :: 0 <= i < |s| && p(s[i]) ==> s[i] in r
  {
    if |s| == 0 then []
    else (if p(s[0]) then [s[0]] else []) + Filter(s[1..], p)
  }

  /** Filtering a sequence with a known first element. */
  lemma FilterCons<T>(a: T, s: seq<T>, p: T -> bool)
    ensures Filter([a] + s, p) == (if p(a) then [a] else []) + Filter(s, p)
  {
    assert ([a] + s)[1..] == s;
  }

  /** Filtering distributes over concatenation, so it keeps relative order. */
  lemma {:induction false} FilterAppend<T>(s: seq<T>, t: seq<T>, p: T -> bool)
    ensures Filter(s + t, p) == Filter(s, p) + Filter(t, p)
  {
    if |s| == 0 {
      assert s + t == t;
    } else {
      assert (s + t)[1..] == s[1..] + t;
      FilterAppend(s[1..], t, p);
    }
  }

  /** Filtering with `p` and with its negation splits `s` into two parts
      that together hold every element exactly as often as `s` does. */
  lemma {:induction false} FilterPartition<T>(s: seq<T>, p: T -> bool, q: T -> bool)
    requires forall x :: q(x) == !p(x)
    ensures multiset(Filter(s, p)) + multiset(Filter(s, q)) == multiset(s)
    ensures |Filter(s, p)| + |Filter(s, q)| == |s|
  {
    if |s| > 0 {
      FilterPartition(s[1..], p, q);
      assert s == [s[0]] + s[1..];
    }
  }

  /** A predicate that holds of every element keeps the whole sequence. */
  lemma {:induction false} FilterAll<T>(s: seq<T>, p: T -> bool)
    requires forall i :: 0 <= i < |s| ==> p(s[i])
    ensures Filter(s, p) == s
  {
    if |s| > 0 {
      FilterAll(s[1..], p);
    }
  }

  /** A sequence of three or more is its first three elements followed by
      the rest. */
  lemma SplitThree<T>(s: seq<T>)
    requires |s| >= 3
    ensures s == [s[0], s[1], s[2]] + s[3..]
  {
  }

  /** A non-empty sequence is its prefix followed by its last element. */
  lemma SplitLast<T>(s: seq<T>)
    requires |s| > 0
    ensures s == s[..|s| - 1] + [s[|s| - 1]]
  {
  }

  /** `reduce((sum, x) => sum + f(x), 0)`. */
  function Sum<T>(s: seq<T>, f: T -> int): int
  {
    if |s| == 0 then 0 else f(s[0]) + Sum(s[1..], f)
  }

  lemma SumSingle<T>(x: T, f: T -> int)
    ensures Sum([x], f) == f(x)
  {
  }

  lemma {:induction false} SumAppend<T>(s: seq<T>, t: seq<T>, f: T -> int)
    ensures Sum(s + t, f) == Sum(s, f) + Sum(t, f)
  {
    if |s| == 0 {
      assert s + t == t;
    } else {
      assert (s + t)[1..] == s[1..] + t;
      SumAppend(s[1..], t, f);
    }
  }

  /** Sums of non-negative terms are non-negative. */
  lemma {:induction false} SumNonNegative<T>(s: seq<T>, f: T -> int)
    requires forall i :: 0 <= i < |s| ==> f(s[i]) >= 0
    ensures Sum(s, f) >= 0
  {
    if |s| > 0 {
      SumNonNegative(s[1..], f);
    }
  }

  /** `s.filter(p).length`. */
  function Count<T>(s: seq<T>, p: T -> bool): (n: nat)
    ensures n <= |s|
    ensures n == 0 <==> forall i :: 0 <= i < |s| ==> !p(s[i])
  {
    var r := Filter(s, p);
    assert r != [] ==> r[0] in s && p(r[0]);
    |r|
  }

  /** Counting with two predicates that agree on every element gives the
      same number. */
  lemma {:induction false} CountCongruent<T>(s: seq<T>, p: T -> bool, q: T -> bool)
    requires forall i :: 0 <= i < |s| ==> p(s[i]) == q(s[i])
    ensures Count(s, p) == Count(s, q)
    ensures Filter(s, p) == Filter(s, q)
  {
    if |s| > 0 {
      CountCongruent(s[1..], p, q);
    }
  }

  function Both<T>(p: T -> bool, q: T -> bool): T -> bool {
    (x: T) => p(x) && q(x)
  }

  /** Filtering twice is filtering once with the conjunction. */
  lemma {:induction false} FilterFilter<T>(s: seq<T>, p: T -> bool, q: T -> bool)
    ensures Filter(Filter(s, p), q) == Filter(s, Both(p, q))
  {
    if |s| > 0 {
      var t := s[1..];
      FilterFilter(t, p, q);
      assert s == [s[0]] + t;
      FilterCons(s[0], t, p);
      FilterCons(s[0], t, Both(p, q));
      if p(s[0]) {
        FilterCons(s[0], Filter(t, p), q);
      } else {
        assert Filter(s, p) == [] + Filter(t, p) == Filter(t, p);
        assert !Both(p, q)(s[0]);
      }
    }
  }

  /** The filtered sum of a sequence with a known first element. */
  lemma SumFilterCons<T>(a: T, s: seq<T>, p: T -> bool, f: T -> int)
    ensures Sum(Filter([a] + s, p), f) == (if p(a) then f(a) else 0) + Sum(Filter(s, p), f)
  {
    FilterCons(a, s, p);
    if p(a) {
      assert ([a] + Filter(s, p))[1..] == Filter(s, p);
    } else {
      assert [] + Filter(s, p) == Filter(s, p);
    }
  }

  /** Dropping one element from a filter lowers the filtered sum by exactly
      that element's term. */
  lemma {:induction false} SumFilterDropOne<T>(s: seq<T>, p: T -> bool, q: T -> bool, f: T -> int, k: int)
    requires 0 <= k < |s| && p(s[k]) && !q(s[k])
    requires forall i :: 0 <= i < |s| && i != k ==> p(s[i]) == q(s[i])
    ensures Sum(Filter(s, q), f) == Sum(Filter(s, p), f) - f(s[k])
  {
    var t := s[1..];
    assert s == [s[0]] + t;
    SumFilterCons(s[0], t, p, f);
    SumFilterCons(s[0], t, q, f);
    if k == 0 {
      CountCongruent(t, p, q);
    } else {
      SumFilterDropOne(t, p, q, f, k - 1);
    }
  }

  lemma {:induction false} FilterNone<T>(s: seq<T>, p: T -> bool)
    requires forall i :: 0 <= i < |s| ==> !p(s[i])
    ensures Filter(s, p) == []
  {
    if |s| > 0 {
      FilterNone(s[1..], p);
    }
  }

  /** Filtering a sequence with a known last element. */
  lemma FilterSnoc<T>(s: seq<T>, a: T, p: T -> bool)
    ensures Filter(s + [a], p) == Filter(s, p) + (if p(a) then [a] else [])
  {
    FilterAppend(s, [a], p);
    assert [a][1..] == [];
  }

  /** Replacing one element changes a sum by the difference of its terms. */
  lemma {:induction false} SumUpdate<T>(s: seq<T>, i: int, x: T, f: T -> int)
    requires 0 <= i < |s|
    ensures Sum(s[i := x], f) == Sum(s, f) - f(s[i]) + f(x)
  {
    if i > 0 {
      assert s[i := x][1..] == s[1..][i - 1 := x];
      SumUpdate(s[1..], i - 1, x, f);
    } else {
      assert s[i := x][1..] == s[1..];
    }
  }

  function One<T>(x: T): int {
    1
  }

  lemma {:induction false} SumOne<T>(s: seq<T>)
    ensures Sum(s, One) == |s|
  {
    if |s| > 0 {
      SumOne(s[1..]);
    }
  }
}

=== FILE: stable_sort.dfy ===
/** `Array.prototype.sort((a, b) => key(b) - key(a))`: JavaScript's sort is
    stable, so this orders by non-increasing key and keeps the input order
    among equal keys. Modelled as insertion sort on sequences. */
module StableSort {
  import Seqs

  predicate SortedDesc<T>(s: seq<T>, key: T -> int) {
    forall i, j :: 0 <= i < j < |s| ==> key(s[i]) >= key(s[j])
  }

  /** Puts `x` in front of the first element whose key is not larger. */
  function Insert<T>(x: T, t: seq<T>, key: T -> int): (r: seq<T>)
    ensures |r| == |t| + 1
    ensures multiset(r) == multiset{x} + multiset(t)
  {
    if |t| == 0 || key(x) >= key(t[0]) then [x] + t
    else
      assert t == [t[0]] + t[1..];
      [t[0]] + Insert(x, t[1..], key)
  }

  /** Every element of an insertion is `x` or an element of `t`. */
  lemma InsertMembers<T>(x: T, t: seq<T>, key: T -> int, i: int)
    requires 0 <= i < |t| + 1
    ensures Insert(x, t, key)[i] == x || Insert(x, t, key)[i] in t
  {
    var r := Insert(x, t, key);
    assert r[i] in multiset(r);
  }

  lemma {:induction false} InsertSorted<T>(x: T, t: seq<T>, key: T -> int)
    requires SortedDesc(t, key)
    ensures SortedDesc(Insert(x, t, key), key)
  {
    if |t| > 0 && key(x) < key(t[0]) {
      var rest := Insert(x, t[1..], key);
      InsertSorted(x, t[1..], key);
      var r := [t[0]] + rest;
      forall j | 1 <= j < |r|
        ensures key(t[0]) >= key(r[j])
      {
        InsertMembers(x, t[1..], key, j - 1);
        assert r[j] == rest[j - 1];
        if r[j] != x {
          var m :| 0 <= m < |t[1..]| && t[1..][m] == r[j];
          assert t[m + 1] == r[j];
        }
      }
    }
  }

  function Sort<T>(s: seq<T>, key: T -> int): (r: seq<T>)
    ensures |r| == |s|
    ensures multiset(r) == multiset(s)
  {
    if |s| == 0 then []
    else
      assert s == [s[0]] + s[1..];
      Insert(s[0], Sort(s[1..], key), key)
  }

  /** The sort orders by non-increasing key. */
  lemma {:induction false} SortSorted<T>(s: seq<T>, key: T -> int)
    ensures SortedDesc(Sort(s, key), key)
  {
    if |s| > 0 {
      SortSorted(s[1..], key);
      InsertSorted(s[0], Sort(s[1..], key), key);
    }
  }

  /** Keeps the elements with key `k`. */
  function KeyIs<T>(key: T -> int, k: int): T -> bool {
    (x: T) => key(x) == k
  }

  /** Inserting `x` before every element of key at most its own keeps the
      relative order of each key class, with `x` at the front of its own. */
  lemma {:induction false} InsertStable<T>(x: T, t: seq<T>, key: T -> int, k: int)
    requires SortedDesc(t, key)
    ensures Seqs.Filter(Insert(x, t, key), KeyIs(key, k)) == Seqs.Filter([x] + t, KeyIs(key, k))
  {
    var p := KeyIs(key, k);
    if |t| > 0 && key(x) < key(t[0]) {
      var t0, tail := t[0], t[1..];
      var rest := Insert(x, tail, key);
      var fx := if p(x) then [x] else [];
      var f0 := if p(t0) then [t0] else [];
      assert SortedDesc(tail, key);
      InsertStable(x, tail, key, k);
      assert Insert(x, t, key) == [t0] + rest;
      assert fx == [] || f0 == [];
      calc {
        Seqs.Filter(Insert(x, t, key), p);
        Seqs.Filter([t0] + rest, p);
        { Seqs.FilterCons(t0, rest, p); }
        f0 + Seqs.Filter(rest, p);
        { Seqs.FilterCons(x, tail, p); }
        f0 + (fx + Seqs.Filter(tail, p));
        { SwapEmpty(f0, fx, Seqs.Filter(tail, p)); }
        fx + (f0 + Seqs.Filter(tail, p));
        { Seqs.FilterCons(t0, tail, p); assert t == [t0] + tail; }
        fx + Seqs.Filter(t, p);
        { Seqs.FilterCons(x, t, p); }
        Seqs.Filter([x] + t, p);
      }
    }
  }

  lemma SwapEmpty<T>(a: seq<T>, b: seq<T>, c: seq<T>)
    requires a == [] || b == []
    ensures a + (b + c) == b + (a + c)
  {
    if a == [] {
      assert a + (b + c) == b + c == b + (a + c);
    } else {
      assert a + (b + c) == a + c == b + (a + c);
    }
  }

  /** Stability: within every key class the sorted sequence lists the
      elements in their original order. */
  lemma {:induction false} SortStable<T>(s: seq<T>, key: T -> int, k: int)
    ensures Seqs.Filter(Sort(s, key), KeyIs(key, k)) == Seqs.Filter(s, KeyIs(key, k))
  {
    if |s| > 0 {
      var p := KeyIs(key, k);
      SortStable(s[1..], key, k);
      SortSorted(s[1..], key);
      InsertStable(s[0], Sort(s[1..], key), key, k);
      Seqs.FilterCons(s[0], Sort(s[1..], key), p);
      Seqs.FilterCons(s[0], s[1..], p);
      assert s == [s[0]] + s[1..];
    }
  }

  /** Sorting does not change a sum over the elements. */
  lemma {:induction false} SortPreservesSum<T>(s: seq<T>, key: T -> int, f: T -> int)
    ensures Seqs.Sum(Sort(s, key), f) == Seqs.Sum(s, f)
  {
    if |s| > 0 {
      SortPreservesSum(s[1..], key, f);
      InsertPreservesSum(s[0], Sort(s[1..], key), key, f);
    }
  }

  lemma {:induction false} InsertPreservesSum<T>(x: T, t: seq<T>, key: T -> int, f: T -> int)
    ensures Seqs.Sum(Insert(x, t, key), f) == f(x) + Seqs.Sum(t, f)
  {
    if |t| > 0 && key(x) < key(t[0]) {
      InsertPreservesSum(x, t[1..], key, f);
      assert ([t[0]] + Insert(x, t[1..], key))[1..] == Insert(x, t[1..], key);
    }
  }
}

=== FILE: strings.dfy ===
/** The JavaScript string operations the application relies on, over
    `string == seq<char>`: `trim`, ASCII `toLowerCase`, `includes`,
    `indexOf`, `split`, `join` and decimal `toString`/`parseInt`. */
module Strings {

  /** ECMAScript WhiteSpace and LineTerminator code points: what `trim`
      removes and what the regular-expression class `\s` matches. */
  predicate IsJsWhitespace(c: char) {
    var n := c as int;
    || 0x09 <= n <= 0x0D  // TAB, LF, VT, FF, CR
    || n == 0x20 || n == 0xA0 || n == 0x1680
    || 0x2000 <= n <= 0x200A
    || n == 0x2028 || n == 0x2029 || n == 0x202F || n == 0x205F
    || n == 0x3000 || n == 0xFEFF
  }

  predicate IsBlank(s: string) {
    forall i :: 0 <= i < |s| ==> IsJsWhitespace(s[i])
  }

  /** `s.trimStart()`: the suffix after the leading run of whitespace. */
  function TrimStart(s: string): (r: string)
    ensures |r| <= |s| && r == s[|s| - |r|..]
    ensures IsBlank(s[..|s| - |r|])
    ensures r != [] ==> !IsJsWhitespace(r[0])
  {
    if |s| > 0 && IsJsWhitespace(s[0]) then
      var r := TrimStart(s[1..]);
      assert s[..|s| - |r|] == [s[0]] + s[1..][..|s| - 1 - |r|];
      r
    else s
  }

  /** `s.trimEnd()`: the prefix before the trailing run of whitespace. */
  function TrimEnd(s: string): (r: string)
    ensures |r| <= |s| && r == s[..|r|]
    ensures IsBlank(s[|r|..])
    ensures r != [] ==> !IsJsWhitespace(r[|r| - 1])
  {
    if |s| > 0 && IsJsWhitespace(s[|s| - 1]) then
      var r := TrimEnd(s[..|s| - 1]);
      assert s[|r|..] == s[..|s| - 1][|r|..] + [s[|s| - 1]];
      r
    else s
  }

  /** `s.trim()`. */
  function Trim(s: string): string {
    TrimEnd(TrimStart(s))
  }

  /** `trim` removes only whitespace from the two ends: what is left is a
      contiguous slice of the input that neither starts nor ends with
      whitespace, and it is empty exactly when the input was blank. */
  lemma TrimSpec(s: string)
    ensures exists i, j :: 0 <= i <= j <= |s| && Trim(s) == s[i..j]
                            && IsBlank(s[..i]) && IsBlank(s[j..])
    ensures Trim(s) != [] ==> !IsJsWhitespace(Trim(s)[0]) && !IsJsWhitespace(Trim(s)[|Trim(s)| - 1])
    ensures Trim(s) == [] <==> IsBlank(s)
  {
    var t := TrimStart(s);
    var i := |s| - |t|;
    var r := TrimEnd(t);
    var j := i + |r|;
    assert r == s[i..j];
    assert s[j..] == t[|r|..];
    if r == [] {
      assert s == s[..i] + s[j..];
    }
  }

  /** ASCII `toLowerCase` of one character; other characters are kept. */
  function LowerChar(c: char): char {
    if 'A' <= c <= 'Z' then (c as int - 'A' as int + 'a' as int) as char else c
  }

  function ToLower(s: string): (r: string)
    ensures |r| == |s|
    ensures forall i :: 0 <= i < |s| ==> r[i] == LowerChar(s[i])
  {
    seq(|s|, i requires 0 <= i < |s| => LowerChar(s[i]))
  }

  predicate IsLower(s: string) {
    forall i :: 0 <= i < |s| ==> !('A' <= s[i] <= 'Z')
  }

  /** Lower-casing leaves no upper-case letter, changes nothing that is not
      a letter, and is idempotent. */
  lemma ToLowerSpec(s: string)
    ensures IsLower(ToLower(s))
    ensures ToLower(ToLower(s)) == ToLower(s)
    ensures forall i :: 0 <= i < |s| && IsJsWhitespace(s[i]) ==> ToLower(s)[i] == s[i]
  {
  }

  /** `t` occurs in `s` starting at position `i`. */
  predicate OccursAt(s: string, t: string, i: int) {
    0 <= i <= |s| - |t| && s[i..i + |t|] == t
  }

  /** An occurrence past the first character is an occurrence in the tail. */
  lemma OccursAtTail(s: string, t: string, j: int)
    requires |s| > 0 && j >= 1
    ensures OccursAt(s, t, j) <==> OccursAt(s[1..], t, j - 1)
  {
    if 0 <= j <= |s| - |t| {
      var here, there := s[j..j + |t|], s[1..][j - 1..j - 1 + |t|];
      assert forall k :: 0 <= k < |t| ==> here[k] == there[k];
      assert here == there;
    }
  }

  /** `s.indexOf(t)`: the first position where `t` occurs, or -1. */
  function IndexOf(s: string, t: string): (k: int)
    ensures k == -1 || OccursAt(s, t, k)
    ensures forall j :: 0 <= j && (k == -1 || j < k) ==> !OccursAt(s, t, j)
    decreases |s|
  {
    if |t| > |s| then -1
    else if s[..|t|] == t then 0
    else
      var k := IndexOf(s[1..], t);
      assert forall j :: 1 <= j ==> (OccursAt(s, t, j) <==> OccursAt(s[1..], t, j - 1)) by {
        forall j | 1 <= j {
          OccursAtTail(s, t, j);
        }
      }
      if k == -1 then -1 else k + 1
  }

  /** `s.includes(t)`. */
  predicate Contains(s: string, t: string) {
    IndexOf(s, t) >= 0
  }

  /** `includes` holds exactly when `t` occurs at some position of `s`. */
  lemma ContainsSpec(s: string, t: string)
    ensures Contains(s, t) <==> exists i :: OccursAt(s, t, i)
  {
  }

  /** `s.split(sep)[0]`: the text before the first occurrence of `sep`. */
  function SplitHead(s: string, sep: string): string
    requires |sep| > 0
  {
    var k := IndexOf(s, sep);
    if k < 0 then s else s[..k]
  }

  /** When `a` cannot take part in an occurrence of `sep` (no character of
      `a` is a character of `sep`), the head of `a + sep + b` is `a`. */
  lemma SplitHeadOfJoin(a: string, sep: string, b: string)
    requires |sep| > 0
    requires forall i, j :: 0 <= i < |a| && 0 <= j < |sep| ==> a[i] != sep[j]
    ensures SplitHead(a + sep + b, sep) == a
  {
    var s := a + sep + b;
    assert OccursAt(s, sep, |a|);
    assert s[..|a|] == a;
    forall j | 0 <= j < |a|
      ensures !OccursAt(s, sep, j)
    {
      assert s[j] == a[j];
    }
  }

  /** `s.indexOf(c)` for a character known to occur in `s`. */
  function IndexOfChar(s: string, c: char): (k: nat)
    requires c in s
    ensures k < |s| && s[k] == c && c !in s[..k]
  {
    if s[0] == c then 0
    else
      var k := IndexOfChar(s[1..], c);
      assert s[..k + 1] == [s[0]] + s[1..][..k];
      k + 1
  }

  /** The first occurrence is the only position with `c` and no earlier `c`. */
  lemma IndexOfCharUnique(s: string, c: char, n: nat)
    requires n < |s| && s[n] == c && c !in s[..n]
    ensures IndexOfChar(s, c) == n
  {
  }

  /** `s.split(c)` for a one-character separator: every piece, empty ones
      included, in order. */
  function SplitOn(s: string, c: char): (r: seq<string>)
    ensures |r| >= 1
    ensures forall k :: 0 <= k < |r| ==> c !in r[k]
    decreases |s|
  {
    if c !in s then [s]
    else
      var k := IndexOfChar(s, c);
      [s[..k]] + SplitOn(s[k + 1..], c)
  }

  /** `lines.join(sep)`. */
  function Join(lines: seq<string>, sep: string): string
  {
    if |lines| == 0 then ""
    else if |lines| == 1 then lines[0]
    else lines[0] + sep + Join(lines[1..], sep)
  }

  /** The number of occurrences of the character `c` in `s`. */
  function Occurrences(s: string, c: char): nat
  {
    if |s| == 0 then 0 else (if s[0] == c then 1 else 0) + Occurrences(s[1..], c)
  }

  lemma {:induction false} OccurrencesAppend(s: string, t: string, c: char)
    ensures Occurrences(s + t, c) == Occurrences(s, c) + Occurrences(t, c)
  {
    if |s| == 0 {
      assert s + t == t;
    } else {
      assert (s + t)[1..] == s[1..] + t;
      OccurrencesAppend(s[1..], t, c);
    }
  }

  lemma {:induction false} OccurrencesAbsent(s: string, c: char)
    requires c !in s
    ensures Occurrences(s, c) == 0
  {
    if |s| > 0 {
      assert c !in s[1..];
      OccurrencesAbsent(s[1..], c);
    }
  }

  /** Joining `n` pieces that do not contain the one-character separator
      puts exactly `n - 1` separators in the result. */
  lemma {:induction false} JoinOccurrences(lines: seq<string>, c: char)
    requires |lines| > 0
    requires forall k :: 0 <= k < |lines| ==> c !in lines[k]
    ensures Occurrences(Join(lines, [c]), c) == |lines| - 1
  {
    OccurrencesAbsent(lines[0], c);
    if |lines| > 1 {
      JoinOccurrences(lines[1..], c);
      OccurrencesAppend(lines[0] + [c], Join(lines[1..], [c]), c);
      OccurrencesAppend(lines[0], [c], c);
    }
  }

  /** Joining `n` pieces free of `c` with a separator holding `c` once puts
      exactly `n - 1` copies of `c` in the result. */
  lemma {:induction false} JoinCount(lines: seq<string>, sep: string, c: char)
    requires |lines| > 0 && Occurrences(sep, c) == 1
    requires forall k :: 0 <= k < |lines| ==> c !in lines[k]
    ensures Occurrences(Join(lines, sep), c) == |lines| - 1
  {
    OccurrencesAbsent(lines[0], c);
    if |lines| > 1 {
      JoinCount(lines[1..], sep, c);
      OccurrencesAppend(lines[0] + sep, Join(lines[1..], sep), c);
      OccurrencesAppend(lines[0], sep, c);
    }
  }

  /** Splitting a join on a separator absent from every piece gives the
      pieces back. */
  lemma {:induction false} SplitJoin(lines: seq<string>, c: char)
    requires |lines| > 0
    requires forall k :: 0 <= k < |lines| ==> c !in lines[k]
    ensures SplitOn(Join(lines, [c]), c) == lines
  {
    if |lines| > 1 {
      SplitJoinHead(lines, c);
      SplitJoin(lines[1..], c);
    }
  }

  /** Splitting a join cuts off the first piece at the first separator. */
  lemma SplitJoinHead(lines: seq<string>, c: char)
    requires |lines| > 1 && c !in lines[0]
    ensures SplitOn(Join(lines, [c]), c) == [lines[0]] + SplitOn(Join(lines[1..], [c]), c)
  {
    var s, n := Join(lines, [c]), |lines[0]|;
    assert s == lines[0] + [c] + Join(lines[1..], [c]);
    assert s[n] == c && s[..n] == lines[0];
    IndexOfCharUnique(s, c, n);
    assert s[n + 1..] == Join(lines[1..], [c]);
  }

  // ---------------------------------------------------------------- decimals

  predicate IsDigit(c: char) {
    '0' as int <= c as int <= '9' as int
  }

  /** `n.toString()` for a natural number. */
  function NatToString(n: nat): (s: string)
    ensures |s| > 0
    ensures forall i :: 0 <= i < |s| ==> IsDigit(s[i])
    ensures n < 10 <==> |s| == 1
  {
    if n < 10 then [('0' as int + n) as char]
    else NatToString(n / 10) + [('0' as int + n % 10) as char]
  }

  function DigitValue(c: char): (d: nat)
    requires IsDigit(c)
    ensures d < 10
  {
    c as int - '0' as int
  }

  /** `parseInt(s, 10)` of a string made of decimal digits only. */
  function DigitsValue(s: string): nat
    requires forall i :: 0 <= i < |s| ==> IsDigit(s[i])
  {
    if |s| == 0 then 0
    else 10 * DigitsValue(s[..|s| - 1]) + DigitValue(s[|s| - 1])
  }

  /** Parsing what `toString` printed gives the number back. */
  lemma {:induction false} NatToStringRoundTrip(n: nat)
    ensures DigitsValue(NatToString(n)) == n
  {
    if n >= 10 {
      var s := NatToString(n);
      assert s[..|s| - 1] == NatToString(n / 10);
      NatToStringRoundTrip(n / 10);
    }
  }

  /** `toString` is injective on natural numbers. */
  lemma NatToStringInjective(m: nat, n: nat)
    requires NatToString(m) == NatToString(n)
    ensures m == n
  {
    NatToStringRoundTrip(m);
    NatToStringRoundTrip(n);
  }

  /** `n.toString().padStart(2, '0')`. */
  function PadTwo(n: nat): (s: string)
    ensures |s| >= 2
    ensures forall i :: 0 <= i < |s| ==> IsDigit(s[i])
  {
    if n < 10 then "0" + NatToString(n) else NatToString(n)
  }

  /** Padding a leading zero does not change the value a digit string denotes. */
  lemma PadTwoValue(n: nat)
    ensures DigitsValue(PadTwo(n)) == n
    ensures n < 100 ==> |PadTwo(n)| == 2
  {
    NatToStringRoundTrip(n);
    if n < 10 {
      var s := PadTwo(n);
      assert s[..|s| - 1] == "0";
    } else if n < 100 {
      assert NatToString(n) == NatToString(n / 10) + [('0' as int + n % 10) as char];
    }
  }

  function Pow10(k: nat): (p: nat)
    ensures p >= 1
  {
    if k == 0 then 1 else 10 * Pow10(k - 1)
  }

  /** The value of a concatenation of digit strings: the first part shifted
      left by the length of the second. */
  lemma {:induction false} DigitsValueAppend(s: string, t: string)
    requires forall i :: 0 <= i < |s| ==> IsDigit(s[i])
    requires forall i :: 0 <= i < |t| ==> IsDigit(t[i])
    ensures forall i :: 0 <= i < |s + t| ==> IsDigit((s + t)[i])
    ensures DigitsValue(s + t) == DigitsValue(s) * Pow10(|t|) + DigitsValue(t)
  {
    if |t| == 0 {
      assert s + t == s;
    } else {
      var u, last := t[..|t| - 1], t[|t| - 1];
      assert (s + t)[..|s + t| - 1] == s + u;
      assert (s + t)[|s + t| - 1] == last;
      DigitsValueAppend(s, u);
      assert DigitsValue(s + t) == 10 * DigitsValue(s + u) + DigitValue(last);
      assert DigitsValue(t) == 10 * DigitsValue(u) + DigitValue(last);
      ShiftDigit(DigitsValue(s), DigitsValue(u), Pow10(|u|), DigitValue(last));
    }
  }

  lemma ShiftDigit(a: int, b: int, p: int, d: int)
    ensures 10 * (a * p + b) + d == a * (10 * p) + (10 * b + d)
  {
  }
}

=== FILE: types.dfy ===
/** The shared records of the application (types.ts). Only the fields that
    some modelled computation reads are kept. */
module Types {
  import opened Wrappers

  datatype AppState = Setup | Live | Analyzing | Report | History

  datatype Speaker = User | Model

  /** One committed line of the conversation; `timestamp` is the
      millisecond clock value supplied by the caller. */
  datatype TranscriptionItem = TranscriptionItem(speaker: Speaker, text: string, timestamp: int)

  datatype Difficulty = Easy | Medium | Hard | Impossible

  /** The four call lengths a scenario can ask for (`'NONE'` is no limit). */
  datatype CallDuration = FiveMin | TenMin | FifteenMin | NoLimit

  /** The label a scenario carries for its call length. */
  function DurationLabel(d: CallDuration): string {
    match d
    case FiveMin => "5 MIN"
    case TenMin => "10 MIN"
    case FifteenMin => "15 MIN"
    case NoLimit => "NONE"
  }

  datatype Scenario = Scenario(
    product: string,
    prospectRole: string,
    difficulty: Difficulty,
    duration: CallDuration,
    context: string)

  /** A sales rep. `rank` is the number `parseInt` reads from the rep's id
      (the id's digits); the rep directory itself is a parameter of every
      computation that needs it. */
  datatype SalesRep = SalesRep(
    id: string,
    rank: nat,
    firstName: string,
    lastName: string,
    email: string,
    quota: Option<int>)

  datatype Stage = Discovery | Qualification | Proposal | Negotiation | ClosedWon | ClosedLost

  datatype DealStatus = Healthy | Watch | Risk | Critical

  /** A pipeline deal; `closeDate` is a formatted date and is not kept. */
  datatype Deal = Deal(
    id: int,
    name: string,
    account: string,
    value: int,
    stage: Stage,
    health: int,
    ownerId: string,
    ownerName: string,
    status: DealStatus)

  datatype Trend = Improving | Declining | Stable
}

=== FILE: wrappers.dfy ===
/** Failure-carrying values shared by every module of the model. */
module Wrappers {

  /** A value that may be absent: JavaScript's `null`/`undefined`. */
  datatype Option<+T> = None | Some(value: T) {
    predicate IsFailure() {
      None?
    }

    function PropagateFailure<U>(): Option<U>
      requires None?
    {
      None
    }

    function Extract(): T
      requires Some?
    {
      value
    }

    function GetOr(default: T): T {
      match this
      case Some(v) => v
      case None => default
    }
  }

  /** The outcome of an operation that can throw: a value or the error it raised. */
  datatype Result<+R, +E> = Success(value: R) | Failure(error: E) {
    predicate IsFailure() {
      Failure?
    }

    function PropagateFailure<U>(): Result<U, E>
      requires Failure?
    {
      Failure(error)
    }

    function Extract(): R
      requires Success?
    {
      value
    }
  }
}
